=== FILE: README.md ===
# TFMTL data preparation and multi-task wiring, in Dafny

TFMTL trains one text classifier per dataset, with some layers shared between datasets. This project models three pieces of it as pure Dafny functions and proves what they promise.

1. **Dataset preparation** (`tasks/code/dataset.py`). The `Dataset` constructor works in stages:
   - It reads a table.
   - It picks the label and text fields and concatenates each row's text fields.
   - It cleans every text and appends ` EOS`.
   - It records the old and new lengths.
   - It splits the rows into train/valid/test index lists, and may down-scale them.
   - It computes the maximum document length.
   - Optionally it saves a "basic" word-count table of the training texts.
   - It builds or loads a vocabulary, then writes one TFRecord file per split plus a pickled argument dictionary.

   `merge_dict_write_tfrecord` runs the constructor twice over a list of datasets. The first pass saves each dataset's basic counts. These are merged with `combine_dicts` into one public table. The second pass writes every dataset's records using the merged table and the largest document length.
2. **Encoder composition** (`mtl/util/encoder_factory.py`). From a JSON architecture it builds a map from dataset to encoder template. Either one shared `encoder_shared` template serves every dataset, or each dataset gets its own `encoder_{ds}`. An encoder applies its embedder, then its extractor.
3. **The multi-task model** (`mtl/models/gen_mult.py`):
   - the constructor's checks;
   - the shared and private MLP templates;
   - one logit layer per dataset;
   - how a batch's inputs are selected from its text fields;
   - the alpha-weighted multi-task loss.

The file system is a map from path to content (`Dataset.Files`). Pickles, TFRecord files and the argument dictionary are datatypes. Tensors are terms that record how they were computed (`Graph.Tensor`). Each TensorFlow template is a datatype value. Within the maps that one `build_mlps`, `build_logits` or `create_encoders` call returns, datasets with equal templates share all of that template's parameters. Different templates can still hold one template in common: with only the embedders tied, the private encoders `encoder_a` and `encoder_b` wrap the same embedder, so they share its variables. Python's `int()` truncation, slicing, negative list indices, `str.split`, `os.path.join` and `str(int)` are written out in `py_builtins.dfy`.

The following are parameters, not definitions:
- the collaborators the source calls but does not define (the `Dataset.Toolkit` record): `tweet_clean`, the vocabulary processor's `fit`/`transform`, the trimmed public vocabulary, `bag_of_words`;
- the seeded numpy permutation (`Splits.Permuter`: any function that reorders its input);
- the embedder/extractor factories;
- the reader of `args.json`;
- the session value of a loss tensor.

Files: `wrappers.dfy`, `py_builtins.dfy`, `vocab_freq.dfy`, `splits.dfy`, `dataset.dfy`, `merge_pipeline.dfy`, `graph.dfy`, `encoder_factory.dfy`, `gen_mult.dfy`.

## Model

| member | source | states |
|---|---|---|
| VocabFreq.CombineDicts | tasks/code/dataset.py:439-441 | the merged table has exactly the words of either table, and each count is the sum of both counts, a missing word counting 0 |
| VocabFreq.CombineCommutative | tasks/code/dataset.py:439-441 | merging x with y gives the same table as merging y with x |
| VocabFreq.CombineAssociative | tasks/code/dataset.py:439-441 | merging three tables does not depend on grouping |
| VocabFreq.CombineIdentity | tasks/code/dataset.py:439-441 | the empty dictionary is an identity on both sides |
| VocabFreq.CombineExample | tasks/code/dataset.py:439-441 | {the:5, cat:2} merged with {the:3, dog:1} is {the:8, cat:2, dog:1} |
| VocabFreq.TotalCountAppend | tasks/code/dataset.py:433-435 | the summed count over two lists of tables is the sum of the two lists' counts |
| VocabFreq.MergeAll | tasks/code/dataset.py:432-435 | folding from `{}` gives a table whose words are those of some input table and whose counts are the sums over all tables |
| VocabFreq.MergeAllStep | tasks/code/dataset.py:433-435 | one more loop iteration adds exactly the new table's counts and words |
| VocabFreq.TotalCountPermutation | tasks/code/dataset.py:433-435 | a word's total count is the same for any reordering of the tables |
| VocabFreq.MergeAllOrderIndependent | tasks/code/dataset.py:427-436 | reordering the vocabulary paths does not change the merged table |
| Splits.RandomSplitTrainValidTest | tasks/code/dataset.py:397-405 | train, valid and test are consecutive slices of one permutation of 0..n-1. With non-negative ratios summing to at most 1, train has int(train_ratio·n) items and train plus valid has int((train_ratio+valid_ratio)·n) |
| Splits.RandomCutsOrdered | tasks/code/dataset.py:403-405 | for such ratios the two cuts lie in order within 0..n |
| Splits.RandomSplitWellFormed | tasks/code/dataset.py:397-405 | the three slices are duplicate-free and pairwise disjoint |
| Splits.RandomSplitCovers | tasks/code/dataset.py:397-405 | every index below n lies in some slice, and nothing else does |
| Splits.CarveValidAsWritten | tasks/code/dataset.py:407-412 | the two pieces concatenate to the permuted train list, and the first piece ends at the slice bound of int(1.0 - valid_ratio·len) |
| Splits.AsWrittenCut | tasks/code/dataset.py:412 | the as-written cut is 1 for ratio 0, 0 when 0 < valid_ratio·len < 2, and len+1-floor(valid_ratio·len) from 2 up to len |
| Splits.CarveValidAsWrittenZeroRatio | tasks/code/dataset.py:407-412 | with valid_ratio 0, train keeps exactly one item and valid takes the rest |
| Splits.CarveValidAsWrittenSmall | tasks/code/dataset.py:407-412 | when 0 < valid_ratio·len < 2, train comes out empty and valid takes everything |
| Splits.CarveValidAsWrittenLarge | tasks/code/dataset.py:407-412 | when 2 <= valid_ratio·len <= len, valid gets floor(valid_ratio·len) - 1 items |
| Splits.CarveValidCounterexample | tasks/code/dataset.py:412 | for ten train indices and the default ratio 0.1, the as-written train part is empty, while the corrected carve keeps 9 and moves 1 |
| Splits.IntendedCut | tasks/code/dataset.py:412 | the corrected cut int((1-valid_ratio)·len) lies within the list and leaves the ceiling of valid_ratio·len items for valid |
| Splits.CarveValid | tasks/code/dataset.py:407-412 | corrected carve: the pieces concatenate to the permuted train list, and valid has ceil(valid_ratio·len) items for ratios in [0, 1] |
| Splits.ScaleCut | tasks/code/dataset.py:395 | for a ratio in [0, 1] the scaled size int(ratio·len) lies within the list |
| Splits.Scale | tasks/code/dataset.py:392-395 | the result is a prefix of the permuted list and a sub-multiset of the input. For ratios in [0, 1] it has int(ratio·len) items |
| Splits.ScaleAll | tasks/code/dataset.py:382-385 | each of the three lists becomes a prefix of its own seeded permutation, of int(scale_ratio·len) items for ratios in [0, 1] |
| Splits.ScaleKeepsWellFormed | tasks/code/dataset.py:382-385 | down-scaling all three lists keeps them duplicate-free and pairwise disjoint |
| Splits.Unchecked | tasks/code/dataset.py:349-368 | without an index file the lists are the random three-way split. With one, it fails exactly when 'train' or 'test' is missing. The test list is the file's. A given 'valid' list is used with the given train list; otherwise train and valid together are the seeded permutation of the given train list, valid taking the ceiling of valid_ratio·len (corrected carve, see Findings) |
| Splits.Split | tasks/code/dataset.py:347-390 | succeeds exactly when the chosen lists pass the duplicate and overlap assertions, and any result is well-formed. An index file without 'train' and 'test' fails. Without a scale ratio below 1 the chosen lists come back unchanged; with one, each list is down-scaled with the same seed |
| Splits.SplitRandomSucceeds | tasks/code/dataset.py:349-355 | with no index file and ordered ratios, the split never fails |
| Splits.SplitGivenSucceeds | tasks/code/dataset.py:357-376 | a consistent index file always splits. With 'valid' given and no down-scaling, its three lists are returned unchanged |
| Dataset.ReadLine | tasks/code/dataset.py:98 | `readline` returns a prefix of the content that contains no newline before its end, ending in a newline unless it reaches the end |
| Dataset.LabelField | tasks/code/dataset.py:94-98 | the label field is the given one; otherwise the stripped first line of `label_field_name`, or 'label' without that file |
| Dataset.TextFields | tasks/code/dataset.py:101-105 | the text fields are the given ones; otherwise the words of the first line of `text_field_names`, or ['text'] without that file |
| Dataset.Column | tasks/code/dataset.py:108 | a label column is read whole when it exists; otherwise a KeyError names it |
| Dataset.FirstMissing | tasks/code/dataset.py:111 | reports a named field missing from the table exactly when one is |
| Dataset.RowTexts | tasks/code/dataset.py:111 | one text per row when every field exists. The first missing field raises KeyError. No fields with rows present is an error |
| Dataset.JoinRow | tasks/code/dataset.py:111 | a row with no fields sums to the empty text, and a single field gives that field's cell as a string |
| Dataset.RowTextsSingleField | tasks/code/dataset.py:111 | with one text field, each row's text is that cell rendered as a string |
| Dataset.RowTextsConcatenate | tasks/code/dataset.py:111 | the row text of two field lists is the concatenation of their row texts, in field order |
| Dataset.JoinRowAppend | tasks/code/dataset.py:111 | joining a row over concatenated field lists concatenates the joins |
| Dataset.Prepare | tasks/code/dataset.py:120-124 | each text becomes clean(raw) + " EOS". The old length is the raw length. All lists keep the row count |
| Dataset.PreparedTexts | tasks/code/dataset.py:121-124 | the new length is len(clean(raw)) + 4, and the words of a prepared text are the cleaned words followed by "EOS" |
| Dataset.WordCounts | tasks/code/dataset.py:132-133 | one whitespace-token count per text |
| Dataset.MaxDocumentLength | tasks/code/dataset.py:131-137 | a given length is kept. Otherwise the result is the largest token count over all texts, attained by some text, and an empty table fails |
| Dataset.ComputedLengthPositive | tasks/code/dataset.py:131-133 | a computed maximum document length is at least 1, because every text ends in "EOS" |
| Dataset.Load | tasks/code/dataset.py:92-138 | succeeds exactly when the label column exists, the text fields are columns, the split passes its assertions and the maximum length can be computed. A failure carries the error of the first stage that fails, in the order label column, text fields, split, length. On success, labels are the label column and classes count its distinct values. Texts are prepared from the row texts. The split is well-formed. The length is the one `MaxDocumentLength` gives |
| Dataset.LoadSplit | tasks/code/dataset.py:127-129 | the loaded split is `split` on the row count with the constructor's ratios, seed and scale |
| Dataset.LoadCoversRows | tasks/code/dataset.py:127-129 | without an index file, with ordered ratios and no down-scaling, every row index lies in exactly one of the three lists, and nothing else does |
| Dataset.SaveBasicVocab | tasks/code/dataset.py:256-287 | succeeds exactly when every train index is in range, and then adds only the basic count table under `single/vocab_freq_dict.pickle` |
| Dataset.BasicVocabPath | tasks/code/dataset.py:285 | the basic counts are saved inside `data_dir`, at a path ending in `single/vocab_freq_dict.pickle` |
| Dataset.TrainTexts | tasks/code/dataset.py:276 | the training texts exist exactly when every train index is in range, one text per index, each the text at that index (negative indices count from the end) |
| Dataset.WordIds | tasks/code/dataset.py:222-228 | one id list per text, each the processor's transform of that text |
| Dataset.BuildOwnVocab | tasks/code/dataset.py:206-254 | fits the processor on the training texts with both frequency bounds, and writes exactly the three `_<min>.pickle` files of its counts, mapping and reverse mapping |
| Dataset.OwnVocabPaths | tasks/code/dataset.py:240-254 | the three vocabulary pickles lie under `vocab_dir` (plain concatenation), end in `<min_frequency>.pickle`, and are three different files |
| Dataset.LoadPublicVocab | tasks/code/dataset.py:289-313 | succeeds exactly when `vocab_dir + "vocab_freq_dict.pickle"` holds a count table (a missing file fails). It uses that table trimmed to the bounds and writes nothing |
| Dataset.ChooseVocab | tasks/code/dataset.py:153-167 | without a vocabulary directory, the vocabulary exists exactly when every train index is in range. It is fitted on the training texts with both frequency bounds, and its three pickles are added under `os.path.join(data_dir, "single/")`. With a directory, it exists exactly when that directory holds a count table, and a missing file is an error. It is that table trimmed to the bounds, and no file changes. Either way the word ids are the vocabulary's transform of every text |
| Dataset.RecordAt | tasks/code/dataset.py:319-340 | a record exists exactly for an in-range index with a numeric label. It carries that index's label, ids, old and new length, and a bag of words only for the 'bow' encoding |
| Dataset.WriteExamples | tasks/code/dataset.py:315-345 | one record per split index, in split order, each the record of that index |
| Dataset.OutputPath | tasks/code/dataset.py:184-186 | an output path ends with its file name |
| Dataset.TfRecordDir | tasks/code/dataset.py:178-179 | the records go to the given directory, else to `data_dir` followed directly by `single/`, with no separator inserted |
| Dataset.OutputPathsDistinct | tasks/code/dataset.py:184-201 | the three record files and the argument pickle are four different paths |
| Dataset.OutputPathsAvoid | tasks/code/dataset.py:184-201 | no output file is ever a `vocab_freq_dict.pickle` path |
| Dataset.WriteOutputs | tasks/code/dataset.py:178-203 | fails exactly when writing some split's records fails. Otherwise each split file holds that split's records, one per index, the argument pickle holds the classes, document length, vocabulary size, frequency bounds and seed, the written paths are the old ones plus the four outputs, and every other path keeps its content |
| Dataset.PutOutputs | tasks/code/dataset.py:184-203 | placing the four files adds exactly the four output paths, puts each file at its own path, and leaves every other path alone |
| Dataset.Construct | tasks/code/dataset.py:90-204 | a built dataset carries the loaded state with a well-formed split, and has a vocabulary exactly when records were asked for |
| Dataset.ConstructWithoutRecords | tasks/code/dataset.py:144-151 | without records the files are unchanged, or gain only the basic vocabulary when it was asked for |
| Dataset.ConstructWritesRecords | tasks/code/dataset.py:184-203 | with records, each split file has one record per index of its split, and the argument pickle matches the dataset. The files written are exactly what `WriteOutputs` produces for the chosen vocabulary, so each file holds its split's records in index order |
| Dataset.ConstructUsesPublicVocab | tasks/code/dataset.py:162-167 | with a public vocabulary directory, a missing counts file is an error, and otherwise the vocabulary comes from that table |
| Dataset.ConstructBuildsOwnVocab | tasks/code/dataset.py:153-160 | without a vocabulary directory, the constructor fits its vocabulary on the training texts with both frequency bounds. Its counts, mapping and reverse mapping stay in the three `_<min_frequency>.pickle` files under `os.path.join(data_dir, "single/")` after the records are written |
| Dataset.OwnVocabWritten | tasks/code/dataset.py:153-160 | writing the records and the argument pickle leaves the fitted vocabulary's three pickles in place |
| Dataset.OwnVocabPathsAvoidOutputs | tasks/code/dataset.py:184-186 | none of the three vocabulary pickles is a record file or the argument pickle |
| Dataset.ConstructKeepsOtherFiles | tasks/code/dataset.py:162-203 | with a public vocabulary, the constructor changes no file except its three record files and its argument pickle |
| MergePipeline.ReadTables | tasks/code/dataset.py:433-434 | loading succeeds exactly when every path holds a count table, and returns them in path order |
| MergePipeline.MergeSaveVocabDicts | tasks/code/dataset.py:427-436 | the saved table counts each word as often as all loaded tables together. No other path changes. It fails exactly when a load fails |
| MergePipeline.Passes | tasks/code/dataset.py:461-464 | a pass over the directories builds one dataset per directory |
| MergePipeline.PassesEach | tasks/code/dataset.py:461-464 | a property every single construction has holds for every dataset of the pass |
| MergePipeline.PassesWritesKeys | tasks/code/dataset.py:461-464 | after a pass, the paths present are the old ones plus those the pass writes |
| MergePipeline.PassesWritesKeeps | tasks/code/dataset.py:461-464 | a path no dataset of the pass writes keeps its content |
| MergePipeline.PassesWritesLast | tasks/code/dataset.py:461-464 | each written path holds what the last dataset writing it wrote |
| MergePipeline.FirstPass | tasks/code/dataset.py:460-464 | the first pass builds one dataset per directory |
| MergePipeline.FirstPassOptions | tasks/code/dataset.py:462-463 | the first-pass call asks for the basic vocabulary and no records, and leaves every other argument at its default: no vocabulary or record directory, a computed document length, no down-scaling, ratios 0.8/0.1 and seed 42 |
| MergePipeline.FirstStepFacts | tasks/code/dataset.py:462-463 | one first-pass construction loads with the defaults, chooses no vocabulary, and writes only its basic table |
| MergePipeline.FirstStepWritesOne | tasks/code/dataset.py:462-463 | every first-pass construction writes exactly its basic vocabulary path |
| MergePipeline.FirstPassLoads | tasks/code/dataset.py:461-464 | every first-pass dataset is loaded with the default options and has no vocabulary or records |
| MergePipeline.FirstPassFiles | tasks/code/dataset.py:461-464 | the first pass adds only basic vocabulary paths and leaves every other file unchanged |
| MergePipeline.FirstPassLastWriter | tasks/code/dataset.py:461-464 | each basic path holds the table of the last dataset writing it |
| MergePipeline.MergeReadsBasicVocab | tasks/code/dataset.py:483 | the merge reads each dataset's basic table from exactly where the first pass wrote it |
| MergePipeline.MergeInputs | tasks/code/dataset.py:481-484 | one vocabulary path per directory, in order |
| MergePipeline.MergeFindsFirstPassTables | tasks/code/dataset.py:481-486 | after the first pass, every table the merge reads is present |
| MergePipeline.MergeReadsFirstPassTables | tasks/code/dataset.py:481-486 | for directories with distinct basic paths, the merged inputs are the first-pass basic tables in directory order |
| MergePipeline.DropTrailingSlashes | tasks/code/dataset.py:467 | strips only trailing slashes: the result is a prefix of the path, does not end in '/', and everything removed is '/' |
| MergePipeline.DirectoryName | tasks/code/dataset.py:493-494 | the name is the last component of the path with trailing slashes dropped: it contains no '/', and is preceded by '/' or starts the path. The empty path gives '.' |
| MergePipeline.SecondStepFacts | tasks/code/dataset.py:495-504 | while the vocabulary directory holds a table, a second-pass construction uses it and leaves it in place |
| MergePipeline.SecondPassOptions | tasks/code/dataset.py:493-504 | the second-pass call reads the vocabulary from `new_data_dir`, writes into `os.path.join(new_data_dir, name)`, passes the shared length, the caller's frequency bounds and ratios, no basic vocabulary and records on, and keeps the default seed, scale and encoding |
| MergePipeline.SecondPass | tasks/code/dataset.py:492-504 | the second pass builds one dataset per directory, each with records and with the shared document length |
| MergePipeline.SecondStepBuilds | tasks/code/dataset.py:495-504 | one second-pass call writes records and keeps the document length it was given |
| MergePipeline.SecondPassUsesTable | tasks/code/dataset.py:492-504 | every second-pass dataset uses that table trimmed to the caller's bounds, the shared length and the caller's ratios |
| MergePipeline.SharedLength | tasks/code/dataset.py:460-464 | the shared document length is at least every first-pass length and equals one of them |
| MergePipeline.Pipeline | tasks/code/dataset.py:444-504 | a finished run has gone through the first pass and built one second-pass dataset per directory |
| MergePipeline.MergeDictWriteTfrecordAsWritten | tasks/code/dataset.py:444-504 | the pipeline as written, with the second pass reading `new_data_dir + "vocab_freq_dict.pickle"` |
| MergePipeline.MergeDictWriteTfrecord | tasks/code/dataset.py:444-504 | the pipeline reading the merged table from the path it was saved to |
| MergePipeline.CorrectedReadPath | tasks/code/dataset.py:485-486 | joining the directory before appending the file name gives exactly the saved path |
| MergePipeline.AsWrittenReadPath | tasks/code/dataset.py:290 | the as-written read path equals the saved path exactly when `new_data_dir` is empty or ends in '/' |
| MergePipeline.AsWrittenReadPathExample | tasks/code/dataset.py:290 | for `new_data_dir` "out" the as-written path misses the saved file, and the corrected one hits it |
| MergePipeline.AsWrittenMissesMergedTable | tasks/code/dataset.py:495-504 | without a trailing '/', the as-written pipeline fails with a missing `new_data_dir + "vocab_freq_dict.pickle"` |
| MergePipeline.AsWrittenAgreesWithTrailingSlash | tasks/code/dataset.py:485-496 | with a trailing '/', the as-written and corrected pipelines give the same run |
| MergePipeline.BasicTables | tasks/code/dataset.py:462-463 | one basic table per first-pass dataset, in order |
| MergePipeline.PipelineSharesMergedVocab | tasks/code/dataset.py:460-504 | every dataset's second pass uses the merged table and the shared length, which is at least its first-pass length. For distinct directories, the merged counts are the sums of the first-pass counts |
| MergePipeline.FirstPassUsesDefaultRatios | tasks/code/dataset.py:462-463 | the first pass splits every dataset with ratios 0.8/0.1 and seed 42, whatever ratios the caller gives |
| MergePipeline.TrainSplitsDifferExample | tasks/code/dataset.py:503-504 | a ten-row dataset trains on 8 rows in the first pass but on 5 rows in a second pass with train ratio 0.5 |
| Graph.Pack | mtl/models/gen_mult.py:165-169 | a list is unwrapped exactly when it has one element |
| Graph.PackRoundTrip | mtl/models/gen_mult.py:165-169 | unwrapping loses nothing: the list, in field order, comes back |
| Graph.PackInjective | mtl/models/gen_mult.py:165-169 | two lists pack alike exactly when they are equal |
| EncoderFactory.EncoderFn | mtl/util/encoder_factory.py:31-36 | the encoder embeds the inputs, then extracts from the embedding with the lengths and the extra arguments |
| EncoderFactory.EmbeddingIgnoresLengths | mtl/util/encoder_factory.py:31-36 | lengths and extra arguments reach only the extractor |
| EncoderFactory.EncodeDeterminedByParts | mtl/util/encoder_factory.py:56-67 | two templates encode alike exactly when they have the same embedder and extractor |
| EncoderFactory.PrivateScope | mtl/util/encoder_factory.py:64 | a private scope is `encoder_` followed by the dataset name |
| EncoderFactory.PrivateScopeInjective | mtl/util/encoder_factory.py:64 | different datasets get different private scopes |
| EncoderFactory.PrivateEncoders | mtl/util/encoder_factory.py:62-68 | one encoder per dataset, scoped `encoder_{ds}`, from that dataset's embedder and extractor. The first dataset missing from either map fails the lookup |
| EncoderFactory.Single | mtl/util/encoder_factory.py:49 | `next(iter(s))` of a one-element set is its element |
| EncoderFactory.CreateEncoders | mtl/util/encoder_factory.py:39-70 | shared mode succeeds exactly when the embedders have one distinct value and so do the extractors, with the two assertion messages in that order. It maps every dataset to one `encoder_shared` template of those values. Otherwise it builds the private encoders |
| EncoderFactory.CreateEncodersSharing | mtl/util/encoder_factory.py:56-68 | in shared mode any two datasets get the same encoder, and in private mode two datasets never share a scope |
| EncoderFactory.SharedEncodersExample | mtl/util/encoder_factory.py:45-61 | two datasets with the same embedder and extractor share one `encoder_shared` template |
| EncoderFactory.PrivateEncodersExample | mtl/util/encoder_factory.py:62-68 | the same maps in private mode give `encoder_a` and `encoder_b` |
| EncoderFactory.FieldOfEach | mtl/util/encoder_factory.py:85-97 | one comprehension: keyed by the dict-valued entries, failing on the first entry without the field |
| EncoderFactory.ReadArchMaps | mtl/util/encoder_factory.py:85-97 | the four function and keyword maps share one key set, the dict-valued entries |
| EncoderFactory.FlagsAreNotDatasets | mtl/util/encoder_factory.py:85-100 | the two tying flags never become dataset entries |
| EncoderFactory.ReadWiring | mtl/util/encoder_factory.py:83-101 | a missing architecture is a KeyError naming it. A failing map read fails with that error. Then a missing `embedders_tied`, and after it a missing `extractors_tied`, is a KeyError naming the flag. Full sharing holds exactly when both flags are truthy |
| EncoderFactory.BuildEncoders | mtl/util/encoder_factory.py:73-114 | creates embedders and extractors from the read maps with their tying flags, then combines them, sharing fully exactly when both are tied |
| EncoderFactory.HalfTiedIsPrivate | mtl/util/encoder_factory.py:99-112 | if either flag is false, two different datasets never share an encoder scope |
| GenMult.BuildMlps | mtl/models/gen_mult.py:227-265 | one MLP per dataset. Shared: the single `mlp_shared` template with the shared sizes and input dropout. Private: `mlp_{dataset}` with the private sizes and output dropout |
| GenMult.MlpSharing | mtl/models/gen_mult.py:227-265 | shared MLPs are one template for all datasets, and private MLPs of two datasets never share a scope |
| GenMult.BuildLogits | mtl/models/gen_mult.py:268-277 | exactly one `logit_{k}` head per class-size key, as wide as that key's class count |
| GenMult.LogitsDistinct | mtl/models/gen_mult.py:268-277 | two datasets never share a logit head |
| GenMult.New | mtl/models/gen_mult.py:52-70 | construction succeeds exactly when all four arguments are given and the class sizes name exactly the datasets of the order. The four `is not None` assertions fail in source order, then the set-equality assertion. A model holds the arguments, both MLP maps and the `build_logits` heads of the class sizes (corrected constructor, see Findings) |
| GenMult.NewAsWritten | mtl/models/gen_mult.py:52-65 | the constructor as written never returns a model: after the five assertions, the one-argument `build_encoders(args)` call raises TypeError |
| GenMult.NewAsWrittenFails | mtl/models/gen_mult.py:52-65 | where the corrected constructor fails, the as-written one fails with the same assertion; where it succeeds, the as-written one raises TypeError |
| GenMult.NewAsWrittenExample | mtl/models/gen_mult.py:52-70 | for one dataset `sst` with 5 classes, the corrected constructor builds a 5-wide head, while the as-written one raises TypeError |
| GenMult.LastMatch | mtl/models/gen_mult.py:82-86 | finds the last zipped position naming the source, or reports that none does |
| GenMult.FieldNamesFrom | mtl/models/gen_mult.py:138-142 | with no later position naming the source, the loop ends with what it had, and unbound `text_field_names` if nothing was read. Otherwise a successful loop ends with the `args.json` fields of the last matching position |
| GenMult.FieldNames | mtl/models/gen_mult.py:138-142 | with no dataset named like the source, `text_field_names` is unbound. Any success reads the last matching dataset's `args.json` |
| GenMult.FieldNamesFromLast | mtl/models/gen_mult.py:138-142 | when reads succeed, the loop leaves the fields of the last matching dataset, or what it had before |
| GenMult.FieldNamesLast | mtl/models/gen_mult.py:138-142 | the text fields come from the `args.json` of the last matching dataset. With no match, `text_field_names` is unbound |
| GenMult.InputKeyFor | mtl/models/gen_mult.py:148-155 | tokens, bow and tfidf read `field`, `field_bow` and `field_tfidf`. Any other input key raises ValueError |
| GenMult.InputKeyIsNotLengthKey | mtl/models/gen_mult.py:146-155 | a field's input key is never its length key |
| GenMult.InputKeyInjective | mtl/models/gen_mult.py:146-155 | different fields read different inputs |
| GenMult.SelectInputs | mtl/models/gen_mult.py:146-155 | succeeds exactly when every field's length key and input key are present and the input key is known. It returns inputs and lengths in field order |
| GenMult.SelectInputsError | mtl/models/gen_mult.py:146-155 | a failing selection raises the error of the first field that is not ready: a KeyError for its `_length` key, the ValueError of an unrecognised input key, or a KeyError for its input |
| GenMult.ExtraKwargs | mtl/models/gen_mult.py:157-163 | for RUDER_NAACL_18, `indices` is the last field's lengths minus one, and an empty field list is an IndexError. Otherwise no extra arguments |
| GenMult.PrepareInputs | mtl/models/gen_mult.py:138-169 | succeeds exactly when the text fields are bound, every field's length and input are in the batch, and the extra arguments exist. A failure carries the error of the first stage that fails: field names, then selection, then extra arguments. The encoder inputs are the selected inputs and lengths, packed, plus the extra arguments |
| GenMult.EncoderSeesFields | mtl/models/gen_mult.py:146-169 | the encoder sees one input and one length per text field, in field order, unwrapped exactly for a single field |
| GenMult.Head | mtl/models/gen_mult.py:179-182 | the logits are the dataset's logit head over its private MLP over its shared MLP over the features, with the training flag passed to both MLPs. A dataset missing from any of the three maps is a KeyError naming it |
| GenMult.EncodeFor | mtl/models/gen_mult.py:73-76 | encoding uses the dataset's own encoder, and a missing dataset is a KeyError |
| GenMult.GetLoss | mtl/models/gen_mult.py:129-191 | a failing input selection fails the loss with its error, and then a missing label key is a KeyError. It succeeds exactly when inputs are selected, the label key is present, the dataset has an encoder (unless features are given) and all three layers, and a missing one is a KeyError naming the dataset. The loss is the mean cross-entropy of the batch's labels against the dataset's head applied to the encoder's output (or to the given features) |
| GenMult.GetPredictions | mtl/models/gen_mult.py:78-127 | a failing input selection fails with its error. It succeeds exactly when inputs are selected and the dataset has an encoder and all three layers, and a missing one is a KeyError naming the dataset. The predictions are the arg-max of the dataset's head, outside training, applied to its encoder's output |
| GenMult.PredictionsShareLossLogits | mtl/models/gen_mult.py:117-124 | outside training and without given features, predictions exist whenever the loss does, and are taken over the very logits the loss uses |
| GenMult.SharedLayersAreShared | mtl/models/gen_mult.py:179-180 | any two datasets' losses pass through one shared MLP, and through different private MLPs for different datasets |
| GenMult.WeightedSumSnoc | mtl/models/gen_mult.py:202-213 | one more batch adds alpha times its loss |
| GenMult.WeightedSumConstant | mtl/models/gen_mult.py:202-213 | the weighted sum of equal losses is that loss times the sum of the alphas |
| GenMult.LossValues | mtl/models/gen_mult.py:202-214 | the batches' loss values in iteration order, failing exactly when some loss fails, and then with the error of the first failing batch |
| GenMult.GetMultiTaskLoss | mtl/models/gen_mult.py:193-216 | the length assertion fails first, then the sum assertion, then the first failing loss. It succeeds exactly when there is one alpha per batch, the alphas sum to 1 and every loss exists. The result is the position-paired alpha-weighted sum of the losses |
| GenMult.WeightedLoss | mtl/models/gen_mult.py:202-216 | the accumulating loop computes the position-paired weighted sum of the losses, or fails with the error of the first failing batch |
| GenMult.LossValuesStep | mtl/models/gen_mult.py:202-214 | one more batch appends its loss value or fails |
| GenMult.LossValuesPrefix | mtl/models/gen_mult.py:202-214 | a failing prefix fails the whole loop |
| GenMult.WeightedSumBounds | mtl/models/gen_mult.py:202-213 | with non-negative alphas, the weighted sum lies between sum(alphas)·lo and sum(alphas)·hi |
| GenMult.MultiTaskLossBounds | mtl/models/gen_mult.py:200-213 | with non-negative alphas summing to 1, the multi-task loss lies between the smallest and largest single loss |
| GenMult.WeightedSumExample | mtl/models/gen_mult.py:200-213 | alphas (0.3, 0.7) sum to 1 and weigh losses (2.0, 1.0) to 1.3 |

## Left out

- Splits.Unchecked, and through it Splits.Split, uses the corrected valid carve (`Splits.CarveValid`) when an index file has no 'valid' list. The as-written carve is kept as `Splits.CarveValidAsWritten` (see Findings).
- MergePipeline.MergeDictWriteTfrecord reads the merged table from `os.path.join(new_data_dir, "")`. The as-written path is kept as `MergePipeline.MergeDictWriteTfrecordAsWritten` (see Findings).
- MergePipeline.MergeDictWriteTfrecordAsWritten and MergePipeline.MergeDictWriteTfrecord take `max_document_length` but, like the source, never use it.
- GenMult.New takes the encoder map as a parameter, standing for `EncoderFactory.BuildEncoders` with the vocabulary size passed. The as-written one-argument call is `GenMult.NewAsWritten` (see Findings).
- GenMult.GetMultiTaskLoss does not return the per-dataset `losses` dictionary, and neither does the source. The batch dictionary is its sequence of items in insertion order.
- GenMult.GetMultiTaskLoss, GenMult.GetLoss and GenMult.GetPredictions: loss values come from a parameter, and cross-entropy, arg-max and the MLP and dense layers are terms. The TensorFlow arithmetic is not modelled.
- `validate_labels` (mtl/models/gen_mult.py:30-36) is left out: its assertion sits under a control dependency that only runs `pass`, so it never executes.
- Floating point: ratios, alphas and bags of words are exact reals. `sum(alphas) == 1.0` is exact equality, and `int()` of a product truncates the exact product. Float rounding at an integer boundary is not modelled.
- Reading and writing pandas, JSON, gzip, pickle and TFRecord files, directory creation (`os.stat`/`os.mkdir`) and printing are left out. Files are a map from path to content.
- Partial writes are left out: a constructor that fails leaves no files in the model, while the source may have written some already.
- MergePipeline.DirectoryName models `os.path.basename(os.path.normpath(p))` by dropping trailing slashes only, with the empty path giving `.`. `.` and `..` components and repeated slashes are not resolved. The sorted `data_names` list (tasks/code/dataset.py:467-469) is computed but unused, so it is left out.
- Graph: the model does not say that templates built by different calls are kept apart. TensorFlow gives each `tf.make_template` call its own variables, so equal template values from two calls need not share parameters. For example, the private MLP of a dataset named `shared` is scoped `mlp_shared`, like the shared MLP, and a dataset named `shared` gets the encoder name `encoder_shared`.
- Dataset.ReadLine splits only at `\n`. Python 3's universal newlines would also end the first line at `\r` or `\r\n`, so for `"label\rjunk\n"` Python's first line holds only `label`, while here it runs up to the `\n` and includes `junk`.
- Dataset.RowTexts names only the first missing text field in its KeyError (`Dataset.FirstMissing`). pandas lists every missing column.
- Dataset.LoadPublicVocab fails with a TypeError when the pickle is not a word-count table. Python's `pickle.load` accepts any dictionary and only fails later, inside the vocabulary code, which is a parameter here.
- `merge_vocab_dict` (tasks/code/dataset.py:416-424) is not called by the pipeline and is left out. Its behaviour is `VocabFreq.CombineDicts` of two loaded tables.
- The vocabulary processor, `tweet_clean`, `CategoricalVocabulary.trim`/`freeze`, `bag_of_words`, `create_embedders`/`create_extractors`, `dict2func` and the numpy permutation are parameters. No frequency trimming or id assignment is invented.
- `mtl/util/constants.py`, the extractors (`mtl/extractors/dan.py`, `mtl/extractors/cnn.py`) and `expts/material/rewrite.py` are not part of this model. The constructor appends the literal " EOS", not the `<EOS>` constant.

## Findings

| source | as written | input that shows it | evidently intended | confidence | as-written member | corrected member |
|---|---|---|---|---|---|---|
| tasks/code/dataset.py:412 | the cut is `int(1.0 - valid_ratio * len(index))`: one minus the valid count, used as a (usually negative) slice bound | a train list of 10 indices with the default valid ratio 0.1: the cut is int(0.0) = 0, so train comes out empty and all 10 go to valid | cut at `int((1.0 - valid_ratio) * len(index))`, keeping 9 for train and moving 1 to valid | not executed | Splits.CarveValidAsWritten, Splits.CarveValidCounterexample | Splits.CarveValid |
| tasks/code/dataset.py:290 | the second pass reads `vocab_dir + "vocab_freq_dict.pickle"` with `vocab_dir=new_data_dir` (line 496), while the merged table was saved at `os.path.join(new_data_dir, "vocab_freq_dict.pickle")` (line 485) | `new_data_dir = "out"`: the table is saved at `out/vocab_freq_dict.pickle` but read from `outvocab_freq_dict.pickle`, which does not exist | read the path the table was saved to, for example by passing `os.path.join(new_data_dir, "")` as the vocabulary directory | not executed | MergePipeline.MergeDictWriteTfrecordAsWritten, MergePipeline.AsWrittenMissesMergedTable | MergePipeline.MergeDictWriteTfrecord, MergePipeline.PipelineSharesMergedVocab |
| mtl/models/gen_mult.py:65 | the constructor calls `build_encoders(args)` with one argument, while `build_encoders` declares two parameters, `vocab_size` and `args` (mtl/util/encoder_factory.py:73) | any consistent arguments, for example class sizes `{sst: 5}` and dataset order `[sst]`: the five assertions pass, then the call raises TypeError, so no model is ever built | pass the vocabulary size too, `build_encoders(vocab_size, args)`, and keep the encoders it returns | not executed | GenMult.NewAsWritten, GenMult.NewAsWrittenExample | GenMult.New, GenMult.NewAsWrittenFails |

=== FILE: dataset.dfy ===
/**
 * The `Dataset` constructor of tasks/code/dataset.py as a pure function:
 * it reads one data directory (the table, the optional field-name files and
 * the optional index file), builds the texts, the split, the document length
 * and a vocabulary, and writes pickles and TFRecord files into a file store.
 * The text cleaner, the vocabulary processor, `bag_of_words` and the seeded
 * permutation are parameters.
 */
module Dataset {
  import opened Wrappers
  import opened PyBuiltins
  import opened VocabFreq
  import opened Splits

  /** A cell of `data.json.gz`; `astype(str)` renders an integer in decimal. */
  datatype Cell = Text(text: string) | Number(number: int)

  function Render(c: Cell): string {
    match c
    case Text(s) => s
    case Number(n) => DecimalString(n)
  }

  /** The table as pandas reads it: named columns of `rows` cells each. */
  datatype Frame = Frame(columns: map<string, seq<Cell>>, rows: nat)

  type Table = f: Frame | forall c | c in f.columns :: |f.columns[c]| == f.rows
    witness Frame(map[], 0)

  /** What a data directory holds: the table, the optional one-line files
      naming the label field and the text fields, and the optional index file. */
  datatype DataDir = DataDir(path: string, table: Table, labelFieldFile: Option<string>,
                             textFieldsFile: Option<string>, indexFile: Option<IndexFile>)

  /** The keyword arguments of the constructor. */
  datatype Options = Options(
    vocabDir: Option<string>,
    tfrecordDir: Option<string>,
    maxDocumentLength: Option<int>,
    minFrequency: int,
    maxFrequency: int,
    encoding: Option<string>,
    textFieldNames: Option<seq<string>>,
    labelFieldName: Option<string>,
    validRatio: real,
    trainRatio: real,
    randomSeed: int,
    scaleRatio: Option<real>,
    generateBasicVocab: bool,
    generateTfRecord: bool,
    padding: bool)

  function Defaults(): Options {
    Options(None, None, None, 0, -1, None, None, None, VALID_RATIO, TRAIN_RATIO, RANDOM_SEED,
            None, false, true, false)
  }

  /** What the vocabulary processor is told: `None` for an argument left at the processor's default. */
  datatype ProcessorConfig = ProcessorConfig(maxDocumentLength: int, minFrequency: Option<int>, maxFrequency: Option<int>)

  /** A categorical vocabulary: word counts, word -> id and id -> word. */
  datatype Vocab = Vocab(freq: FreqTable, mapping: map<string, int>, reverse: seq<string>)

  /** The collaborators the constructor calls and this model does not define:
      `tweet_clean`, `VocabularyProcessor.fit`, a `CategoricalVocabulary`
      filled from a table then trimmed and frozen, `transform` /
      `transform_pad` on one document, `bag_of_words`, and the seeded
      permutation. */
  datatype Toolkit = Toolkit(
    permute: Permuter,
    clean: string -> string,
    fit: (ProcessorConfig, seq<string>) -> Vocab,
    fromTable: (FreqTable, int, int) -> Vocab,
    transform: (Vocab, int, bool, string) -> seq<int>,
    bagOfWords: (seq<int>, nat) -> seq<real>)

  /** The pickled dictionary of dataset arguments. */
  datatype DatasetArgs = DatasetArgs(numClasses: nat, maxDocumentLength: int, vocabSize: nat,
                                     minFrequency: int, maxFrequency: int, randomSeed: int)

  /** One `tf.train.Example`; `bow` is present only with the `bow` encoding. */
  datatype Record = Record(classLabel: int, wordId: seq<int>, oldLength: int, newLength: int, bow: Option<seq<real>>)

  /** What a written file holds. */
  datatype Artifact =
    | FreqPickle(table: FreqTable)
    | MappingPickle(mapping: map<string, int>)
    | ReversePickle(reverse: seq<string>)
    | ArgsPickle(args: DatasetArgs)
    | RecordFile(records: seq<Record>)

  /** The file system, path -> content, as far as the constructor writes and reads it. */
  type Files = map<string, Artifact>

  // ---------------------------------------------------------------------
  // Field names and texts
  // ---------------------------------------------------------------------

  /** `file.readline()`: the text up to and including the first newline. */
  function ReadLine(content: string): (r: string)
    ensures r <= content
    ensures forall i :: 0 <= i < |r| - 1 ==> r[i] != '\n'
    ensures |r| < |content| ==> |r| > 0 && r[|r| - 1] == '\n'
  {
    if content == [] then []
    else if content[0] == '\n' then ['\n']
    else [content[0]] + ReadLine(content[1..])
  }

  /** The label field: the argument, else the stripped first line of
      `label_field_name`, else `label`. */
  function LabelField(dir: DataDir, given: Option<string>): (r: string)
    ensures given.Some? ==> r == given.value
    ensures given.None? && dir.labelFieldFile.None? ==> r == "label"
    ensures given.None? && dir.labelFieldFile.Some? ==> r == Strip(ReadLine(dir.labelFieldFile.value))
  {
    match given
    case Some(name) => name
    case None =>
      match dir.labelFieldFile
      case None => "label"
      case Some(content) => Strip(ReadLine(content))
  }

  /** The text fields: the argument, else the words of the first line of
      `text_field_names`, else `["text"]`. */
  function TextFields(dir: DataDir, given: Option<seq<string>>): (r: seq<string>)
    ensures given.Some? ==> r == given.value
    ensures given.None? && dir.textFieldsFile.None? ==> r == ["text"]
    ensures given.None? && dir.textFieldsFile.Some? ==> r == Words(ReadLine(dir.textFieldsFile.value))
  {
    match given
    case Some(names) => names
    case None =>
      match dir.textFieldsFile
      case None => ["text"]
      case Some(content) => Words(ReadLine(content))
  }

  /** `df[name]`: a missing column raises KeyError. */
  function Column(t: Table, name: string): (r: Result<seq<Cell>>)
    ensures r.Success? <==> name in t.columns
    ensures r.Success? ==> r.value == t.columns[name] && |r.value| == t.rows
    ensures r.Failure? ==> r.error == KeyMissing(name)
  {
    if name in t.columns then Success(t.columns[name]) else Failure(KeyMissing(name))
  }

  /** Row `i` of the given fields rendered and concatenated left to right. */
  function JoinRow(t: Table, names: seq<string>, i: nat): (r: string)
    requires forall k :: 0 <= k < |names| ==> names[k] in t.columns
    requires i < t.rows
    ensures names == [] ==> r == ""
    ensures |names| == 1 ==> r == Render(t.columns[names[0]][i])
    decreases |names|
  {
    if names == [] then "" else Render(t.columns[names[0]][i]) + JoinRow(t, names[1..], i)
  }

  lemma {:induction false} JoinRowAppend(t: Table, xs: seq<string>, ys: seq<string>, i: nat)
    requires forall k :: 0 <= k < |xs| ==> xs[k] in t.columns
    requires forall k :: 0 <= k < |ys| ==> ys[k] in t.columns
    requires i < t.rows
    ensures forall k :: 0 <= k < |xs + ys| ==> (xs + ys)[k] in t.columns
    ensures JoinRow(t, xs + ys, i) == JoinRow(t, xs, i) + JoinRow(t, ys, i)
    decreases |xs|
  {
    if xs == [] {
      assert xs + ys == ys;
    } else {
      assert (xs + ys)[1..] == xs[1..] + ys;
      JoinRowAppend(t, xs[1..], ys, i);
    }
  }

  /** The first of the names that is not a column, if any. */
  function FirstMissing(t: Table, names: seq<string>): (r: Option<string>)
    ensures r.None? <==> forall k :: 0 <= k < |names| ==> names[k] in t.columns
    ensures r.Some? ==> r.value in names && r.value !in t.columns
  {
    if names == [] then None
    else if names[0] !in t.columns then Some(names[0])
    else FirstMissing(t, names[1..])
  }

  /** `df[names].astype(str).sum(axis=1).tolist()` followed by the `len` of
      each entry: every row's fields rendered and concatenated. A missing
      field raises KeyError; with no fields at all the row sums are numbers
      and `len` raises TypeError (an empty table has no rows to measure). */
  function RowTexts(t: Table, names: seq<string>): (r: Result<seq<string>>)
    ensures r.Success? <==> FirstMissing(t, names).None? && (names != [] || t.rows == 0)
    ensures FirstMissing(t, names).Some? ==> r == Failure(KeyMissing(FirstMissing(t, names).value))
    ensures r.Success? ==> |r.value| == t.rows
  {
    match FirstMissing(t, names)
    case Some(name) => Failure(KeyMissing(name))
    case None =>
      if names == [] && t.rows > 0 then Failure(TypeError("object of type 'int' has no len()"))
      else Success(seq(t.rows, (i: int) requires 0 <= i < t.rows => JoinRow(t, names, i)))
  }

  /** A single text field is used as is, rendered as a string. */
  lemma RowTextsSingleField(t: Table, name: string)
    requires name in t.columns
    ensures RowTexts(t, [name]).Success?
    ensures forall i :: 0 <= i < t.rows ==> RowTexts(t, [name]).value[i] == Render(t.columns[name][i])
  {
    forall i | 0 <= i < t.rows ensures RowTexts(t, [name]).value[i] == Render(t.columns[name][i]) {
      assert JoinRow(t, [name], i) == Render(t.columns[name][i]) + JoinRow(t, [], i);
    }
  }

  /** Several text fields are concatenated in the order they are named. */
  lemma RowTextsConcatenate(t: Table, xs: seq<string>, ys: seq<string>)
    requires RowTexts(t, xs).Success? && RowTexts(t, ys).Success?
    ensures RowTexts(t, xs + ys).Success?
    ensures forall i :: 0 <= i < t.rows ==>
              RowTexts(t, xs + ys).value[i] == RowTexts(t, xs).value[i] + RowTexts(t, ys).value[i]
  {
    forall k | 0 <= k < |xs + ys| ensures (xs + ys)[k] in t.columns {
      if k < |xs| { assert (xs + ys)[k] == xs[k]; } else { assert (xs + ys)[k] == ys[k - |xs|]; }
    }
    forall i | 0 <= i < t.rows
      ensures JoinRow(t, xs + ys, i) == JoinRow(t, xs, i) + JoinRow(t, ys, i)
    {
      JoinRowAppend(t, xs, ys, i);
    }
  }

  /** The texts after cleaning, with their length bookkeeping. */
  datatype Texts = Texts(texts: seq<string>, oldLengths: seq<int>, newLengths: seq<int>)

  /** Record the raw lengths, clean each text, append `" EOS"` and record the
      new lengths. */
  function Prepare(clean: string -> string, raw: seq<string>): (r: Texts)
    ensures |r.texts| == |r.oldLengths| == |r.newLengths| == |raw|
    ensures forall i :: 0 <= i < |raw| ==> r.oldLengths[i] == |raw[i]|
    ensures forall i :: 0 <= i < |raw| ==> r.texts[i] == clean(raw[i]) + " EOS"
  {
    var texts := seq(|raw|, (i: int) requires 0 <= i < |raw| => clean(raw[i]) + " EOS");
    Texts(texts,
          seq(|raw|, (i: int) requires 0 <= i < |raw| => |raw[i]|),
          seq(|raw|, (i: int) requires 0 <= i < |raw| => |texts[i]|))
  }

  /** The new length is the cleaned length plus four, and every prepared
      text has the words of the cleaned text followed by `EOS`. */
  lemma PreparedTexts(clean: string -> string, raw: seq<string>, i: int)
    requires 0 <= i < |raw|
    ensures Prepare(clean, raw).newLengths[i] == |clean(raw[i])| + 4
    ensures Words(Prepare(clean, raw).texts[i]) == Words(clean(raw[i])) + ["EOS"]
  {
    WordsWithEndMarker(clean(raw[i]));
  }

  /** Number of words of each text. */
  function WordCounts(texts: seq<string>): (r: seq<int>)
    ensures |r| == |texts|
    ensures forall i :: 0 <= i < |texts| ==> r[i] == |Words(texts[i])|
  {
    seq(|texts|, (i: int) requires 0 <= i < |texts| => |Words(texts[i])|)
  }

  /** The given maximum document length, else the largest word count over
      all texts (all splits, not only training); `max` of no texts raises ValueError. */
  function MaxDocumentLength(given: Option<int>, texts: seq<string>): (r: Result<int>)
    ensures given.Some? ==> r == Success(given.value)
    ensures given.None? ==> (r.Success? <==> |texts| > 0)
    ensures given.None? && r.Success? ==>
              && (forall i :: 0 <= i < |texts| ==> |Words(texts[i])| <= r.value)
              && (exists i :: 0 <= i < |texts| && |Words(texts[i])| == r.value)
  {
    match given
    case Some(m) => Success(m)
    case None =>
      if texts == [] then Failure(ValueError("max() arg is an empty sequence"))
      else
        var counts := WordCounts(texts);
        var m := Max(counts);
        assert exists i :: 0 <= i < |counts| && counts[i] == m;
        Success(m)
  }

  /** Prepared texts always carry `EOS`, so the computed length is at least one. */
  lemma ComputedLengthPositive(clean: string -> string, raw: seq<string>)
    requires |raw| > 0
    ensures var r := MaxDocumentLength(None, Prepare(clean, raw).texts);
            r.Success? && r.value >= 1
  {
    PreparedTexts(clean, raw, 0);
  }

  // ---------------------------------------------------------------------
  // The loaded dataset
  // ---------------------------------------------------------------------

  /** The constructor's state after loading, splitting and measuring. */
  datatype Loaded = Loaded(labels: seq<Cell>, numClasses: nat, prepared: Texts,
                           split: SplitIndex, maxDocumentLength: int)

  /** Everything the constructor does before it touches a vocabulary. */
  function Load(tk: Toolkit, dir: DataDir, opts: Options): (r: Result<Loaded>)
    ensures r.Success? ==>
              && var names := TextFields(dir, opts.textFieldNames);
              && RowTexts(dir.table, names).Success?
              && r.value.prepared == Prepare(tk.clean, RowTexts(dir.table, names).value)
              && |r.value.labels| == |r.value.prepared.texts| == dir.table.rows
              && LabelField(dir, opts.labelFieldName) in dir.table.columns
              && r.value.labels == dir.table.columns[LabelField(dir, opts.labelFieldName)]
              && r.value.numClasses == |set c | c in r.value.labels|
              && WellFormed(r.value.split)
              && MaxDocumentLength(opts.maxDocumentLength, r.value.prepared.texts) == Success(r.value.maxDocumentLength)
    ensures LabelField(dir, opts.labelFieldName) !in dir.table.columns ==>
              r == Failure(KeyMissing(LabelField(dir, opts.labelFieldName)))
    ensures var raw := RowTexts(dir.table, TextFields(dir, opts.textFieldNames));
            var split := Split(tk.permute, dir.table.rows, dir.indexFile, opts.trainRatio, opts.validRatio,
                               opts.randomSeed, opts.scaleRatio);
            r.Success? <==>
              && LabelField(dir, opts.labelFieldName) in dir.table.columns
              && raw.Success?
              && split.Success?
              && MaxDocumentLength(opts.maxDocumentLength, Prepare(tk.clean, raw.value).texts).Success?
    ensures var raw := RowTexts(dir.table, TextFields(dir, opts.textFieldNames));
            LabelField(dir, opts.labelFieldName) in dir.table.columns && raw.Failure? ==> r == Failure(raw.error)
    ensures var raw := RowTexts(dir.table, TextFields(dir, opts.textFieldNames));
            var split := Split(tk.permute, dir.table.rows, dir.indexFile, opts.trainRatio, opts.validRatio,
                               opts.randomSeed, opts.scaleRatio);
            LabelField(dir, opts.labelFieldName) in dir.table.columns && raw.Success? && split.Failure? ==>
              r == Failure(split.error)
    ensures var raw := RowTexts(dir.table, TextFields(dir, opts.textFieldNames));
            var split := Split(tk.permute, dir.table.rows, dir.indexFile, opts.trainRatio, opts.validRatio,
                               opts.randomSeed, opts.scaleRatio);
            LabelField(dir, opts.labelFieldName) in dir.table.columns && raw.Success? && split.Success? ==>
              var length := MaxDocumentLength(opts.maxDocumentLength, Prepare(tk.clean, raw.value).texts);
              length.Failure? ==> r == Failure(length.error)
  {
    var labels :- Column(dir.table, LabelField(dir, opts.labelFieldName));
    var raw :- RowTexts(dir.table, TextFields(dir, opts.textFieldNames));
    var prepared := Prepare(tk.clean, raw);
    var split :- Split(tk.permute, |raw|, dir.indexFile, opts.trainRatio, opts.validRatio,
                       opts.randomSeed, opts.scaleRatio);
    var maxLength :- MaxDocumentLength(opts.maxDocumentLength, prepared.texts);
    Success(Loaded(labels, |set c | c in labels|, prepared, split, maxLength))
  }

  /** The loaded split is the one `split` makes for the table's row count
      with the options' ratios, seed and scale. */
  lemma LoadSplit(tk: Toolkit, dir: DataDir, opts: Options)
    requires Load(tk, dir, opts).Success?
    ensures Split(tk.permute, dir.table.rows, dir.indexFile, opts.trainRatio, opts.validRatio,
                  opts.randomSeed, opts.scaleRatio) == Success(Load(tk, dir, opts).value.split)
  {
  }

  /** Without an index file, with ordered ratios and no down-scaling, the
      three lists of a loaded dataset hold every row index exactly once. */
  lemma LoadCoversRows(tk: Toolkit, dir: DataDir, opts: Options)
    requires Load(tk, dir, opts).Success?
    requires dir.indexFile.None? && OrderedRatios(opts.trainRatio, opts.validRatio)
    requires opts.scaleRatio.None? || opts.scaleRatio.value >= 1.0
    ensures var s := Load(tk, dir, opts).value.split;
            && WellFormed(s)
            && forall i :: 0 <= i < dir.table.rows <==> i in s.train || i in s.valid || i in s.test
  {
    LoadSplit(tk, dir, opts);
    RandomSplitCovers(tk.permute, dir.table.rows, opts.trainRatio, opts.validRatio, opts.randomSeed);
  }

  // ---------------------------------------------------------------------
  // Vocabularies
  // ---------------------------------------------------------------------

  const BASIC_VOCAB_FILE := "vocab_freq_dict.pickle"

  /** Where the basic vocabulary goes: `os.path.join(data_dir, "single/")`
      followed by the file name. */
  function BasicVocabPath(dataDir: string): (r: string)
    ensures EndsWith(r, "single/" + BASIC_VOCAB_FILE)
    ensures |r| >= |dataDir| && r[..|dataDir|] == dataDir
  {
    var dir := PathJoin(dataDir, "single/");
    EndsWithAppendedTo(dir, "single/", BASIC_VOCAB_FILE);
    dir + BASIC_VOCAB_FILE
  }

  /** `[text_list[i] for i in train_index]` */
  function TrainTexts(d: Loaded): (r: Result<seq<string>>)
    ensures r.Success? <==> forall k :: 0 <= k < |d.split.train| ==> InRange(d.prepared.texts, d.split.train[k])
    ensures r.Success? ==>
              && |r.value| == |d.split.train|
              && forall k :: 0 <= k < |d.split.train| ==> Get(d.prepared.texts, d.split.train[k]) == Success(r.value[k])
  {
    GetAll(d.prepared.texts, d.split.train)
  }

  /** The word counts of a processor fitted, with only the document length
      set, on the training texts. */
  function BasicFreq(tk: Toolkit, d: Loaded): FreqTable
    requires TrainTexts(d).Success?
  {
    tk.fit(ProcessorConfig(d.maxDocumentLength, None, None), TrainTexts(d).value).freq
  }

  /** `build_save_basic_vocab`: fit a processor with only the document
      length set on the training texts and pickle its word counts. */
  function SaveBasicVocab(tk: Toolkit, dataDir: string, d: Loaded, files: Files): (r: Result<Files>)
    ensures r.Success? <==> TrainTexts(d).Success?
    ensures r.Success? ==> r.value == files[BasicVocabPath(dataDir) := FreqPickle(BasicFreq(tk, d))]
  {
    var train :- TrainTexts(d);
    var vocab := tk.fit(ProcessorConfig(d.maxDocumentLength, None, None), train);
    Success(files[BasicVocabPath(dataDir) := FreqPickle(vocab.freq)])
  }

  /** The three pickles `save_vocab` writes into `vocab_dir` (plain
      concatenation, suffixed by the minimum frequency). */
  function OwnVocabPaths(vocabDir: string, minFrequency: int): (r: (string, string, string))
    ensures |r.0| > |vocabDir| + 6 && |r.1| > |vocabDir| + 6 && |r.2| > |vocabDir| + 6
    ensures r.0[..|vocabDir|] == vocabDir && r.1[..|vocabDir|] == vocabDir && r.2[..|vocabDir|] == vocabDir
    ensures EndsWith(r.0, DecimalString(minFrequency) + ".pickle")
    ensures EndsWith(r.1, DecimalString(minFrequency) + ".pickle")
    ensures EndsWith(r.2, DecimalString(minFrequency) + ".pickle")
    ensures r.0 != r.1 && r.0 != r.2 && r.1 != r.2
  {
    var suffix := DecimalString(minFrequency) + ".pickle";
    var n := |vocabDir|;
    var r := (vocabDir + "vocab_freq_dict_" + suffix,
              vocabDir + "vocab_v2i_dict_" + suffix,
              vocabDir + "vocab_i2v_list_" + suffix);
    assert r.0[n + 6] == 'f' && r.1[n + 6] == 'v' && r.2[n + 6] == 'i';
    EndsWithAppended(vocabDir + "vocab_freq_dict_", suffix);
    EndsWithAppended(vocabDir + "vocab_v2i_dict_", suffix);
    EndsWithAppended(vocabDir + "vocab_i2v_list_", suffix);
    r
  }

  /** `transform` (or `transform_pad` when padding) of every text. */
  function WordIds(tk: Toolkit, vocab: Vocab, maxLength: int, padding: bool, texts: seq<string>)
    : (r: seq<seq<int>>)
    ensures |r| == |texts|
    ensures forall i :: 0 <= i < |texts| ==> r[i] == tk.transform(vocab, maxLength, padding, texts[i])
  {
    seq(|texts|, (i: int) requires 0 <= i < |texts| => tk.transform(vocab, maxLength, padding, texts[i]))
  }

  /** The vocabulary and word ids the records use, and the files after it is chosen. */
  datatype Chosen = Chosen(vocab: Vocab, wordIds: seq<seq<int>>, files: Files)

  /** No public vocabulary: fit one on the training texts with the given
      frequency bounds and save its counts, mapping and reverse mapping
      under `os.path.join(data_dir, "single/")`. */
  function BuildOwnVocab(tk: Toolkit, dataDir: string, d: Loaded, opts: Options, files: Files)
    : (r: Result<Chosen>)
    ensures r.Success? <==> TrainTexts(d).Success?
    ensures r.Success? ==>
              var config := ProcessorConfig(d.maxDocumentLength, Some(opts.minFrequency), Some(opts.maxFrequency));
              var paths := OwnVocabPaths(PathJoin(dataDir, "single/"), opts.minFrequency);
              && r.value.vocab == tk.fit(config, TrainTexts(d).value)
              && r.value.files == files[paths.0 := FreqPickle(r.value.vocab.freq)]
                                       [paths.1 := MappingPickle(r.value.vocab.mapping)]
                                       [paths.2 := ReversePickle(r.value.vocab.reverse)]
  {
    var train :- TrainTexts(d);
    var config := ProcessorConfig(d.maxDocumentLength, Some(opts.minFrequency), Some(opts.maxFrequency));
    var vocab := tk.fit(config, train);
    var paths := OwnVocabPaths(PathJoin(dataDir, "single/"), opts.minFrequency);
    var ids := WordIds(tk, vocab, d.maxDocumentLength, opts.padding, d.prepared.texts);
    Success(Chosen(vocab, ids,
                   files[paths.0 := FreqPickle(vocab.freq)]
                        [paths.1 := MappingPickle(vocab.mapping)]
                        [paths.2 := ReversePickle(vocab.reverse)]))
  }

  /** `load_vocab`: read the public counts from `vocab_dir` (plain
      concatenation), fill, trim and freeze a vocabulary with them; nothing
      is written. */
  function LoadPublicVocab(tk: Toolkit, vocabDir: string, d: Loaded, opts: Options, files: Files)
    : (r: Result<Chosen>)
    ensures var path := vocabDir + BASIC_VOCAB_FILE;
            r.Success? <==> path in files && files[path].FreqPickle?
    ensures var path := vocabDir + BASIC_VOCAB_FILE;
            path !in files ==> r == Failure(FileMissing(path))
    ensures r.Success? ==>
              && r.value.vocab == tk.fromTable(files[vocabDir + BASIC_VOCAB_FILE].table, opts.minFrequency, opts.maxFrequency)
              && r.value.files == files
  {
    var path := vocabDir + BASIC_VOCAB_FILE;
    if path !in files then Failure(FileMissing(path))
    else if !files[path].FreqPickle? then Failure(TypeError("not a frequency dictionary"))
    else
      var vocab := tk.fromTable(files[path].table, opts.minFrequency, opts.maxFrequency);
      var ids := WordIds(tk, vocab, d.maxDocumentLength, opts.padding, d.prepared.texts);
      Success(Chosen(vocab, ids, files))
  }

  /** The vocabulary the records use: fitted on the training texts and
      saved under `os.path.join(data_dir, "single/")` when no vocabulary
      directory is given, otherwise loaded from that directory. */
  function ChooseVocab(tk: Toolkit, dataDir: string, d: Loaded, opts: Options, files: Files): (r: Result<Chosen>)
    ensures r.Success? ==> r.value.wordIds == WordIds(tk, r.value.vocab, d.maxDocumentLength, opts.padding, d.prepared.texts)
    ensures opts.vocabDir.None? ==> (r.Success? <==> TrainTexts(d).Success?)
    ensures opts.vocabDir.None? && r.Success? ==>
              var config := ProcessorConfig(d.maxDocumentLength, Some(opts.minFrequency), Some(opts.maxFrequency));
              var paths := OwnVocabPaths(PathJoin(dataDir, "single/"), opts.minFrequency);
              && r.value.vocab == tk.fit(config, TrainTexts(d).value)
              && r.value.files == files[paths.0 := FreqPickle(r.value.vocab.freq)]
                                       [paths.1 := MappingPickle(r.value.vocab.mapping)]
                                       [paths.2 := ReversePickle(r.value.vocab.reverse)]
    ensures opts.vocabDir.Some? ==>
              var path := opts.vocabDir.value + BASIC_VOCAB_FILE;
              && (r.Success? <==> path in files && files[path].FreqPickle?)
              && (path !in files ==> r == Failure(FileMissing(path)))
              && (r.Success? ==>
                    && r.value.vocab == tk.fromTable(files[path].table, opts.minFrequency, opts.maxFrequency)
                    && r.value.files == files)
  {
    match opts.vocabDir
    case None => BuildOwnVocab(tk, dataDir, d, opts, files)
    case Some(v) => LoadPublicVocab(tk, v, d, opts, files)
  }

  // ---------------------------------------------------------------------
  // Records
  // ---------------------------------------------------------------------

  /** The example for index `i` (Python indexing, so negative indices count
      from the end); a non-integer label cannot go into an int64 list. */
  function RecordAt(tk: Toolkit, d: Loaded, wordIds: seq<seq<int>>, vocabSize: nat,
                    encoding: Option<string>, i: int): (r: Result<Record>)
    requires |wordIds| == |d.labels| == |d.prepared.oldLengths| == |d.prepared.newLengths|
    ensures r.Success? <==> InRange(d.labels, i) && Get(d.labels, i).value.Number?
    ensures !InRange(d.labels, i) ==> r == Failure(IndexOutOfRange(i))
    ensures r.Success? ==>
              && Number(r.value.classLabel) == Get(d.labels, i).value
              && Success(r.value.wordId) == Get(wordIds, i)
              && Success(r.value.oldLength) == Get(d.prepared.oldLengths, i)
              && Success(r.value.newLength) == Get(d.prepared.newLengths, i)
              && (r.value.bow.Some? <==> encoding == Some("bow"))
              && (r.value.bow.Some? ==> r.value.bow.value == tk.bagOfWords(r.value.wordId, vocabSize))
  {
    var cell :- Get(d.labels, i);
    if !cell.Number? then Failure(TypeError("label is not an integer"))
    else
      var ids := Get(wordIds, i).value;
      var oldLen := Get(d.prepared.oldLengths, i).value;
      var newLen := Get(d.prepared.newLengths, i).value;
      var bow := if encoding == Some("bow") then Some(tk.bagOfWords(ids, vocabSize)) else None;
      Success(Record(cell.number, ids, oldLen, newLen, bow))
  }

  /** `write_examples`: one record per index, in the order of the index
      list; the first index that fails stops the writing. */
  function WriteExamples(tk: Toolkit, d: Loaded, wordIds: seq<seq<int>>, vocabSize: nat,
                         encoding: Option<string>, index: seq<int>): (r: Result<seq<Record>>)
    requires |wordIds| == |d.labels| == |d.prepared.oldLengths| == |d.prepared.newLengths|
    ensures r.Success? <==> forall k :: 0 <= k < |index| ==> RecordAt(tk, d, wordIds, vocabSize, encoding, index[k]).Success?
    ensures r.Success? ==> |r.value| == |index|
    ensures r.Success? ==> forall k :: 0 <= k < |index| ==>
              RecordAt(tk, d, wordIds, vocabSize, encoding, index[k]) == Success(r.value[k])
  {
    if index == [] then Success([])
    else
      var head :- RecordAt(tk, d, wordIds, vocabSize, encoding, index[0]);
      var tail :- WriteExamples(tk, d, wordIds, vocabSize, encoding, index[1..]);
      Success([head] + tail)
  }

  /** The directory the records and the arguments go to: the argument, else
      `data_dir + 'single/'` (plain concatenation). */
  function TfRecordDir(dataDir: string, given: Option<string>): (r: string)
    ensures given.Some? ==> r == given.value
    ensures given.None? ==> |r| == |dataDir| + 7 && r[..|dataDir|] == dataDir && EndsWith(r, "single/")
  {
    match given
    case Some(t) => t
    case None => dataDir + "single/"
  }

  /** `os.path.join(tfrecord_dir, name)` for an output file name. */
  function OutputPath(tfrecordDir: string, name: string): (r: string)
    requires |name| > 0 && name[0] != '/'
    ensures EndsWith(r, name)
  {
    PathJoin(tfrecordDir, name)
  }

  const TRAIN_FILE := "train.tf"
  const VALID_FILE := "valid.tf"
  const TEST_FILE := "test.tf"
  const ARGS_FILE := "args_dict.pickle"

  function RecordPath(tfrecordDir: string, part: string): string
    requires part in {TRAIN_FILE, VALID_FILE, TEST_FILE}
  {
    OutputPath(tfrecordDir, part)
  }

  function ArgsPath(tfrecordDir: string): string {
    OutputPath(tfrecordDir, ARGS_FILE)
  }

  /** The characters of the file names that tell them apart. */
  lemma FileNameCharacters()
    ensures |TRAIN_FILE| == |VALID_FILE| == 8 && |TEST_FILE| == 7
    ensures |ARGS_FILE| == 16 && |BASIC_VOCAB_FILE| == 22
    ensures TRAIN_FILE[4] == 'n' && VALID_FILE[4] == 'd' && TEST_FILE[3] == 't'
    ensures TRAIN_FILE[7] == VALID_FILE[7] == TEST_FILE[6] == 'f'
    ensures ARGS_FILE[15] == BASIC_VOCAB_FILE[21] == 'e'
    ensures ARGS_FILE[3] == 's' && BASIC_VOCAB_FILE[9] == 'q'
    ensures TRAIN_FILE[0] != '/' && VALID_FILE[0] != '/' && TEST_FILE[0] != '/' && ARGS_FILE[0] != '/'
  {
  }

  /** Paths ending in names that differ at the same distance from their
      ends are different files. */
  lemma OutputFilesDiffer(x: string, y: string, k: nat)
    requires 1 <= k <= |x| && k <= |y| && x[|x| - k] != y[|y| - k]
    ensures forall p, q :: EndsWith(p, x) && EndsWith(q, y) ==> p != q
  {
    forall p, q | EndsWith(p, x) && EndsWith(q, y) ensures p != q {
      EndingsDiffer(p, q, x, y, k);
    }
  }

  /** The three record files and the argument pickle are four different files. */
  lemma OutputPathsDistinct(t: string)
    ensures RecordPath(t, TRAIN_FILE) != RecordPath(t, VALID_FILE)
    ensures RecordPath(t, TRAIN_FILE) != RecordPath(t, TEST_FILE)
    ensures RecordPath(t, VALID_FILE) != RecordPath(t, TEST_FILE)
    ensures ArgsPath(t) !in {RecordPath(t, TRAIN_FILE), RecordPath(t, VALID_FILE), RecordPath(t, TEST_FILE)}
  {
    FileNameCharacters();
    assert RecordPath(t, TRAIN_FILE) != RecordPath(t, VALID_FILE) by {
      OutputFilesDiffer(TRAIN_FILE, VALID_FILE, 4);
    }
    assert RecordPath(t, TRAIN_FILE) != RecordPath(t, TEST_FILE) by {
      OutputFilesDiffer(TRAIN_FILE, TEST_FILE, 4);
    }
    assert RecordPath(t, VALID_FILE) != RecordPath(t, TEST_FILE) by {
      OutputFilesDiffer(VALID_FILE, TEST_FILE, 4);
    }
    assert ArgsPath(t) != RecordPath(t, TRAIN_FILE) by {
      OutputFilesDiffer(ARGS_FILE, TRAIN_FILE, 1);
    }
    assert ArgsPath(t) != RecordPath(t, VALID_FILE) by {
      OutputFilesDiffer(ARGS_FILE, VALID_FILE, 1);
    }
    assert ArgsPath(t) != RecordPath(t, TEST_FILE) by {
      OutputFilesDiffer(ARGS_FILE, TEST_FILE, 1);
    }
  }

  /** The files one dataset writes when it has records. */
  function OutputPaths(t: string): set<string> {
    {RecordPath(t, TRAIN_FILE), RecordPath(t, VALID_FILE), RecordPath(t, TEST_FILE), ArgsPath(t)}
  }

  /** No output file of a dataset ends with `vocab_freq_dict.pickle`. */
  lemma OutputPathsAvoid(t: string, p: string)
    requires EndsWith(p, BASIC_VOCAB_FILE)
    ensures p !in OutputPaths(t)
  {
    NotOutputPath(p, RecordPath(t, TRAIN_FILE), TRAIN_FILE, 1);
    NotOutputPath(p, RecordPath(t, VALID_FILE), VALID_FILE, 1);
    NotOutputPath(p, RecordPath(t, TEST_FILE), TEST_FILE, 1);
    NotOutputPath(p, ArgsPath(t), ARGS_FILE, 13);
  }

  lemma NotOutputPath(p: string, q: string, name: string, k: nat)
    requires EndsWith(p, BASIC_VOCAB_FILE) && EndsWith(q, name)
    requires name in {TRAIN_FILE, VALID_FILE, TEST_FILE, ARGS_FILE}
    requires k == (if name == ARGS_FILE then 13 else 1)
    ensures p != q
  {
    FileNameCharacters();
    OutputFilesDiffer(BASIC_VOCAB_FILE, name, k);
  }

  /** No output file of a dataset is one of its own vocabulary pickles:
      those end in a digit followed by `.pickle`. */
  lemma OwnVocabPathsAvoidOutputs(vocabDir: string, minFrequency: int, t: string)
    ensures var paths := OwnVocabPaths(vocabDir, minFrequency);
            paths.0 !in OutputPaths(t) && paths.1 !in OutputPaths(t) && paths.2 !in OutputPaths(t)
  {
    var paths := OwnVocabPaths(vocabDir, minFrequency);
    var digits := DecimalString(minFrequency);
    assert '0' <= digits[|digits| - 1] <= '9';
    NotOutputPickle(paths.0, digits, t);
    NotOutputPickle(paths.1, digits, t);
    NotOutputPickle(paths.2, digits, t);
  }

  /** A path ending in a digit and `.pickle` is no output file. */
  lemma NotOutputPickle(p: string, digits: string, t: string)
    requires |digits| > 0 && '0' <= digits[|digits| - 1] <= '9'
    requires EndsWith(p, digits + ".pickle")
    ensures p !in OutputPaths(t)
  {
    var suffix := digits + ".pickle";
    PickleSuffix(digits);
    NotRecordFile(p, suffix, t, TRAIN_FILE);
    NotRecordFile(p, suffix, t, VALID_FILE);
    NotRecordFile(p, suffix, t, TEST_FILE);
    NotArgsFile(p, suffix, t);
  }

  /** A path with a digit where `args_dict.pickle` has its 't' is not the argument pickle. */
  lemma NotArgsFile(p: string, suffix: string, t: string)
    requires |suffix| >= 8 && '0' <= suffix[|suffix| - 8] <= '9' && EndsWith(p, suffix)
    ensures p != ArgsPath(t)
  {
    assert ARGS_FILE[8] == 't';
    EndingsDiffer(p, ArgsPath(t), suffix, ARGS_FILE, 8);
  }

  /** `<digits>.pickle` ends in 'e' and has a digit eight places from its end. */
  lemma PickleSuffix(digits: string)
    requires |digits| > 0 && '0' <= digits[|digits| - 1] <= '9'
    ensures var suffix := digits + ".pickle";
            |suffix| >= 8 && suffix[|suffix| - 1] == 'e' && '0' <= suffix[|suffix| - 8] <= '9'
  {
    var suffix := digits + ".pickle";
    assert suffix[|suffix| - 8] == digits[|digits| - 1];
  }

  /** A path ending in 'e' is no record file, which ends in `.tf`. */
  lemma NotRecordFile(p: string, suffix: string, t: string, name: string)
    requires name in {TRAIN_FILE, VALID_FILE, TEST_FILE}
    requires |suffix| > 0 && suffix[|suffix| - 1] == 'e' && EndsWith(p, suffix)
    ensures p != RecordPath(t, name)
  {
    assert name[|name| - 1] == 'f';
    EndingsDiffer(p, RecordPath(t, name), suffix, name, 1);
  }

  /** The split's three record files and the argument pickle written into
      `files`: each record file holds its split's records, the argument
      pickle describes the vocabulary, and every other path is untouched. */
  function WriteOutputs(tk: Toolkit, d: Loaded, chosen: Chosen, opts: Options, tfrecordDir: string)
    : (r: Result<Files>)
    requires |chosen.wordIds| == |d.labels| == |d.prepared.oldLengths| == |d.prepared.newLengths|
    ensures var size := |chosen.vocab.mapping|;
            r.Success? <==>
              && WriteExamples(tk, d, chosen.wordIds, size, opts.encoding, d.split.train).Success?
              && WriteExamples(tk, d, chosen.wordIds, size, opts.encoding, d.split.valid).Success?
              && WriteExamples(tk, d, chosen.wordIds, size, opts.encoding, d.split.test).Success?
    ensures r.Success? ==> r.value.Keys == chosen.files.Keys + OutputPaths(tfrecordDir)
    ensures r.Success? ==>
              var size := |chosen.vocab.mapping|;
              && r.value[RecordPath(tfrecordDir, TRAIN_FILE)]
                 == RecordFile(WriteExamples(tk, d, chosen.wordIds, size, opts.encoding, d.split.train).value)
              && r.value[RecordPath(tfrecordDir, VALID_FILE)]
                 == RecordFile(WriteExamples(tk, d, chosen.wordIds, size, opts.encoding, d.split.valid).value)
              && r.value[RecordPath(tfrecordDir, TEST_FILE)]
                 == RecordFile(WriteExamples(tk, d, chosen.wordIds, size, opts.encoding, d.split.test).value)
    ensures r.Success? ==>
              && |r.value[RecordPath(tfrecordDir, TRAIN_FILE)].records| == |d.split.train|
              && |r.value[RecordPath(tfrecordDir, VALID_FILE)].records| == |d.split.valid|
              && |r.value[RecordPath(tfrecordDir, TEST_FILE)].records| == |d.split.test|
    ensures r.Success? ==>
              r.value[ArgsPath(tfrecordDir)]
              == ArgsPickle(DatasetArgs(d.numClasses, d.maxDocumentLength, |chosen.vocab.mapping|,
                                        opts.minFrequency, opts.maxFrequency, opts.randomSeed))
    ensures r.Success? ==>
              forall p | p in chosen.files && p !in OutputPaths(tfrecordDir) :: r.value[p] == chosen.files[p]
  {
    var size := |chosen.vocab.mapping|;
    var train :- WriteExamples(tk, d, chosen.wordIds, size, opts.encoding, d.split.train);
    var valid :- WriteExamples(tk, d, chosen.wordIds, size, opts.encoding, d.split.valid);
    var test :- WriteExamples(tk, d, chosen.wordIds, size, opts.encoding, d.split.test);
    var args := DatasetArgs(d.numClasses, d.maxDocumentLength, size,
                            opts.minFrequency, opts.maxFrequency, opts.randomSeed);
    Success(PutOutputs(chosen.files, tfrecordDir, train, valid, test, args))
  }

  /** The four output files put into `files`, leaving every other path alone. */
  function PutOutputs(files: Files, t: string, train: seq<Record>, valid: seq<Record>, test: seq<Record>,
                      args: DatasetArgs): (r: Files)
    ensures r.Keys == files.Keys + OutputPaths(t)
    ensures r[RecordPath(t, TRAIN_FILE)] == RecordFile(train)
    ensures r[RecordPath(t, VALID_FILE)] == RecordFile(valid)
    ensures r[RecordPath(t, TEST_FILE)] == RecordFile(test)
    ensures r[ArgsPath(t)] == ArgsPickle(args)
    ensures forall p | p in files && p !in OutputPaths(t) :: r[p] == files[p]
  {
    var a, b, c, x := RecordPath(t, TRAIN_FILE), RecordPath(t, VALID_FILE), RecordPath(t, TEST_FILE), ArgsPath(t);
    OutputPathsDistinct(t);
    var m1 := files[a := RecordFile(train)];
    var m2 := m1[b := RecordFile(valid)];
    var m3 := m2[c := RecordFile(test)];
    assert m3[a] == RecordFile(train) && m3[b] == RecordFile(valid);
    m3[x := ArgsPickle(args)]
  }

  // ---------------------------------------------------------------------
  // The constructor
  // ---------------------------------------------------------------------

  /** The built dataset: the loaded state and, when records were generated,
      the vocabulary and the word ids. */
  datatype Built = Built(loaded: Loaded, chosen: Option<Chosen>)

  /** The whole constructor: load, optionally save the basic vocabulary,
      stop there when no records are wanted, else choose a vocabulary and
      write the records and the arguments. */
  function Construct(tk: Toolkit, dir: DataDir, opts: Options, files: Files): (r: Result<(Built, Files)>)
    ensures r.Success? ==> Load(tk, dir, opts) == Success(r.value.0.loaded)
    ensures r.Success? ==> WellFormed(r.value.0.loaded.split)
    ensures r.Success? ==> (r.value.0.chosen.Some? <==> opts.generateTfRecord)
  {
    var d :- Load(tk, dir, opts);
    var afterBasic :- if opts.generateBasicVocab then SaveBasicVocab(tk, dir.path, d, files) else Success(files);
    if !opts.generateTfRecord then Success((Built(d, None), afterBasic))
    else
      var chosen :- ChooseVocab(tk, dir.path, d, opts, afterBasic);
      var out :- WriteOutputs(tk, d, chosen, opts, TfRecordDir(dir.path, opts.tfrecordDir));
      Success((Built(d, Some(chosen)), out))
  }

  /** Without records, the constructor writes at most the basic vocabulary:
      no vocabulary is chosen and no record or argument file appears. */
  lemma ConstructWithoutRecords(tk: Toolkit, dir: DataDir, opts: Options, files: Files)
    requires !opts.generateTfRecord
    requires Load(tk, dir, opts).Success?
    ensures var r := Construct(tk, dir, opts, files);
            var d := Load(tk, dir, opts).value;
            && (!opts.generateBasicVocab ==> r == Success((Built(d, None), files)))
            && (opts.generateBasicVocab && TrainTexts(d).Success? ==>
                  r == Success((Built(d, None), files[BasicVocabPath(dir.path) := FreqPickle(BasicFreq(tk, d))])))
            && (opts.generateBasicVocab && TrainTexts(d).Failure? ==> r.Failure?)
  {
  }

  /** With records, each split's file holds one record per index of that
      split, in order, and the arguments describe the chosen vocabulary. */
  lemma ConstructWritesRecords(tk: Toolkit, dir: DataDir, opts: Options, files: Files)
    requires opts.generateTfRecord
    requires Construct(tk, dir, opts, files).Success?
    ensures var r := Construct(tk, dir, opts, files).value;
            var d := r.0.loaded;
            var t := TfRecordDir(dir.path, opts.tfrecordDir);
            && r.0.chosen.Some?
            && RecordPath(t, TRAIN_FILE) in r.1 && r.1[RecordPath(t, TRAIN_FILE)].RecordFile?
            && |r.1[RecordPath(t, TRAIN_FILE)].records| == |d.split.train|
            && RecordPath(t, VALID_FILE) in r.1 && r.1[RecordPath(t, VALID_FILE)].RecordFile?
            && |r.1[RecordPath(t, VALID_FILE)].records| == |d.split.valid|
            && RecordPath(t, TEST_FILE) in r.1 && r.1[RecordPath(t, TEST_FILE)].RecordFile?
            && |r.1[RecordPath(t, TEST_FILE)].records| == |d.split.test|
            && ArgsPath(t) in r.1
            && r.1[ArgsPath(t)] == ArgsPickle(DatasetArgs(d.numClasses, d.maxDocumentLength,
                                                          |r.0.chosen.value.vocab.mapping|,
                                                          opts.minFrequency, opts.maxFrequency, opts.randomSeed))
            && |r.0.chosen.value.wordIds| == |d.labels| == |d.prepared.oldLengths| == |d.prepared.newLengths|
            && WriteOutputs(tk, d, r.0.chosen.value, opts, t) == Success(r.1)
  {
    var d := Load(tk, dir, opts).value;
    var afterBasic := if opts.generateBasicVocab then SaveBasicVocab(tk, dir.path, d, files).value else files;
    var chosen := ChooseVocab(tk, dir.path, d, opts, afterBasic).value;
    assert Construct(tk, dir, opts, files).value.1
           == WriteOutputs(tk, d, chosen, opts, TfRecordDir(dir.path, opts.tfrecordDir)).value;
  }

  /** With a public vocabulary directory, the vocabulary is the public
      counts trimmed to the frequency bounds, and a missing counts file is an error. */
  lemma ConstructUsesPublicVocab(tk: Toolkit, dir: DataDir, opts: Options, files: Files, vocabDir: string)
    requires opts.generateTfRecord && !opts.generateBasicVocab
    requires opts.vocabDir == Some(vocabDir)
    requires Load(tk, dir, opts).Success?
    ensures var path := vocabDir + BASIC_VOCAB_FILE;
            var r := Construct(tk, dir, opts, files);
            && (path !in files ==> r == Failure(FileMissing(path)))
            && (r.Success? ==>
                  && path in files && files[path].FreqPickle?
                  && r.value.0.chosen.value.vocab == tk.fromTable(files[path].table, opts.minFrequency, opts.maxFrequency))
  {
  }

  /** Without a vocabulary directory, the vocabulary is fitted on the
      training texts with both frequency bounds, and its counts, mapping
      and reverse mapping are saved under `os.path.join(data_dir, "single/")`. */
  lemma ConstructBuildsOwnVocab(tk: Toolkit, dir: DataDir, opts: Options, files: Files)
    requires opts.generateTfRecord && opts.vocabDir.None?
    requires Construct(tk, dir, opts, files).Success?
    ensures var r := Construct(tk, dir, opts, files).value;
            var d := r.0.loaded;
            var config := ProcessorConfig(d.maxDocumentLength, Some(opts.minFrequency), Some(opts.maxFrequency));
            var paths := OwnVocabPaths(PathJoin(dir.path, "single/"), opts.minFrequency);
            var vocab := r.0.chosen.value.vocab;
            && TrainTexts(d).Success?
            && vocab == tk.fit(config, TrainTexts(d).value)
            && paths.0 in r.1 && r.1[paths.0] == FreqPickle(vocab.freq)
            && paths.1 in r.1 && r.1[paths.1] == MappingPickle(vocab.mapping)
            && paths.2 in r.1 && r.1[paths.2] == ReversePickle(vocab.reverse)
  {
    var t := TfRecordDir(dir.path, opts.tfrecordDir);
    var d := Load(tk, dir, opts).value;
    var afterBasic := if opts.generateBasicVocab then SaveBasicVocab(tk, dir.path, d, files) else Success(files);
    ConstructWritesRecords(tk, dir, opts, files);
    ConstructChoosesVocab(tk, dir, opts, files);
    OwnVocabWritten(tk, dir.path, d, opts, afterBasic.value, t);
  }

  /** A fitted vocabulary's three pickles survive the record writing. */
  lemma OwnVocabWritten(tk: Toolkit, dataDir: string, d: Loaded, opts: Options, files: Files, t: string)
    requires opts.vocabDir.None?
    requires ChooseVocab(tk, dataDir, d, opts, files).Success?
    requires var chosen := ChooseVocab(tk, dataDir, d, opts, files).value;
             && |chosen.wordIds| == |d.labels| == |d.prepared.oldLengths| == |d.prepared.newLengths|
             && WriteOutputs(tk, d, chosen, opts, t).Success?
    ensures var chosen := ChooseVocab(tk, dataDir, d, opts, files).value;
            var out := WriteOutputs(tk, d, chosen, opts, t).value;
            var paths := OwnVocabPaths(PathJoin(dataDir, "single/"), opts.minFrequency);
            && TrainTexts(d).Success?
            && chosen.vocab == tk.fit(ProcessorConfig(d.maxDocumentLength, Some(opts.minFrequency), Some(opts.maxFrequency)),
                                      TrainTexts(d).value)
            && paths.0 in out && out[paths.0] == FreqPickle(chosen.vocab.freq)
            && paths.1 in out && out[paths.1] == MappingPickle(chosen.vocab.mapping)
            && paths.2 in out && out[paths.2] == ReversePickle(chosen.vocab.reverse)
  {
    var chosen := ChooseVocab(tk, dataDir, d, opts, files).value;
    var out := WriteOutputs(tk, d, chosen, opts, t).value;
    var paths := OwnVocabPaths(PathJoin(dataDir, "single/"), opts.minFrequency);
    OwnVocabPathsAvoidOutputs(PathJoin(dataDir, "single/"), opts.minFrequency, t);
    ThreeUpdates(files, paths.0, paths.1, paths.2, FreqPickle(chosen.vocab.freq),
                 MappingPickle(chosen.vocab.mapping), ReversePickle(chosen.vocab.reverse));
    assert out[paths.0] == chosen.files[paths.0];
    assert out[paths.1] == chosen.files[paths.1];
    assert out[paths.2] == chosen.files[paths.2];
  }

  /** Three updates at three different paths each keep their value. */
  lemma ThreeUpdates(m: Files, a: string, b: string, c: string, x: Artifact, y: Artifact, z: Artifact)
    requires a != b && a != c && b != c
    ensures var n := m[a := x][b := y][c := z];
            a in n && b in n && c in n && n[a] == x && n[b] == y && n[c] == z
  {
  }

  /** The vocabulary a constructor with records uses is the one chosen
      after the basic vocabulary step. */
  lemma ConstructChoosesVocab(tk: Toolkit, dir: DataDir, opts: Options, files: Files)
    requires opts.generateTfRecord
    requires Construct(tk, dir, opts, files).Success?
    ensures var d := Load(tk, dir, opts).value;
            var afterBasic := if opts.generateBasicVocab then SaveBasicVocab(tk, dir.path, d, files) else Success(files);
            && afterBasic.Success?
            && ChooseVocab(tk, dir.path, d, opts, afterBasic.value).Success?
            && Construct(tk, dir, opts, files).value.0.chosen == Some(ChooseVocab(tk, dir.path, d, opts, afterBasic.value).value)
  {
  }

  /** With a public vocabulary and no basic vocabulary, the constructor
      changes no file but its own three record files and its argument pickle. */
  lemma ConstructKeepsOtherFiles(tk: Toolkit, dir: DataDir, opts: Options, files: Files, p: string)
    requires opts.generateTfRecord && !opts.generateBasicVocab && opts.vocabDir.Some?
    requires Construct(tk, dir, opts, files).Success?
    requires p !in OutputPaths(TfRecordDir(dir.path, opts.tfrecordDir))
    ensures var out := Construct(tk, dir, opts, files).value.1;
            && (p in out <==> p in files)
            && (p in files ==> out[p] == files[p])
  {
    var d := Load(tk, dir, opts).value;
    var chosen := ChooseVocab(tk, dir.path, d, opts, files).value;
    assert chosen.files == files;
    assert Construct(tk, dir, opts, files).value.1
           == WriteOutputs(tk, d, chosen, opts, TfRecordDir(dir.path, opts.tfrecordDir)).value;
  }
}

=== FILE: encoder_factory.dfy ===
/**
 * mtl/util/encoder_factory.py: an encoder embeds its inputs and extracts
 * features from the embedding; `create_encoders` gives every dataset an
 * encoder, one shared by all or one of its own; `build_encoders` reads the
 * architecture's per-dataset entries and tying flags first.
 */
module EncoderFactory {
  import opened Wrappers
  import opened Graph

  /** Extra keyword arguments, in the order they were given. */
  type Kwargs = seq<(string, Tensor)>

  /** `encoder_fn`: embed the inputs, then extract from the embedding; the
      lengths and the extra arguments go to the extractor only. */
  function EncoderFn(inputs: Packed, lengths: Packed, embed: Embedder, extract: Extractor, kwargs: Kwargs)
    : (r: Tensor)
    ensures r.Extracted? && r.extractor == extract && r.lengths == lengths && r.kwargs == kwargs
    ensures r.embedded == Embedded(embed, inputs)
  {
    Extracted(extract, Embedded(embed, inputs), lengths, kwargs)
  }

  /** The embedding does not depend on the lengths or the extra arguments. */
  lemma EmbeddingIgnoresLengths(inputs: Packed, embed: Embedder, extract: Extractor,
                                lengths1: Packed, kwargs1: Kwargs, lengths2: Packed, kwargs2: Kwargs)
    ensures EncoderFn(inputs, lengths1, embed, extract, kwargs1).embedded
         == EncoderFn(inputs, lengths2, embed, extract, kwargs2).embedded
  {
  }

  /** Applying an encoder template. */
  function Encode(e: Encoder, inputs: Packed, lengths: Packed, kwargs: Kwargs): Tensor {
    EncoderFn(inputs, lengths, e.embed, e.extract, kwargs)
  }

  /** Equal encoders compute equal features from equal arguments, and
      encoders that differ in embedder or extractor never coincide on any input. */
  lemma EncodeDeterminedByParts(e1: Encoder, e2: Encoder, inputs: Packed, lengths: Packed, kwargs: Kwargs)
    ensures Encode(e1, inputs, lengths, kwargs) == Encode(e2, inputs, lengths, kwargs)
            <==> e1.embed == e2.embed && e1.extract == e2.extract
  {
  }

  const SHARED_SCOPE := "encoder_shared"

  /** `'encoder_{}'.format(ds)` */
  function PrivateScope(ds: string): (r: string)
    ensures |r| == |ds| + 8 && r[8..] == ds
  {
    "encoder_" + ds
  }

  /** Different datasets get different private scopes. */
  lemma PrivateScopeInjective(a: string, b: string)
    ensures PrivateScope(a) == PrivateScope(b) ==> a == b
  {
    if PrivateScope(a) == PrivateScope(b) {
      assert a == PrivateScope(a)[8..];
    }
  }

  /** The private branch: for each dataset in order, look up its embedder,
      then its extractor; the first missing one raises `KeyError`. */
  function PrivateEncoders(embedders: map<string, Embedder>, extractors: map<string, Extractor>,
                           datasets: seq<string>): (r: Result<map<string, Encoder>>)
    ensures r.Success? <==> forall i :: 0 <= i < |datasets| ==> datasets[i] in embedders && datasets[i] in extractors
    ensures r.Success? ==> r.value.Keys == set ds | ds in datasets
    ensures r.Success? ==> forall ds | ds in r.value ::
              r.value[ds] == Encoder(PrivateScope(ds), embedders[ds], extractors[ds])
    ensures r.Failure? ==> exists i :: && 0 <= i < |datasets|
                                       && (forall j :: 0 <= j < i ==> datasets[j] in embedders && datasets[j] in extractors)
                                       && r.error == KeyMissing(datasets[i])
                                       && (datasets[i] !in embedders || datasets[i] !in extractors)
    decreases |datasets|
  {
    if datasets == [] then Success(map[])
    else
      var ds := datasets[0];
      if ds !in embedders || ds !in extractors then Failure(KeyMissing(ds))
      else
        var rest :- PrivateEncoders(embedders, extractors, datasets[1..]);
        assert forall j :: 1 <= j < |datasets| ==> datasets[j] == datasets[1..][j - 1];
        assert (set d | d in datasets) == {ds} + (set d | d in datasets[1..]);
        Success(rest[ds := Encoder(PrivateScope(ds), embedders[ds], extractors[ds])])
  }

  /** The only element of a one-element set: `next(iter(s))`. */
  function Single<T>(s: set<T>): (r: T)
    requires |s| == 1
    ensures s == {r}
  {
    var x :| x in s;
    assert s == {x} by {
      assert s * {x} == {x};
      assert |s - {x}| == 0;
      forall y | y in s ensures y == x {
        assert y !in s - {x};
      }
    }
    x
  }

  /** `create_encoders`. Fully shared: the embedders must all be one
      embedder and the extractors one extractor, and every dataset gets the
      single `encoder_shared` template. Otherwise each dataset gets its own
      `encoder_{ds}` template from its own embedder and extractor. */
  function CreateEncoders(embedders: map<string, Embedder>, extractors: map<string, Extractor>,
                          fullyShared: bool, datasets: seq<string>): (r: Result<map<string, Encoder>>)
    ensures r.Success? ==> r.value.Keys == set ds | ds in datasets
    ensures fullyShared ==>
              (r.Success? <==> |embedders.Values| == 1 && |extractors.Values| == 1)
    ensures fullyShared && |embedders.Values| != 1 ==>
              r == Failure(AssertionFailed("fully shared encoders must use the same embedder"))
    ensures fullyShared && |embedders.Values| == 1 && |extractors.Values| != 1 ==>
              r == Failure(AssertionFailed("fully shared encoders must use the same extractor"))
    ensures fullyShared && r.Success? ==>
              forall ds | ds in r.value ::
                && r.value[ds].scope == SHARED_SCOPE
                && embedders.Values == {r.value[ds].embed}
                && extractors.Values == {r.value[ds].extract}
    ensures !fullyShared ==> r == PrivateEncoders(embedders, extractors, datasets)
  {
    if fullyShared then
      var embedderSet := embedders.Values;
      if |embedderSet| != 1 then Failure(AssertionFailed("fully shared encoders must use the same embedder"))
      else
        var extractorSet := extractors.Values;
        if |extractorSet| != 1 then Failure(AssertionFailed("fully shared encoders must use the same extractor"))
        else
          var encoder := Encoder(SHARED_SCOPE, Single(embedderSet), Single(extractorSet));
          Success(map ds | ds in datasets :: encoder)
    else
      PrivateEncoders(embedders, extractors, datasets)
  }

  /** Fully shared, all datasets share one encoder; otherwise no two
      datasets share an encoder scope (a tied embedder or extractor inside
      two private encoders is still one template). */
  lemma CreateEncodersSharing(embedders: map<string, Embedder>, extractors: map<string, Extractor>,
                              fullyShared: bool, datasets: seq<string>, a: string, b: string)
    requires CreateEncoders(embedders, extractors, fullyShared, datasets).Success?
    requires a in datasets && b in datasets
    ensures var r := CreateEncoders(embedders, extractors, fullyShared, datasets).value;
            fullyShared ==> r[a] == r[b]
    ensures var r := CreateEncoders(embedders, extractors, fullyShared, datasets).value;
            !fullyShared && a != b ==> r[a].scope != r[b].scope
  {
    var r := CreateEncoders(embedders, extractors, fullyShared, datasets).value;
    if fullyShared {
      assert {r[a].embed} == {r[b].embed} && {r[a].extract} == {r[b].extract};
      assert r[a].embed in {r[b].embed} && r[a].extract in {r[b].extract};
    } else if a != b {
      PrivateScopeInjective(a, b);
    }
  }

  /** Two datasets with one embedder `e` and extractor `x` behind both
      names, fully shared: both get the one `encoder_shared`. */
  lemma SharedEncodersExample()
    ensures CreateEncoders(map["a" := Embedder("e"), "b" := Embedder("e")],
                           map["a" := Extractor("x"), "b" := Extractor("x")], true, ["a", "b"])
            == Success(map["a" := Encoder(SHARED_SCOPE, Embedder("e"), Extractor("x")),
                           "b" := Encoder(SHARED_SCOPE, Embedder("e"), Extractor("x"))])
  {
    var emb := map["a" := Embedder("e"), "b" := Embedder("e")];
    var ext := map["a" := Extractor("x"), "b" := Extractor("x")];
    assert emb.Values == {Embedder("e")} by {
      assert emb["a"] == Embedder("e");
    }
    assert ext.Values == {Extractor("x")} by {
      assert ext["a"] == Extractor("x");
    }
    var r := CreateEncoders(emb, ext, true, ["a", "b"]).value;
    assert r.Keys == {"a", "b"} by {
      assert (set ds | ds in ["a", "b"]) == {"a", "b"};
    }
    var enc := Encoder(SHARED_SCOPE, Embedder("e"), Extractor("x"));
    assert r["a"] == enc && r["b"] == enc;
    assert r == map["a" := enc, "b" := enc];
  }

  /** The same two datasets, not shared: `encoder_a` and `encoder_b`. */
  lemma PrivateEncodersExample()
    ensures CreateEncoders(map["a" := Embedder("e"), "b" := Embedder("e")],
                           map["a" := Extractor("x"), "b" := Extractor("x")], false, ["a", "b"])
            == Success(map["a" := Encoder("encoder_a", Embedder("e"), Extractor("x")),
                           "b" := Encoder("encoder_b", Embedder("e"), Extractor("x"))])
  {
    var emb := map["a" := Embedder("e"), "b" := Embedder("e")];
    var ext := map["a" := Extractor("x"), "b" := Extractor("x")];
    var ds := ["a", "b"];
    assert forall i :: 0 <= i < |ds| ==> ds[i] in emb && ds[i] in ext;
    var r := CreateEncoders(emb, ext, false, ds).value;
    assert r.Keys == {"a", "b"} by {
      assert (set d | d in ds) == {"a", "b"};
    }
    assert PrivateScope("a") == "encoder_a" && PrivateScope("b") == "encoder_b";
    assert r["a"] == Encoder("encoder_a", Embedder("e"), Extractor("x"));
    assert r["b"] == Encoder("encoder_b", Embedder("e"), Extractor("x"));
    assert r == map["a" := Encoder("encoder_a", Embedder("e"), Extractor("x")),
                    "b" := Encoder("encoder_b", Embedder("e"), Extractor("x"))];
  }

  // ---------------------------------------------------------------------
  // build_encoders
  // ---------------------------------------------------------------------

  /** A value of the configuration after `dict2func`. */
  datatype ConfigValue = ConfigValue(name: string)

  /** An entry of an architecture: a dataset's settings (a dict) or a flag
      such as `embedders_tied`. */
  datatype ArchEntry = Settings(fields: map<string, ConfigValue>) | Flag(value: bool)

  /** Python truth of an entry used as a condition. */
  predicate Truthy(e: ArchEntry) {
    match e
    case Settings(fields) => |fields| > 0
    case Flag(b) => b
  }

  /** The datasets an architecture configures: its dict-valued entries. */
  function DatasetEntries(arch: map<string, ArchEntry>): set<string> {
    set ds | ds in arch && arch[ds].Settings?
  }

  /** `{ds: arch[ds][field] for ds in arch if type(arch[ds]) is dict}`;
      a dataset without the field raises `KeyError`. */
  function FieldOfEach(arch: map<string, ArchEntry>, field: string): (r: Result<map<string, ConfigValue>>)
    ensures r.Success? <==> forall ds | ds in DatasetEntries(arch) :: field in arch[ds].fields
    ensures r.Failure? ==> r.error == KeyMissing(field)
    ensures r.Success? ==> r.value.Keys == DatasetEntries(arch)
    ensures r.Success? ==> forall ds | ds in r.value :: r.value[ds] == arch[ds].fields[field]
  {
    if forall ds | ds in DatasetEntries(arch) :: field in arch[ds].fields then
      Success(map ds | ds in DatasetEntries(arch) :: arch[ds].fields[field])
    else
      Failure(KeyMissing(field))
  }

  /** The four per-dataset maps `build_encoders` reads from an architecture. */
  datatype ArchMaps = ArchMaps(embedFns: map<string, ConfigValue>, embedKwargs: map<string, ConfigValue>,
                               extractFns: map<string, ConfigValue>, extractKwargs: map<string, ConfigValue>)

  function ReadArchMaps(arch: map<string, ArchEntry>): (r: Result<ArchMaps>)
    ensures r.Success? ==>
              && r.value.embedFns.Keys == r.value.embedKwargs.Keys == DatasetEntries(arch)
              && r.value.extractFns.Keys == r.value.extractKwargs.Keys == DatasetEntries(arch)
  {
    var embedFns :- FieldOfEach(arch, "embed_fn");
    var embedKwargs :- FieldOfEach(arch, "embed_kwargs");
    var extractFns :- FieldOfEach(arch, "extract_fn");
    var extractKwargs :- FieldOfEach(arch, "extract_kwargs");
    Success(ArchMaps(embedFns, embedKwargs, extractFns, extractKwargs))
  }

  /** The tying flags never become datasets. */
  lemma FlagsAreNotDatasets(arch: map<string, ArchEntry>)
    requires ReadArchMaps(arch).Success?
    requires "embedders_tied" in arch && arch["embedders_tied"].Flag?
    requires "extractors_tied" in arch && arch["extractors_tied"].Flag?
    ensures "embedders_tied" !in ReadArchMaps(arch).value.embedFns
    ensures "extractors_tied" !in ReadArchMaps(arch).value.extractFns
  {
  }

  /** The embedder and extractor factories, which are not part of this model. */
  datatype Factories = Factories(
    createEmbedders: (map<string, ConfigValue>, bool, int, map<string, ConfigValue>) -> map<string, Embedder>,
    createExtractors: (map<string, ConfigValue>, bool, map<string, ConfigValue>) -> map<string, Extractor>)

  /** What `build_encoders` computes before handing over to the factories. */
  datatype Wiring = Wiring(maps: ArchMaps, tieEmbedders: bool, tieExtractors: bool, fullyShared: bool)

  /** The configuration-reading part of `build_encoders`: the chosen
      architecture, its per-dataset maps and its two tying flags. */
  function ReadWiring(architectures: map<string, map<string, ArchEntry>>, architecture: string): (r: Result<Wiring>)
    ensures r.Success? ==> architecture in architectures
    ensures r.Success? ==> var arch := architectures[architecture];
              && "embedders_tied" in arch && "extractors_tied" in arch
              && r.value.tieEmbedders == Truthy(arch["embedders_tied"])
              && r.value.tieExtractors == Truthy(arch["extractors_tied"])
              && r.value.maps.embedFns.Keys == DatasetEntries(arch)
    ensures r.Success? ==> (r.value.fullyShared <==> r.value.tieEmbedders && r.value.tieExtractors)
    ensures architecture !in architectures ==> r == Failure(KeyMissing(architecture))
    ensures architecture in architectures ==>
              var arch := architectures[architecture];
              && (ReadArchMaps(arch).Failure? ==> r == Failure(ReadArchMaps(arch).error))
              && (ReadArchMaps(arch).Success? && "embedders_tied" !in arch ==>
                    r == Failure(KeyMissing("embedders_tied")))
              && (ReadArchMaps(arch).Success? && "embedders_tied" in arch && "extractors_tied" !in arch ==>
                    r == Failure(KeyMissing("extractors_tied")))
  {
    if architecture !in architectures then Failure(KeyMissing(architecture))
    else
      var arch := architectures[architecture];
      var maps :- ReadArchMaps(arch);
      if "embedders_tied" !in arch then Failure(KeyMissing("embedders_tied"))
      else if "extractors_tied" !in arch then Failure(KeyMissing("extractors_tied"))
      else
        var tieEmbedders := Truthy(arch["embedders_tied"]);
        var tieExtractors := Truthy(arch["extractors_tied"]);
        Success(Wiring(maps, tieEmbedders, tieExtractors, tieEmbedders && tieExtractors))
  }

  /** `build_encoders(vocab_size, args)`, with the configuration file
      already read and converted. */
  function BuildEncoders(factories: Factories, architectures: map<string, map<string, ArchEntry>>,
                         architecture: string, vocabSize: int, datasets: seq<string>)
    : (r: Result<map<string, Encoder>>)
    ensures r.Success? ==> ReadWiring(architectures, architecture).Success?
    ensures r.Success? ==> r.value.Keys == set ds | ds in datasets
    ensures ReadWiring(architectures, architecture).Success? ==>
              var w := ReadWiring(architectures, architecture).value;
              var embedders := factories.createEmbedders(w.maps.embedFns, w.tieEmbedders, vocabSize, w.maps.embedKwargs);
              var extractors := factories.createExtractors(w.maps.extractFns, w.tieExtractors, w.maps.extractKwargs);
              r == CreateEncoders(embedders, extractors, w.tieEmbedders && w.tieExtractors, datasets)
  {
    var w :- ReadWiring(architectures, architecture);
    var embedders := factories.createEmbedders(w.maps.embedFns, w.tieEmbedders, vocabSize, w.maps.embedKwargs);
    var extractors := factories.createExtractors(w.maps.extractFns, w.tieExtractors, w.maps.extractKwargs);
    CreateEncoders(embedders, extractors, w.fullyShared, datasets)
  }

  /** Tying only one of the two parts keeps every dataset's encoder private. */
  lemma HalfTiedIsPrivate(factories: Factories, architectures: map<string, map<string, ArchEntry>>,
                          architecture: string, vocabSize: int, datasets: seq<string>, a: string, b: string)
    requires BuildEncoders(factories, architectures, architecture, vocabSize, datasets).Success?
    requires a in datasets && b in datasets && a != b
    requires var arch := architectures[architecture];
             !Truthy(arch["embedders_tied"]) || !Truthy(arch["extractors_tied"])
    ensures var r := BuildEncoders(factories, architectures, architecture, vocabSize, datasets).value;
            r[a].scope != r[b].scope
  {
    var w := ReadWiring(architectures, architecture).value;
    var embedders := factories.createEmbedders(w.maps.embedFns, w.tieEmbedders, vocabSize, w.maps.embedKwargs);
    var extractors := factories.createExtractors(w.maps.extractFns, w.tieExtractors, w.maps.extractKwargs);
    CreateEncodersSharing(embedders, extractors, false, datasets, a, b);
  }
}

=== FILE: gen_mult.dfy ===
/**
 * mtl/models/gen_mult.py: the multi-task classifier. Every dataset's batch
 * goes through its encoder, a shared MLP, a private MLP and its own logit
 * layer; the training loss is the alpha-weighted sum of the datasets' losses.
 */
module GenMult {
  import opened Wrappers
  import opened PyBuiltins
  import opened Graph
  import opened EncoderFactory

  /** The hyper-parameters the model reads. */
  datatype HParams = HParams(
    datasets: seq<string>,
    datasetPaths: seq<string>,
    sharedHiddenDims: int,
    sharedMlpLayers: int,
    inputKeepProb: real,
    privateHiddenDims: int,
    privateMlpLayers: int,
    outputKeepProb: real,
    inputKey: string,
    experimentName: string,
    labelKey: string,
    alphas: seq<real>)

  /** A constructed `GenerativeMult`. */
  datatype Model = Model(
    classSizes: map<string, int>,
    datasetOrder: seq<string>,
    hps: HParams,
    encoders: map<string, Encoder>,
    mlpsShared: map<string, Mlp>,
    mlpsPrivate: map<string, Mlp>,
    logits: map<string, Dense>)

  // ---------------------------------------------------------------------
  // Templates
  // ---------------------------------------------------------------------

  const SHARED_MLP_SCOPE := "mlp_shared"

  /** `build_mlps`: shared, every dataset gets the one `mlp_shared`
      template with the shared sizes and input dropout; private, each
      dataset gets its own `mlp_{dataset}` with the private sizes and output dropout. */
  function BuildMlps(hps: HParams, isShared: bool): (r: map<string, Mlp>)
    ensures r.Keys == set ds | ds in hps.datasets
    ensures isShared ==> forall ds | ds in r ::
              && r[ds].scope == SHARED_MLP_SCOPE
              && r[ds].hiddenDims == hps.sharedHiddenDims && r[ds].numLayers == hps.sharedMlpLayers
              && r[ds].inputKeepProb == hps.inputKeepProb && r[ds].outputKeepProb == 1.0
    ensures !isShared ==> forall ds | ds in r ::
              && r[ds].scope == "mlp_" + ds
              && r[ds].hiddenDims == hps.privateHiddenDims && r[ds].numLayers == hps.privateMlpLayers
              && r[ds].inputKeepProb == 1.0 && r[ds].outputKeepProb == hps.outputKeepProb
  {
    if isShared then
      var shared := Mlp(SHARED_MLP_SCOPE, hps.sharedHiddenDims, hps.sharedMlpLayers, hps.inputKeepProb, 1.0);
      map ds | ds in hps.datasets :: shared
    else
      map ds | ds in hps.datasets :: Mlp("mlp_" + ds, hps.privateHiddenDims, hps.privateMlpLayers, 1.0, hps.outputKeepProb)
  }

  /** Appending the same prefix keeps strings apart. */
  lemma PrefixInjective(p: string, a: string, b: string)
    ensures p + a == p + b ==> a == b
  {
    if p + a == p + b {
      assert a == (p + a)[|p|..];
      assert b == (p + b)[|p|..];
    }
  }

  /** Shared MLPs are one template for all datasets; private ones never
      share variables between two datasets. */
  lemma MlpSharing(hps: HParams, a: string, b: string)
    requires a in hps.datasets && b in hps.datasets
    ensures BuildMlps(hps, true)[a] == BuildMlps(hps, true)[b]
    ensures a != b ==> BuildMlps(hps, false)[a].scope != BuildMlps(hps, false)[b].scope
  {
    PrefixInjective("mlp_", a, b);
  }

  /** `build_logits`: one `logit_{k}` layer per class-size entry, as wide
      as that entry's number of classes. */
  function BuildLogits(classSizes: map<string, int>): (r: map<string, Dense>)
    ensures r.Keys == classSizes.Keys
    ensures forall k | k in r :: r[k].outputSize == classSizes[k] && r[k].scope == "logit_" + k && r[k].name == "logits"
  {
    map k | k in classSizes :: Dense("logit_" + k, "logits", classSizes[k])
  }

  /** No two heads share a scope. */
  lemma LogitsDistinct(classSizes: map<string, int>, a: string, b: string)
    requires a in classSizes && b in classSizes && a != b
    ensures BuildLogits(classSizes)[a] != BuildLogits(classSizes)[b]
  {
    PrefixInjective("logit_", a, b);
  }

  // ---------------------------------------------------------------------
  // The constructor
  // ---------------------------------------------------------------------

  /** `GenerativeMult(class_sizes, dataset_order, hps, args)`: every
      argument must be given, and the class sizes must name exactly the
      datasets of the order. `encoders` stands for what `build_encoders`
      returns for `args`. */
  function New<A>(classSizes: Option<map<string, int>>, datasetOrder: Option<seq<string>>,
                  hps: Option<HParams>, args: Option<A>, encoders: map<string, Encoder>): (r: Result<Model>)
    ensures r.Success? <==> && classSizes.Some? && datasetOrder.Some? && hps.Some? && args.Some?
                            && classSizes.value.Keys == set ds | ds in datasetOrder.value
    ensures classSizes.None? ==> r == Failure(AssertionFailed("class_sizes is not None"))
    ensures classSizes.Some? && datasetOrder.None? ==> r == Failure(AssertionFailed("dataset_order is not None"))
    ensures classSizes.Some? && datasetOrder.Some? && hps.None? ==> r == Failure(AssertionFailed("hps is not None"))
    ensures classSizes.Some? && datasetOrder.Some? && hps.Some? && args.None? ==>
              r == Failure(AssertionFailed("args is not None"))
    ensures r.Success? ==>
              && r.value.classSizes == classSizes.value && r.value.datasetOrder == datasetOrder.value
              && r.value.hps == hps.value && r.value.encoders == encoders
              && r.value.mlpsShared == BuildMlps(hps.value, true)
              && r.value.mlpsPrivate == BuildMlps(hps.value, false)
              && r.value.logits.Keys == set ds | ds in datasetOrder.value
              && r.value.logits == BuildLogits(classSizes.value)
    ensures classSizes.Some? && datasetOrder.Some? && hps.Some? && args.Some?
            && classSizes.value.Keys != (set ds | ds in datasetOrder.value) ==>
              r == Failure(AssertionFailed("set(class_sizes.keys()) == set(dataset_order)"))
  {
    if classSizes.None? then Failure(AssertionFailed("class_sizes is not None"))
    else if datasetOrder.None? then Failure(AssertionFailed("dataset_order is not None"))
    else if hps.None? then Failure(AssertionFailed("hps is not None"))
    else if args.None? then Failure(AssertionFailed("args is not None"))
    else if classSizes.value.Keys != set ds | ds in datasetOrder.value then
      Failure(AssertionFailed("set(class_sizes.keys()) == set(dataset_order)"))
    else
      Success(Model(classSizes.value, datasetOrder.value, hps.value, encoders,
                    BuildMlps(hps.value, true), BuildMlps(hps.value, false), BuildLogits(classSizes.value)))
  }
  /** The constructor as written: after its five assertions it calls
      `build_encoders(args)`, but `build_encoders` declares two parameters
      (`vocab_size, args`), so the call raises TypeError. */
  function NewAsWritten<A>(classSizes: Option<map<string, int>>, datasetOrder: Option<seq<string>>,
                           hps: Option<HParams>, args: Option<A>): (r: Result<Model>)
    ensures r.Failure?
  {
    if classSizes.None? then Failure(AssertionFailed("class_sizes is not None"))
    else if datasetOrder.None? then Failure(AssertionFailed("dataset_order is not None"))
    else if hps.None? then Failure(AssertionFailed("hps is not None"))
    else if args.None? then Failure(AssertionFailed("args is not None"))
    else if classSizes.value.Keys != set ds | ds in datasetOrder.value then
      Failure(AssertionFailed("set(class_sizes.keys()) == set(dataset_order)"))
    else
      Failure(TypeError(BUILD_ENCODERS_ARITY))
  }

  const BUILD_ENCODERS_ARITY := "build_encoders() missing 1 required positional argument: 'args'"

  /** The as-written constructor never builds a model: where the corrected
      one fails, it fails with the same assertion, and where the corrected
      one succeeds, it raises TypeError instead. */
  lemma NewAsWrittenFails<A>(classSizes: Option<map<string, int>>, datasetOrder: Option<seq<string>>,
                             hps: Option<HParams>, args: Option<A>, encoders: map<string, Encoder>)
    ensures New(classSizes, datasetOrder, hps, args, encoders).Failure? ==>
              NewAsWritten(classSizes, datasetOrder, hps, args) == New(classSizes, datasetOrder, hps, args, encoders)
    ensures New(classSizes, datasetOrder, hps, args, encoders).Success? ==>
              NewAsWritten(classSizes, datasetOrder, hps, args) == Failure(TypeError(BUILD_ENCODERS_ARITY))
  {
  }

  /** A concrete constructor call with consistent arguments: the corrected
      constructor builds a model with one head per dataset, while the
      as-written one raises TypeError. */
  lemma NewAsWrittenExample(hps: HParams, encoders: map<string, Encoder>)
    ensures var sizes := map["sst" := 5];
            && New(Some(sizes), Some(["sst"]), Some(hps), Some(0), encoders).Success?
            && New(Some(sizes), Some(["sst"]), Some(hps), Some(0), encoders).value.logits["sst"].outputSize == 5
            && NewAsWritten(Some(sizes), Some(["sst"]), Some(hps), Some(0)) == Failure(TypeError(BUILD_ENCODERS_ARITY))
  {
    var sizes := map["sst" := 5];
    assert sizes.Keys == set ds | ds in ["sst"];
  }


  // ---------------------------------------------------------------------
  // Inputs of one batch
  // ---------------------------------------------------------------------

  /** A batch: feature name -> tensor. */
  type Batch = map<string, Tensor>

  /** Reads the `text_field_names` of `<path>/args.json`; not part of this model. */
  type ArgsReader = string -> Result<seq<string>>

  /** The loop over `zip(hps.datasets, hps.dataset_paths)` from position
      `i`: every dataset named `source` has its fields read, and the last
      read wins; `fields` is what earlier positions left. */
  function FieldNamesFrom(hps: HParams, source: string, read: ArgsReader, i: nat, fields: Option<seq<string>>)
    : (r: Result<seq<string>>)
    requires i <= |hps.datasets| && i <= |hps.datasetPaths|
    ensures LastMatch(hps, source, i).None? ==>
              r == if fields.Some? then Success(fields.value) else Failure(NameUnbound("text_field_names"))
    ensures LastMatch(hps, source, i).Some? && r.Success? ==>
              r == read(PathJoin(hps.datasetPaths[LastMatch(hps, source, i).value], "args.json"))
    decreases |hps.datasets| - i
  {
    if i == |hps.datasets| || i == |hps.datasetPaths| then
      if fields.Some? then Success(fields.value) else Failure(NameUnbound("text_field_names"))
    else if hps.datasets[i] == source then
      var names :- read(PathJoin(hps.datasetPaths[i], "args.json"));
      FieldNamesFrom(hps, source, read, i + 1, Some(names))
    else
      FieldNamesFrom(hps, source, read, i + 1, fields)
  }

  /** How many pairs the zip reaches. */
  function Paired(hps: HParams): nat {
    if |hps.datasets| <= |hps.datasetPaths| then |hps.datasets| else |hps.datasetPaths|
  }

  /** The last position from `i` on whose dataset is `source`. */
  function LastMatch(hps: HParams, source: string, i: nat): (r: Option<nat>)
    ensures r.Some? ==> i <= r.value < Paired(hps) && hps.datasets[r.value] == source
    ensures r.Some? ==> forall k :: r.value < k < Paired(hps) ==> hps.datasets[k] != source
    ensures r.None? ==> forall k :: i <= k < Paired(hps) ==> hps.datasets[k] != source
    decreases Paired(hps) - i
  {
    if i >= Paired(hps) then None
    else
      var later := LastMatch(hps, source, i + 1);
      if later.Some? then later
      else if hps.datasets[i] == source then Some(i)
      else None
  }

  /** The text fields of the batch's source dataset. */
  function FieldNames(hps: HParams, source: string, read: ArgsReader): (r: Result<seq<string>>)
    ensures LastMatch(hps, source, 0).None? ==> r == Failure(NameUnbound("text_field_names"))
    ensures r.Success? ==>
              && LastMatch(hps, source, 0).Some?
              && r == read(PathJoin(hps.datasetPaths[LastMatch(hps, source, 0).value], "args.json"))
  {
    FieldNamesFrom(hps, source, read, 0, None)
  }

  /** When every read succeeds, the fields are those of the last position
      naming the source; with no such position they are what earlier
      positions left, and unbound at the start. */
  lemma {:induction false} FieldNamesFromLast(hps: HParams, source: string, read: ArgsReader, i: nat,
                                              fields: Option<seq<string>>)
    requires i <= |hps.datasets| && i <= |hps.datasetPaths|
    requires forall j :: i <= j < Paired(hps) && hps.datasets[j] == source ==>
               read(PathJoin(hps.datasetPaths[j], "args.json")).Success?
    ensures FieldNamesFrom(hps, source, read, i, fields)
            == match LastMatch(hps, source, i)
               case Some(j) => read(PathJoin(hps.datasetPaths[j], "args.json"))
               case None => if fields.Some? then Success(fields.value) else Failure(NameUnbound("text_field_names"))
    decreases |hps.datasets| - i
  {
    if i == |hps.datasets| || i == |hps.datasetPaths| {
    } else if hps.datasets[i] == source {
      var names := read(PathJoin(hps.datasetPaths[i], "args.json")).value;
      assert FieldNamesFrom(hps, source, read, i, fields) == FieldNamesFrom(hps, source, read, i + 1, Some(names));
      FieldNamesFromLast(hps, source, read, i + 1, Some(names));
      assert LastMatch(hps, source, i) == if LastMatch(hps, source, i + 1).Some? then LastMatch(hps, source, i + 1) else Some(i);
    } else {
      assert FieldNamesFrom(hps, source, read, i, fields) == FieldNamesFrom(hps, source, read, i + 1, fields);
      FieldNamesFromLast(hps, source, read, i + 1, fields);
      assert LastMatch(hps, source, i) == LastMatch(hps, source, i + 1);
    }
  }

  /** The fields come from the `args.json` of the last dataset named like
      the batch's source; with none, `text_field_names` is never bound. */
  lemma FieldNamesLast(hps: HParams, source: string, read: ArgsReader)
    requires forall j :: 0 <= j < Paired(hps) && hps.datasets[j] == source ==>
               read(PathJoin(hps.datasetPaths[j], "args.json")).Success?
    ensures FieldNames(hps, source, read)
            == match LastMatch(hps, source, 0)
               case Some(j) => read(PathJoin(hps.datasetPaths[j], "args.json"))
               case None => Failure(NameUnbound("text_field_names"))
  {
    FieldNamesFromLast(hps, source, read, 0, None);
  }

  /** `field + '_length'` */
  function LengthKey(field: string): string {
    field + "_length"
  }

  /** The batch key of a field's input for each input kind; any other
      kind raises `ValueError`. */
  function InputKeyFor(field: string, inputKey: string): (r: Result<string>)
    ensures inputKey == "tokens" ==> r == Success(field)
    ensures inputKey == "bow" ==> r == Success(field + "_bow")
    ensures inputKey == "tfidf" ==> r == Success(field + "_tfidf")
    ensures r.Failure? <==> inputKey !in {"tokens", "bow", "tfidf"}
    ensures r.Failure? ==> r.error.ValueError?
  {
    if inputKey == "tokens" then Success(field)
    else if inputKey == "bow" then Success(field + "_bow")
    else if inputKey == "tfidf" then Success(field + "_tfidf")
    else Failure(ValueError("unrecognized input key: " + inputKey))
  }

  /** A field's input key is never its length key. */
  lemma InputKeyIsNotLengthKey(field: string, inputKey: string)
    requires InputKeyFor(field, inputKey).Success?
    ensures InputKeyFor(field, inputKey).value != LengthKey(field)
  {
    assert |LengthKey(field)| == |field| + 7;
  }

  /** Different fields read different inputs. */
  lemma InputKeyInjective(a: string, b: string, inputKey: string)
    requires InputKeyFor(a, inputKey).Success? && a != b
    ensures InputKeyFor(a, inputKey).value != InputKeyFor(b, inputKey).value
  {
    var s := if inputKey == "tokens" then "" else if inputKey == "bow" then "_bow" else "_tfidf";
    assert InputKeyFor(a, inputKey).value == a + s && InputKeyFor(b, inputKey).value == b + s;
    assert a == (a + s)[..|a|];
    assert b == (b + s)[..|b|];
  }

  /** The loop over the text fields: per field, its length, then its input
      for the configured kind, each looked up in the batch. */
  function SelectInputs(batch: Batch, fields: seq<string>, inputKey: string)
    : (r: Result<(seq<Tensor>, seq<Tensor>)>)
    ensures r.Success? <==> forall i :: 0 <= i < |fields| ==>
              && LengthKey(fields[i]) in batch
              && InputKeyFor(fields[i], inputKey).Success?
              && InputKeyFor(fields[i], inputKey).value in batch
    ensures r.Success? ==> |r.value.0| == |r.value.1| == |fields|
    ensures r.Success? ==> forall i :: 0 <= i < |fields| ==>
              && r.value.0[i] == batch[InputKeyFor(fields[i], inputKey).value]
              && r.value.1[i] == batch[LengthKey(fields[i])]
    decreases |fields|
  {
    if fields == [] then Success(([], []))
    else
      var f := fields[0];
      if LengthKey(f) !in batch then Failure(KeyMissing(LengthKey(f)))
      else
        var key :- InputKeyFor(f, inputKey);
        if key !in batch then Failure(KeyMissing(key))
        else
          var rest :- SelectInputs(batch, fields[1..], inputKey);
          assert forall i :: 1 <= i < |fields| ==> fields[i] == fields[1..][i - 1];
          Success(([batch[key]] + rest.0, [batch[LengthKey(f)]] + rest.1))
  }

  /** Whether a batch holds a field's length and its input. */
  predicate FieldReady(batch: Batch, field: string, inputKey: string) {
    && LengthKey(field) in batch
    && InputKeyFor(field, inputKey).Success?
    && InputKeyFor(field, inputKey).value in batch
  }

  /** The error a field that is not ready raises: its length is looked up
      first, then the input key is chosen, then the input is looked up. */
  function FieldError(batch: Batch, field: string, inputKey: string): Error {
    if LengthKey(field) !in batch then KeyMissing(LengthKey(field))
    else if InputKeyFor(field, inputKey).Failure? then InputKeyFor(field, inputKey).error
    else KeyMissing(InputKeyFor(field, inputKey).value)
  }

  /** Position `i` holds the first field that is not ready. */
  predicate FirstUnready(batch: Batch, fields: seq<string>, inputKey: string, i: int) {
    && 0 <= i < |fields|
    && !FieldReady(batch, fields[i], inputKey)
    && forall j :: 0 <= j < i ==> FieldReady(batch, fields[j], inputKey)
  }

  /** A failing selection raises the error of the first field that is not
      ready: a KeyError for its length or its input, or the ValueError of
      an unrecognised input key. */
  lemma {:induction false} SelectInputsError(batch: Batch, fields: seq<string>, inputKey: string)
    ensures SelectInputs(batch, fields, inputKey).Failure? ==>
              exists i :: FirstUnready(batch, fields, inputKey, i)
                          && SelectInputs(batch, fields, inputKey).error == FieldError(batch, fields[i], inputKey)
    decreases |fields|
  {
    if fields != [] && SelectInputs(batch, fields, inputKey).Failure? {
      if !FieldReady(batch, fields[0], inputKey) {
        assert FirstUnready(batch, fields, inputKey, 0);
      } else {
        var tail := fields[1..];
        assert SelectInputs(batch, fields, inputKey).error == SelectInputs(batch, tail, inputKey).error;
        SelectInputsError(batch, tail, inputKey);
        var i :| FirstUnready(batch, tail, inputKey, i)
                 && SelectInputs(batch, tail, inputKey).error == FieldError(batch, tail[i], inputKey);
        assert forall j :: 1 <= j <= i ==> fields[j] == tail[j - 1];
        assert FirstUnready(batch, fields, inputKey, i + 1);
      }
    }
  }

  const RUDER_NAACL_18 := "RUDER_NAACL_18"

  /** The extra encoder arguments: for the serial bi-LSTM experiment the
      position of the last token of the last field (`input_lengths[-1]`
      minus one), otherwise none. */
  function ExtraKwargs(experimentName: string, lengths: seq<Tensor>): (r: Result<Kwargs>)
    ensures experimentName != RUDER_NAACL_18 ==> r == Success([])
    ensures experimentName == RUDER_NAACL_18 && |lengths| > 0 ==>
              r == Success([("indices", LastPosition(lengths[|lengths| - 1]))])
    ensures experimentName == RUDER_NAACL_18 && |lengths| == 0 ==> r == Failure(IndexOutOfRange(-1))
  {
    if experimentName == RUDER_NAACL_18 then
      var last :- Get(lengths, -1);
      Success([("indices", LastPosition(last))])
    else
      Success([])
  }

  /** What goes into the encoder for a batch: packed inputs and
      lengths and the extra arguments. */
  datatype EncoderInputs = EncoderInputs(inputs: Packed, lengths: Packed, kwargs: Kwargs)

  /** The common first half of `get_loss` and `get_predictions`. */
  function PrepareInputs(hps: HParams, batch: Batch, source: string, read: ArgsReader): (r: Result<EncoderInputs>)
    ensures var names := FieldNames(hps, source, read);
            r.Success? <==>
              && names.Success?
              && SelectInputs(batch, names.value, hps.inputKey).Success?
              && ExtraKwargs(hps.experimentName, SelectInputs(batch, names.value, hps.inputKey).value.1).Success?
    ensures var names := FieldNames(hps, source, read);
            names.Failure? ==> r == Failure(names.error)
    ensures var names := FieldNames(hps, source, read);
            names.Success? && SelectInputs(batch, names.value, hps.inputKey).Failure? ==>
              r == Failure(SelectInputs(batch, names.value, hps.inputKey).error)
    ensures var names := FieldNames(hps, source, read);
            names.Success? && SelectInputs(batch, names.value, hps.inputKey).Success? ==>
              var kwargs := ExtraKwargs(hps.experimentName, SelectInputs(batch, names.value, hps.inputKey).value.1);
              kwargs.Failure? ==> r == Failure(kwargs.error)
    ensures r.Success? ==> FieldNames(hps, source, read).Success?
    ensures r.Success? ==>
              var fields := FieldNames(hps, source, read).value;
              && SelectInputs(batch, fields, hps.inputKey).Success?
              && var sel := SelectInputs(batch, fields, hps.inputKey).value;
              && Unpack(r.value.inputs) == sel.0
              && Unpack(r.value.lengths) == sel.1
              && ExtraKwargs(hps.experimentName, sel.1) == Success(r.value.kwargs)
  {
    var fields :- FieldNames(hps, source, read);
    var sel :- SelectInputs(batch, fields, hps.inputKey);
    var kwargs :- ExtraKwargs(hps.experimentName, sel.1);
    PackRoundTrip(sel.0);
    PackRoundTrip(sel.1);
    Success(EncoderInputs(Pack(sel.0), Pack(sel.1), kwargs))
  }

  /** The encoder's view of a batch: one input per text field, in field order. */
  lemma EncoderSeesFields(hps: HParams, batch: Batch, source: string, read: ArgsReader)
    requires PrepareInputs(hps, batch, source, read).Success?
    ensures var fields := FieldNames(hps, source, read).value;
            var p := PrepareInputs(hps, batch, source, read).value;
            && |Unpack(p.inputs)| == |Unpack(p.lengths)| == |fields|
            && (forall i :: 0 <= i < |fields| ==>
                  && Unpack(p.inputs)[i] == batch[InputKeyFor(fields[i], hps.inputKey).value]
                  && Unpack(p.lengths)[i] == batch[LengthKey(fields[i])])
            && (|fields| == 1 <==> p.inputs.One?)
  {
    var fields := FieldNames(hps, source, read).value;
    var sel := SelectInputs(batch, fields, hps.inputKey).value;
    var p := PrepareInputs(hps, batch, source, read).value;
    if |fields| == 1 {
      PackRoundTrip(sel.0);
      assert p.inputs == Pack(sel.0);
    } else {
      assert p.inputs == Pack(sel.0);
    }
  }

  // ---------------------------------------------------------------------
  // Loss and predictions
  // ---------------------------------------------------------------------

  /** The shared MLP, the private MLP and the logit layer of a dataset. */
  function Head(m: Model, datasetName: string, features: Tensor, isTraining: bool): (r: Result<Tensor>)
    ensures r.Success? <==> datasetName in m.mlpsShared && datasetName in m.mlpsPrivate && datasetName in m.logits
    ensures r.Failure? ==> r.error == KeyMissing(datasetName)
    ensures r.Success? ==>
              r.value == DenseOut(m.logits[datasetName],
                                  MlpOut(m.mlpsPrivate[datasetName],
                                         MlpOut(m.mlpsShared[datasetName], features, isTraining),
                                         isTraining))
  {
    if datasetName !in m.mlpsShared then Failure(KeyMissing(datasetName))
    else if datasetName !in m.mlpsPrivate then Failure(KeyMissing(datasetName))
    else if datasetName !in m.logits then Failure(KeyMissing(datasetName))
    else
      var shared := MlpOut(m.mlpsShared[datasetName], features, isTraining);
      var private := MlpOut(m.mlpsPrivate[datasetName], shared, isTraining);
      Success(DenseOut(m.logits[datasetName], private))
  }

  /** `self.encode(x, dataset_name, lengths=..., **kwargs)` */
  function EncodeFor(m: Model, datasetName: string, p: EncoderInputs): (r: Result<Tensor>)
    ensures r.Success? <==> datasetName in m.encoders
    ensures r.Failure? ==> r.error == KeyMissing(datasetName)
    ensures r.Success? ==> r.value == Encode(m.encoders[datasetName], p.inputs, p.lengths, p.kwargs)
  {
    if datasetName !in m.encoders then Failure(KeyMissing(datasetName))
    else Success(Encode(m.encoders[datasetName], p.inputs, p.lengths, p.kwargs))
  }

  /** `get_loss`: the mean cross-entropy of the dataset's logits against
      the batch's labels; given `features` replace the encoder's output,
      though the inputs are still looked up first. */
  function GetLoss(m: Model, batch: Batch, source: string, datasetName: string, features: Option<Tensor>,
                   isTraining: bool, read: ArgsReader): (r: Result<Tensor>)
    ensures var p := PrepareInputs(m.hps, batch, source, read);
            && (p.Failure? ==> r == Failure(p.error))
            && (p.Success? && m.hps.labelKey !in batch ==> r == Failure(KeyMissing(m.hps.labelKey)))
    ensures r.Success? <==>
              && PrepareInputs(m.hps, batch, source, read).Success?
              && m.hps.labelKey in batch
              && (features.None? ==> datasetName in m.encoders)
              && datasetName in m.mlpsShared && datasetName in m.mlpsPrivate && datasetName in m.logits
    ensures PrepareInputs(m.hps, batch, source, read).Success? && m.hps.labelKey in batch && r.Failure? ==>
              r.error == KeyMissing(datasetName)
    ensures r.Success? ==>
              var p := PrepareInputs(m.hps, batch, source, read).value;
              var x := if features.None? then Encode(m.encoders[datasetName], p.inputs, p.lengths, p.kwargs)
                       else features.value;
              r.value == MeanCrossEntropy(Head(m, datasetName, x, isTraining).value, batch[m.hps.labelKey])
  {
    var p :- PrepareInputs(m.hps, batch, source, read);
    if m.hps.labelKey !in batch then Failure(KeyMissing(m.hps.labelKey))
    else
      var labels := batch[m.hps.labelKey];
      var x :- if features.None? then EncodeFor(m, datasetName, p) else Success(features.value);
      var logits :- Head(m, datasetName, x, isTraining);
      Success(MeanCrossEntropy(logits, labels))
  }

  /** `get_predictions`: the arg-max of the dataset's logits, not training. */
  function GetPredictions(m: Model, batch: Batch, source: string, datasetName: string, read: ArgsReader)
    : (r: Result<Tensor>)
    ensures var p := PrepareInputs(m.hps, batch, source, read);
            p.Failure? ==> r == Failure(p.error)
    ensures r.Success? <==>
              && PrepareInputs(m.hps, batch, source, read).Success?
              && datasetName in m.encoders
              && datasetName in m.mlpsShared && datasetName in m.mlpsPrivate && datasetName in m.logits
    ensures PrepareInputs(m.hps, batch, source, read).Success? && r.Failure? ==> r.error == KeyMissing(datasetName)
    ensures r.Success? ==>
              var p := PrepareInputs(m.hps, batch, source, read).value;
              var x := Encode(m.encoders[datasetName], p.inputs, p.lengths, p.kwargs);
              r.value == ArgMax(Head(m, datasetName, x, false).value)
  {
    var p :- PrepareInputs(m.hps, batch, source, read);
    var x :- EncodeFor(m, datasetName, p);
    var logits :- Head(m, datasetName, x, false);
    Success(ArgMax(logits))
  }

  /** Evaluation predicts from the very logits the loss is computed on,
      when the loss is taken outside training from the encoder's features. */
  lemma PredictionsShareLossLogits(m: Model, batch: Batch, source: string, datasetName: string, read: ArgsReader)
    requires GetLoss(m, batch, source, datasetName, None, false, read).Success?
    ensures GetPredictions(m, batch, source, datasetName, read).Success?
    ensures GetPredictions(m, batch, source, datasetName, read).value.logits
            == GetLoss(m, batch, source, datasetName, None, false, read).value.logits
  {
  }

  /** In a model from the constructor, the shared MLP of two datasets is
      one template, so their features pass through the same layers before
      their private ones. */
  lemma SharedLayersAreShared(m: Model, batch1: Batch, batch2: Batch, source1: string, source2: string,
                              a: string, b: string, read: ArgsReader)
    requires m.mlpsShared == BuildMlps(m.hps, true) && m.mlpsPrivate == BuildMlps(m.hps, false)
    requires GetLoss(m, batch1, source1, a, None, true, read).Success?
    requires GetLoss(m, batch2, source2, b, None, true, read).Success?
    ensures var l1 := GetLoss(m, batch1, source1, a, None, true, read).value.logits;
            var l2 := GetLoss(m, batch2, source2, b, None, true, read).value.logits;
            && l1.input.input.mlp == l2.input.input.mlp
            && (a != b ==> l1.input.mlp != l2.input.mlp)
  {
    MlpSharing(m.hps, a, b);
  }

  // ---------------------------------------------------------------------
  // The multi-task loss
  // ---------------------------------------------------------------------

  /** `sum(xs)` */
  function Sum(xs: seq<real>): real
    decreases |xs|
  {
    if |xs| == 0 then 0.0 else xs[0] + Sum(xs[1..])
  }

  /** Reference definition: the alpha-weighted sum, paired by position. */
  function WeightedSum(alphas: seq<real>, losses: seq<real>): real
    requires |alphas| == |losses|
    decreases |alphas|
  {
    if |alphas| == 0 then 0.0
    else alphas[0] * losses[0] + WeightedSum(alphas[1..], losses[1..])
  }

  /** When every task has the same loss, the weighted sum is that loss
      times the sum of the alphas. */
  lemma {:induction false} WeightedSumConstant(alphas: seq<real>, losses: seq<real>, l: real)
    requires |alphas| == |losses|
    requires forall k :: 0 <= k < |losses| ==> losses[k] == l
    ensures WeightedSum(alphas, losses) == Sum(alphas) * l
    decreases |alphas|
  {
    if |alphas| > 0 {
      WeightedSumConstant(alphas[1..], losses[1..], l);
      Distribute(alphas[0], Sum(alphas[1..]), l);
    }
  }

  /** Adding one more weighted loss at the end adds its product. */
  lemma {:induction false} WeightedSumSnoc(alphas: seq<real>, losses: seq<real>, a: real, l: real)
    requires |alphas| == |losses|
    ensures WeightedSum(alphas + [a], losses + [l]) == WeightedSum(alphas, losses) + a * l
    decreases |alphas|
  {
    if |alphas| == 0 {
      assert alphas + [a] == [a] && losses + [l] == [l];
      assert [a][1..] == [] && [l][1..] == [];
    } else {
      WeightedSumSnoc(alphas[1..], losses[1..], a, l);
      assert (alphas + [a])[1..] == alphas[1..] + [a];
      assert (losses + [l])[1..] == losses[1..] + [l];
    }
  }

  /** The loss of a `(dataset, batch)` pair. */
  type LossFn = ((string, Batch)) -> Result<Tensor>

  /** `get_loss` on each pair, taken on the pair's own dataset with the
      encoder's features. */
  function BatchLoss(m: Model, isTraining: bool, read: ArgsReader): LossFn {
    (b: (string, Batch)) => GetLoss(m, b.1, b.0, b.0, None, isTraining, read)
  }

  /** The first batch whose loss fails, when one does. */
  predicate FirstFailure(loss: LossFn, batches: seq<(string, Batch)>, i: int) {
    && 0 <= i < |batches|
    && loss(batches[i]).Failure?
    && forall j :: 0 <= j < i ==> loss(batches[j]).Success?
  }

  /** The values of the batches' losses, in order; the first failing loss fails all. */
  function LossValues(loss: LossFn, batches: seq<(string, Batch)>, value: Tensor -> real): (r: Result<seq<real>>)
    ensures r.Success? <==> forall i :: 0 <= i < |batches| ==> loss(batches[i]).Success?
    ensures r.Failure? ==> exists i :: FirstFailure(loss, batches, i) && r.error == loss(batches[i]).error
    ensures r.Success? ==> |r.value| == |batches|
    ensures r.Success? ==> forall i :: 0 <= i < |batches| ==> r.value[i] == value(loss(batches[i]).value)
  {
    if batches == [] then Success([])
    else
      var n := |batches| - 1;
      var init := LossValues(loss, batches[..n], value);
      var last := loss(batches[n]);
      assert forall i :: 0 <= i < n ==> batches[..n][i] == batches[i];
      if init.Failure? then
        var i :| FirstFailure(loss, batches[..n], i) && init.error == loss(batches[..n][i]).error;
        assert FirstFailure(loss, batches, i);
        init
      else if last.Failure? then
        assert FirstFailure(loss, batches, n);
        Failure(last.error)
      else Success(init.value + [value(last.value)])
  }

  /** `get_multi_task_loss`: one alpha per batch, alphas summing to one,
      then the alpha-weighted sum of the batches' losses in iteration order.
      `value` gives a loss tensor's value in the running session. */
  method GetMultiTaskLoss(m: Model, batches: seq<(string, Batch)>, isTraining: bool, read: ArgsReader,
                          value: Tensor -> real) returns (r: Result<real>)
    ensures r.Success? <==> && |batches| == |m.hps.alphas| && Sum(m.hps.alphas) == 1.0
                            && LossValues(BatchLoss(m, isTraining, read), batches, value).Success?
    ensures |batches| != |m.hps.alphas| ==> r == Failure(AssertionFailed("len(dataset_batches) == len(alphas)"))
    ensures |batches| == |m.hps.alphas| && Sum(m.hps.alphas) != 1.0 ==>
              r == Failure(AssertionFailed("sum(alphas) == 1.0"))
    ensures |batches| == |m.hps.alphas| && Sum(m.hps.alphas) == 1.0 && r.Failure? ==>
              exists i :: FirstFailure(BatchLoss(m, isTraining, read), batches, i)
                          && r.error == BatchLoss(m, isTraining, read)(batches[i]).error
    ensures r.Success? ==>
              r.value == WeightedSum(m.hps.alphas, LossValues(BatchLoss(m, isTraining, read), batches, value).value)
  {
    var alphas := m.hps.alphas;
    if |batches| != |alphas| {
      return Failure(AssertionFailed("len(dataset_batches) == len(alphas)"));
    }
    if Sum(alphas) != 1.0 {
      return Failure(AssertionFailed("sum(alphas) == 1.0"));
    }
    r := WeightedLoss(alphas, BatchLoss(m, isTraining, read), batches, value);
  }

  /** The loop of `get_multi_task_loss` over the batches. */
  method WeightedLoss(alphas: seq<real>, loss: LossFn, batches: seq<(string, Batch)>, value: Tensor -> real)
    returns (r: Result<real>)
    requires |alphas| == |batches|
    ensures r.Success? <==> LossValues(loss, batches, value).Success?
    ensures r.Failure? ==> exists i :: FirstFailure(loss, batches, i) && r.error == loss(batches[i]).error
    ensures r.Success? ==> r.value == WeightedSum(alphas, LossValues(loss, batches, value).value)
  {
    var total := 0.0;
    var losses: seq<real> := [];
    var i := 0;
    while i < |batches|
      invariant 0 <= i <= |batches|
      invariant LossValues(loss, batches[..i], value) == Success(losses)
      invariant total == WeightedSum(alphas[..i], losses)
    {
      var l := loss(batches[i]);
      LossValuesStep(loss, batches, value, i);
      if l.Failure? {
        LossValuesPrefix(loss, batches, value, i + 1);
        FailureAfterSuccesses(loss, batches, value, i);
        return Failure(l.error);
      }
      assert alphas[..i + 1] == alphas[..i] + [alphas[i]];
      WeightedSumSnoc(alphas[..i], losses, alphas[i], value(l.value));
      total := total + alphas[i] * value(l.value);
      losses := losses + [value(l.value)];
      i := i + 1;
    }
    assert alphas[..i] == alphas;
    assert batches[..i] == batches;
    r := Success(total);
  }

  /** A batch that fails after a prefix of successful batches is the first failure. */
  lemma FailureAfterSuccesses(loss: LossFn, batches: seq<(string, Batch)>, value: Tensor -> real, i: nat)
    requires i < |batches| && LossValues(loss, batches[..i], value).Success? && loss(batches[i]).Failure?
    ensures FirstFailure(loss, batches, i)
  {
    forall j | 0 <= j < i ensures loss(batches[j]).Success? {
      assert batches[..i][j] == batches[j];
    }
  }

  /** One more batch: its loss is appended, or its failure ends the list. */
  lemma LossValuesStep(loss: LossFn, batches: seq<(string, Batch)>, value: Tensor -> real, k: nat)
    requires k < |batches| && LossValues(loss, batches[..k], value).Success?
    ensures var last := loss(batches[k]);
            LossValues(loss, batches[..k + 1], value)
            == if last.Failure? then Failure(last.error)
               else Success(LossValues(loss, batches[..k], value).value + [value(last.value)])
  {
    assert batches[..k + 1][..k] == batches[..k];
  }

  /** A failing prefix fails the whole list. */
  lemma LossValuesPrefix(loss: LossFn, batches: seq<(string, Batch)>, value: Tensor -> real, k: nat)
    requires k <= |batches|
    requires LossValues(loss, batches[..k], value).Failure?
    ensures LossValues(loss, batches, value).Failure?
  {
    var j :| 0 <= j < k && loss(batches[..k][j]).Failure?;
    assert batches[..k][j] == batches[j];
  }

  /** With non-negative alphas summing to one, the multi-task loss lies
      between the smallest and the largest single loss. */
  lemma {:induction false} WeightedSumBounds(alphas: seq<real>, losses: seq<real>, lo: real, hi: real)
    requires |alphas| == |losses|
    requires forall i :: 0 <= i < |alphas| ==> 0.0 <= alphas[i]
    requires forall i :: 0 <= i < |losses| ==> lo <= losses[i] <= hi
    ensures Sum(alphas) * lo <= WeightedSum(alphas, losses) <= Sum(alphas) * hi
    decreases |alphas|
  {
    if |alphas| != 0 {
      var a, l := alphas[0], losses[0];
      WeightedSumBounds(alphas[1..], losses[1..], lo, hi);
      ScaleBetween(a, lo, l, hi);
      Distribute(a, Sum(alphas[1..]), lo);
      Distribute(a, Sum(alphas[1..]), hi);
    }
  }

  /** A non-negative weight keeps an ordering. */
  lemma ScaleBetween(a: real, lo: real, l: real, hi: real)
    requires 0.0 <= a && lo <= l <= hi
    ensures a * lo <= a * l <= a * hi
  {
    assert a * (l - lo) >= 0.0;
    assert a * (hi - l) >= 0.0;
  }

  lemma Distribute(s: real, a: real, x: real)
    ensures (s + a) * x == s * x + a * x
  {
  }

  /** The multi-task loss is a convex combination of the single losses. */
  lemma MultiTaskLossBounds(alphas: seq<real>, losses: seq<real>, lo: real, hi: real)
    requires |alphas| == |losses| && Sum(alphas) == 1.0
    requires forall i :: 0 <= i < |alphas| ==> 0.0 <= alphas[i]
    requires forall i :: 0 <= i < |losses| ==> lo <= losses[i] <= hi
    ensures lo <= WeightedSum(alphas, losses) <= hi
  {
    WeightedSumBounds(alphas, losses, lo, hi);
  }

  /** Alphas (0.3, 0.7) on losses (2.0, 1.0) weigh to 1.3. */
  lemma WeightedSumExample()
    ensures Sum([0.3, 0.7]) == 1.0
    ensures WeightedSum([0.3, 0.7], [2.0, 1.0]) == 1.3
  {
    assert [0.3, 0.7][1..] == [0.7] && [2.0, 1.0][1..] == [1.0];
    assert [0.7][1..] == [] && [1.0][1..] == [];
  }
}

=== FILE: graph.dfy ===
/**
 * The TensorFlow side of the models, as terms: what a tensor was computed
 * from, and the named templates (`tf.make_template`) that compute them.
 * Two applications of the same template share its variables: within the
 * maps one builder call returns, datasets with equal templates share all of
 * that template's parameters. Different templates may still hold one
 * template in common, as two private encoders do with a tied embedder.
 */
module Graph {

  /** An embedder and an extractor as built by their factories; only their
      identity matters here. */
  datatype Embedder = Embedder(id: string)
  datatype Extractor = Extractor(id: string)

  /** `tf.make_template(scope, encoder_fn, embed_fn=..., extract_fn=...)` */
  datatype Encoder = Encoder(scope: string, embed: Embedder, extract: Extractor)

  /** `tf.make_template(scope, mlp, ...)` with ReLU activations and no batch
      or layer normalisation, which every MLP template here uses. */
  datatype Mlp = Mlp(scope: string, hiddenDims: int, numLayers: int, inputKeepProb: real, outputKeepProb: real)

  /** `tf.make_template(scope, dense_layer, name='logits', output_size=..., activation=None)` */
  datatype Dense = Dense(scope: string, name: string, outputSize: int)

  /** A tensor, by how it was computed. */
  datatype Tensor =
    | Feature(key: string)
    | Embedded(embedder: Embedder, inputs: Packed)
    | Extracted(extractor: Extractor, embedded: Tensor, lengths: Packed, kwargs: seq<(string, Tensor)>)
    | LastPosition(positions: Tensor)
    | MlpOut(mlp: Mlp, input: Tensor, isTraining: bool)
    | DenseOut(dense: Dense, input: Tensor)
    | ArgMax(logits: Tensor)
    | MeanCrossEntropy(logits: Tensor, labels: Tensor)

  /** What is handed to an encoder: one tensor, or a list of them in field order. */
  datatype Packed = One(t: Tensor) | Many(ts: seq<Tensor>)

  /** `if len(x) == 1: x = x[0]` */
  function Pack(xs: seq<Tensor>): (r: Packed)
    ensures |xs| == 1 <==> r.One?
  {
    if |xs| == 1 then One(xs[0]) else Many(xs)
  }

  /** The list a packed value stands for. */
  function Unpack(p: Packed): seq<Tensor> {
    match p
    case One(t) => [t]
    case Many(ts) => ts
  }

  /** Packing loses nothing: the list, its order included, comes back. */
  lemma PackRoundTrip(xs: seq<Tensor>)
    ensures Unpack(Pack(xs)) == xs
  {
    if |xs| == 1 {
      assert xs == [xs[0]];
    }
  }

  /** Packing is one-to-one, so lists in different orders stay apart. */
  lemma PackInjective(xs: seq<Tensor>, ys: seq<Tensor>)
    ensures Pack(xs) == Pack(ys) <==> xs == ys
  {
    if Pack(xs) == Pack(ys) {
      PackRoundTrip(xs);
      PackRoundTrip(ys);
    }
  }
}

=== FILE: merge_pipeline.dfy ===
/**
 * `merge_save_vocab_dicts` and `merge_dict_write_tfrecord` of
 * tasks/code/dataset.py: a first pass over the data directories writes each
 * one's basic word counts, the counts are merged into one public table, and
 * a second pass writes every dataset's records against that table with a
 * shared document length.
 */
module MergePipeline {
  import opened Wrappers
  import opened PyBuiltins
  import opened VocabFreq
  import opened Splits
  import opened Dataset

  /** `pickle.load` of each path in turn: a missing file raises, and so
      does a file that holds no word counts. */
  function ReadTables(paths: seq<string>, files: Files): (r: Result<seq<FreqTable>>)
    ensures r.Success? <==> forall k :: 0 <= k < |paths| ==> paths[k] in files && files[paths[k]].FreqPickle?
    ensures r.Success? ==> |r.value| == |paths|
    ensures r.Success? ==> forall k :: 0 <= k < |paths| ==> r.value[k] == files[paths[k]].table
  {
    if paths == [] then Success([])
    else
      var head :-
        if paths[0] !in files then Failure(FileMissing(paths[0]))
        else if !files[paths[0]].FreqPickle? then Failure(TypeError("not a frequency dictionary"))
        else Success(files[paths[0]].table);
      var tail :- ReadTables(paths[1..], files);
      Success([head] + tail)
  }

  /** `merge_save_vocab_dicts`: combine the tables at `paths` in order,
      starting from `{}`, and pickle the result at `savePath`. The saved
      table counts each word as often as all the read tables together. */
  function MergeSaveVocabDicts(paths: seq<string>, savePath: string, files: Files): (r: Result<Files>)
    ensures r.Success? <==> ReadTables(paths, files).Success?
    ensures r.Success? ==> savePath in r.value && r.value[savePath].FreqPickle?
    ensures r.Success? ==> forall w ::
              Count(r.value[savePath].table, w) == TotalCount(ReadTables(paths, files).value, w)
    ensures r.Success? ==> forall p | p != savePath :: (p in r.value <==> p in files) && (p in files ==> r.value[p] == files[p])
  {
    var tables :- ReadTables(paths, files);
    Success(files[savePath := FreqPickle(MergeAll(tables))])
  }

  // ---------------------------------------------------------------------
  // One constructor call per directory
  // ---------------------------------------------------------------------

  /** A constructor call for one directory against the current files. */
  type Step = (DataDir, Files) -> Result<(Built, Files)>

  /** `for data_dir in data_dirs: Dataset(...)`: the steps run in order,
      each one seeing the files the previous one left, and the first
      exception ends the loop. */
  function Passes(step: Step, dirs: seq<DataDir>, files: Files): (r: Result<(seq<Built>, Files)>)
    ensures r.Success? ==> |r.value.0| == |dirs|
    decreases |dirs|
  {
    if dirs == [] then Success(([], files))
    else
      var first :- step(dirs[0], files);
      var rest :- Passes(step, dirs[1..], first.1);
      Success(([first.0] + rest.0, rest.1))
  }

  /** When every step keeps `inv` of the files and builds a dataset that is
      `good` for its directory, so does the loop, dataset by dataset. */
  lemma {:induction false} PassesEach(step: Step, dirs: seq<DataDir>, files: Files,
                                      inv: Files -> bool, good: (DataDir, Built) -> bool)
    requires inv(files)
    requires forall d, f | inv(f) && step(d, f).Success? :: inv(step(d, f).value.1) && good(d, step(d, f).value.0)
    requires Passes(step, dirs, files).Success?
    ensures var r := Passes(step, dirs, files).value;
            forall k | 0 <= k < |dirs| :: good(dirs[k], r.0[k])
    decreases |dirs|
  {
    if dirs != [] {
      var first := step(dirs[0], files).value;
      PassesEach(step, dirs[1..], first.1, inv, good);
      var bs := Passes(step, dirs, files).value.0;
      var rest := Passes(step, dirs[1..], first.1).value.0;
      assert bs == [first.0] + rest;
      forall k | 1 <= k < |dirs|
        ensures good(dirs[k], bs[k])
      {
        assert dirs[k] == dirs[1..][k - 1] && bs[k] == rest[k - 1];
      }
    }
  }

  /** A step that writes exactly one file, at a path that depends on its
      directory only, and what it puts there. */
  ghost predicate WritesOne(step: Step, key: DataDir -> string, content: (DataDir, Built) -> Artifact) {
    forall d, f | step(d, f).Success? :: step(d, f).value.1 == f[key(d) := content(d, step(d, f).value.0)]
  }

  /** Whether some directory of the list writes `p`. */
  ghost predicate Written(key: DataDir -> string, dirs: seq<DataDir>, p: string) {
    exists k :: 0 <= k < |dirs| && key(dirs[k]) == p
  }

  /** Such a loop adds exactly the written paths. */
  lemma {:induction false} PassesWritesKeys(step: Step, dirs: seq<DataDir>, files: Files,
                                            key: DataDir -> string, content: (DataDir, Built) -> Artifact)
    requires WritesOne(step, key, content)
    requires Passes(step, dirs, files).Success?
    ensures forall p :: p in Passes(step, dirs, files).value.1 <==> p in files || Written(key, dirs, p)
    decreases |dirs|
  {
    if dirs != [] {
      var first := step(dirs[0], files).value;
      var tail := dirs[1..];
      PassesWritesKeys(step, tail, first.1, key, content);
      forall p ensures Written(key, tail, p) ==> Written(key, dirs, p) {
        if Written(key, tail, p) {
          var k :| 0 <= k < |tail| && key(tail[k]) == p;
          assert dirs[k + 1] == tail[k];
        }
      }
      forall p ensures Written(key, dirs, p) ==> p == key(dirs[0]) || Written(key, tail, p) {
        if Written(key, dirs, p) && p != key(dirs[0]) {
          var k :| 0 <= k < |dirs| && key(dirs[k]) == p;
          assert tail[k - 1] == dirs[k];
        }
      }
    }
  }

  /** Such a loop keeps every file no directory writes. */
  lemma {:induction false} PassesWritesKeeps(step: Step, dirs: seq<DataDir>, files: Files,
                                             key: DataDir -> string, content: (DataDir, Built) -> Artifact)
    requires WritesOne(step, key, content)
    requires Passes(step, dirs, files).Success?
    ensures var r := Passes(step, dirs, files).value;
            forall p | p in files && !Written(key, dirs, p) :: p in r.1 && r.1[p] == files[p]
    decreases |dirs|
  {
    if dirs != [] {
      var first := step(dirs[0], files).value;
      var tail := dirs[1..];
      PassesWritesKeeps(step, tail, first.1, key, content);
      forall p | p in files && !Written(key, dirs, p) ensures !Written(key, tail, p) && p != key(dirs[0]) {
        forall k | 0 <= k < |tail| ensures key(tail[k]) != p {
          assert dirs[k + 1] == tail[k];
        }
        assert key(dirs[0]) != p;
      }
    }
  }

  /** The path of directory `k` is in `m` and holds what directory `k`, or
      a later one with the same path, built. */
  ghost predicate HoldsLastWrite(key: DataDir -> string, content: (DataDir, Built) -> Artifact,
                                 dirs: seq<DataDir>, built: seq<Built>, m: Files, k: int)
    requires 0 <= k < |dirs| == |built|
  {
    && key(dirs[k]) in m
    && exists j :: k <= j < |dirs| && key(dirs[j]) == key(dirs[k]) && m[key(dirs[k])] == content(dirs[j], built[j])
  }

  /** In such a loop each written path holds what the last directory to
      write it built. */
  lemma {:induction false} PassesWritesLast(step: Step, dirs: seq<DataDir>, files: Files,
                                            key: DataDir -> string, content: (DataDir, Built) -> Artifact)
    requires WritesOne(step, key, content)
    requires Passes(step, dirs, files).Success?
    ensures var r := Passes(step, dirs, files).value;
            forall k | 0 <= k < |dirs| :: HoldsLastWrite(key, content, dirs, r.0, r.1, k)
    decreases |dirs|
  {
    if dirs != [] {
      var r := Passes(step, dirs, files).value;
      var first := step(dirs[0], files).value;
      var tail := dirs[1..];
      PassesWritesLast(step, tail, first.1, key, content);
      var rest := Passes(step, tail, first.1).value;
      assert r.0 == [first.0] + rest.0 && r.1 == rest.1;
      forall k | 0 < k < |dirs| ensures HoldsLastWrite(key, content, dirs, r.0, r.1, k) {
        assert HoldsLastWrite(key, content, tail, rest.0, rest.1, k - 1);
        assert tail[k - 1] == dirs[k];
        var j :| k - 1 <= j < |tail| && key(tail[j]) == key(tail[k - 1])
                 && rest.1[key(tail[k - 1])] == content(tail[j], rest.0[j]);
        assert tail[j] == dirs[j + 1] && rest.0[j] == r.0[j + 1];
      }
      PassesWritesFirst(step, dirs, files, key, content);
    }
  }

  /** The first directory's path holds what it built or what a later
      directory with the same path built. */
  lemma PassesWritesFirst(step: Step, dirs: seq<DataDir>, files: Files,
                          key: DataDir -> string, content: (DataDir, Built) -> Artifact)
    requires WritesOne(step, key, content)
    requires |dirs| > 0 && Passes(step, dirs, files).Success?
    requires var r := Passes(step, dirs, files).value;
             forall k | 0 < k < |dirs| :: HoldsLastWrite(key, content, dirs, r.0, r.1, k)
    ensures var r := Passes(step, dirs, files).value;
            HoldsLastWrite(key, content, dirs, r.0, r.1, 0)
  {
    var r := Passes(step, dirs, files).value;
    var first := step(dirs[0], files).value;
    var tail := dirs[1..];
    if i :| 0 < i < |dirs| && key(dirs[i]) == key(dirs[0]) {
      assert HoldsLastWrite(key, content, dirs, r.0, r.1, i);
    } else {
      PassesWritesKeeps(step, tail, first.1, key, content);
      assert first.1 == files[key(dirs[0]) := content(dirs[0], first.0)];
      forall k | 0 <= k < |tail| ensures key(tail[k]) != key(dirs[0]) {
        assert tail[k] == dirs[k + 1];
      }
      assert r.0[0] == first.0;
    }
  }

  // ---------------------------------------------------------------------
  // First pass
  // ---------------------------------------------------------------------

  /** The first pass builds each dataset with every default except that it
      saves the basic vocabulary and writes no records; in particular it
      uses the default ratios, whatever the caller asked for. */
  function FirstPassOptions(): (r: Options)
    ensures r.generateBasicVocab && !r.generateTfRecord
    ensures r.vocabDir.None? && r.tfrecordDir.None? && r.maxDocumentLength.None? && r.scaleRatio.None?
    ensures r.trainRatio == TRAIN_RATIO && r.validRatio == VALID_RATIO && r.randomSeed == RANDOM_SEED
  {
    Defaults().(generateBasicVocab := true, generateTfRecord := false)
  }

  function FirstStep(tk: Toolkit): Step {
    (d: DataDir, f: Files) => Construct(tk, d, FirstPassOptions(), f)
  }

  /** The first loop of `merge_dict_write_tfrecord`. */
  function FirstPass(tk: Toolkit, dirs: seq<DataDir>, files: Files): (r: Result<(seq<Built>, Files)>)
    ensures r.Success? ==> |r.value.0| == |dirs|
  {
    Passes(FirstStep(tk), dirs, files)
  }

  /** The counts the first pass saves for a built dataset. */
  function BasicTable(tk: Toolkit, b: Built): FreqTable {
    if TrainTexts(b.loaded).Success? then BasicFreq(tk, b.loaded) else map[]
  }

  /** A first-pass dataset: loaded with the first-pass options, no
      vocabulary chosen, and its training texts all present. */
  predicate FirstPassLoaded(tk: Toolkit, dir: DataDir, b: Built) {
    && Load(tk, dir, FirstPassOptions()) == Success(b.loaded)
    && b.chosen.None?
    && TrainTexts(b.loaded).Success?
  }

  /** One first-pass constructor call writes the directory's basic counts and nothing else. */
  lemma FirstStepFacts(tk: Toolkit, d: DataDir, f: Files)
    requires FirstStep(tk)(d, f).Success?
    ensures var step := FirstStep(tk)(d, f).value;
            && FirstPassLoaded(tk, d, step.0)
            && step.1 == f[BasicVocabPath(d.path) := FreqPickle(BasicTable(tk, step.0))]
  {
    ConstructWithoutRecords(tk, d, FirstPassOptions(), f);
  }

  function BasicKey(): DataDir -> string {
    (d: DataDir) => BasicVocabPath(d.path)
  }

  function BasicContent(tk: Toolkit): (DataDir, Built) -> Artifact {
    (d: DataDir, b: Built) => FreqPickle(BasicTable(tk, b))
  }

  /** Each first-pass step writes the directory's basic counts and nothing else. */
  lemma FirstStepWritesOne(tk: Toolkit)
    ensures WritesOne(FirstStep(tk), BasicKey(), BasicContent(tk))
  {
    forall d, f | FirstStep(tk)(d, f).Success?
      ensures FirstStep(tk)(d, f).value.1 == f[BasicKey()(d) := BasicContent(tk)(d, FirstStep(tk)(d, f).value.0)]
    {
      FirstStepFacts(tk, d, f);
    }
  }

  /** The first pass loads every directory with the first-pass options. */
  lemma FirstPassLoads(tk: Toolkit, dirs: seq<DataDir>, files: Files)
    requires FirstPass(tk, dirs, files).Success?
    ensures var r := FirstPass(tk, dirs, files).value;
            forall k | 0 <= k < |dirs| :: FirstPassLoaded(tk, dirs[k], r.0[k])
  {
    var step := FirstStep(tk);
    forall d, f | step(d, f).Success? ensures FirstPassLoaded(tk, d, step(d, f).value.0) {
      FirstStepFacts(tk, d, f);
    }
    PassesEach(step, dirs, files, (f: Files) => true, (d: DataDir, b: Built) => FirstPassLoaded(tk, d, b));
  }

  /** The first pass adds exactly the basic count files and leaves every other file alone. */
  lemma FirstPassFiles(tk: Toolkit, dirs: seq<DataDir>, files: Files)
    requires FirstPass(tk, dirs, files).Success?
    ensures var r := FirstPass(tk, dirs, files).value;
            forall p :: p in r.1 <==> p in files || Written(BasicKey(), dirs, p)
    ensures var r := FirstPass(tk, dirs, files).value;
            forall p | p in files && !Written(BasicKey(), dirs, p) :: p in r.1 && r.1[p] == files[p]
  {
    FirstStepWritesOne(tk);
    PassesWritesKeys(FirstStep(tk), dirs, files, BasicKey(), BasicContent(tk));
    PassesWritesKeeps(FirstStep(tk), dirs, files, BasicKey(), BasicContent(tk));
  }

  /** Each basic path holds the counts of the last directory to write it. */
  lemma FirstPassLastWriter(tk: Toolkit, dirs: seq<DataDir>, files: Files)
    requires FirstPass(tk, dirs, files).Success?
    ensures var r := FirstPass(tk, dirs, files).value;
            forall k | 0 <= k < |dirs| :: HoldsLastWrite(BasicKey(), BasicContent(tk), dirs, r.0, r.1, k)
  {
    FirstStepWritesOne(tk);
    PassesWritesLast(FirstStep(tk), dirs, files, BasicKey(), BasicContent(tk));
  }

  /** What the merge step reads for a directory: `os.path.join(data_dir,
      "single/vocab_freq_dict.pickle")`. */
  function MergeInputPath(dataDir: string): string {
    PathJoin(dataDir, "single/vocab_freq_dict.pickle")
  }

  /** The merge step reads exactly the file the first pass wrote. */
  lemma MergeReadsBasicVocab(dataDir: string)
    ensures MergeInputPath(dataDir) == BasicVocabPath(dataDir)
  {
    assert "single/" + BASIC_VOCAB_FILE == "single/vocab_freq_dict.pickle";
    PathJoinExtend(dataDir, "single/", BASIC_VOCAB_FILE);
  }

  /** The paths the merge reads, one per directory. */
  function MergeInputs(dirs: seq<DataDir>): (r: seq<string>)
    ensures |r| == |dirs|
    ensures forall k :: 0 <= k < |dirs| ==> r[k] == BasicVocabPath(dirs[k].path)
  {
    var r := seq(|dirs|, (k: int) requires 0 <= k < |dirs| => MergeInputPath(dirs[k].path));
    forall k | 0 <= k < |dirs| ensures r[k] == BasicVocabPath(dirs[k].path) {
      MergeReadsBasicVocab(dirs[k].path);
    }
    r
  }

  /** No two directories share a basic counts path. */
  predicate DistinctBasicPaths(dirs: seq<DataDir>) {
    forall j, k :: 0 <= j < k < |dirs| ==> BasicVocabPath(dirs[j].path) != BasicVocabPath(dirs[k].path)
  }

  /** After a successful first pass the merge finds every table it needs. */
  lemma MergeFindsFirstPassTables(tk: Toolkit, dirs: seq<DataDir>, files: Files)
    requires FirstPass(tk, dirs, files).Success?
    ensures ReadTables(MergeInputs(dirs), FirstPass(tk, dirs, files).value.1).Success?
  {
    FirstPassLastWriter(tk, dirs, files);
    var r := FirstPass(tk, dirs, files).value;
    var paths := MergeInputs(dirs);
    forall k | 0 <= k < |paths| ensures paths[k] in r.1 && r.1[paths[k]].FreqPickle? {
      assert HoldsLastWrite(BasicKey(), BasicContent(tk), dirs, r.0, r.1, k);
      var j :| && k <= j < |dirs|
               && BasicKey()(dirs[j]) == BasicKey()(dirs[k])
               && r.1[BasicKey()(dirs[k])] == BasicContent(tk)(dirs[j], r.0[j]);
    }
  }

  /** When no two directories share a basic path, the tables the merge
      reads are the first-pass datasets' own basic counts. */
  lemma MergeReadsFirstPassTables(tk: Toolkit, dirs: seq<DataDir>, files: Files)
    requires FirstPass(tk, dirs, files).Success?
    requires DistinctBasicPaths(dirs)
    ensures var r := FirstPass(tk, dirs, files).value;
            var tables := ReadTables(MergeInputs(dirs), r.1);
            tables.Success? && forall k | 0 <= k < |dirs| :: tables.value[k] == BasicTable(tk, r.0[k])
  {
    MergeFindsFirstPassTables(tk, dirs, files);
    FirstPassLastWriter(tk, dirs, files);
    var r := FirstPass(tk, dirs, files).value;
    var tables := ReadTables(MergeInputs(dirs), r.1).value;
    forall k | 0 <= k < |dirs| ensures tables[k] == BasicTable(tk, r.0[k]) {
      assert HoldsLastWrite(BasicKey(), BasicContent(tk), dirs, r.0, r.1, k);
      var j :| && k <= j < |dirs|
               && BasicKey()(dirs[j]) == BasicKey()(dirs[k])
               && r.1[BasicKey()(dirs[k])] == BasicContent(tk)(dirs[j], r.0[j]);
      assert j == k;
    }
  }

  // ---------------------------------------------------------------------
  // Second pass
  // ---------------------------------------------------------------------

  /** `os.path.basename(os.path.normpath(data_dir))` for a directory path
      without `.` or `..` components: its last component, trailing slashes
      ignored; the empty path normalises to `.`. */
  function DirectoryName(path: string): (r: string)
    ensures path == "" ==> r == "."
    ensures path != "" ==>
              var t := DropTrailingSlashes(path);
              && |r| <= |t| && r == t[|t| - |r|..]
              && (|r| == |t| || t[|t| - |r| - 1] == '/')
              && forall k :: 0 <= k < |r| ==> r[k] != '/'
  {
    if path == "" then "."
    else
      var trimmed := DropTrailingSlashes(path);
      trimmed[|trimmed| - TrailingNameLength(trimmed)..]
  }

  function DropTrailingSlashes(s: string): (r: string)
    ensures |r| <= |s| && r == s[..|r|]
    ensures r == [] || r[|r| - 1] != '/'
    ensures forall k :: |r| <= k < |s| ==> s[k] == '/'
  {
    if |s| > 0 && s[|s| - 1] == '/' then DropTrailingSlashes(s[..|s| - 1]) else s
  }

  function TrailingNameLength(s: string): (n: nat)
    ensures n <= |s|
    ensures forall k :: |s| - n <= k < |s| ==> s[k] != '/'
    ensures n == |s| || s[|s| - n - 1] == '/'
  {
    if |s| > 0 && s[|s| - 1] != '/' then 1 + TrailingNameLength(s[..|s| - 1]) else 0
  }

  /** The second pass builds each dataset against the public table in
      `vocabDir`, with the shared document length and the caller's bounds
      and ratios, writing into `os.path.join(new_data_dir, name)`. */
  function SecondPassOptions(newDataDir: string, vocabDir: string, dir: DataDir, maxLength: int,
                             minFrequency: int, maxFrequency: int, trainRatio: real, validRatio: real): (r: Options)
    ensures r.vocabDir == Some(vocabDir) && r.maxDocumentLength == Some(maxLength)
    ensures r.tfrecordDir == Some(PathJoin(newDataDir, DirectoryName(dir.path)))
    ensures r.minFrequency == minFrequency && r.maxFrequency == maxFrequency
    ensures r.trainRatio == trainRatio && r.validRatio == validRatio
    ensures !r.generateBasicVocab && r.generateTfRecord
    ensures r.randomSeed == RANDOM_SEED && r.scaleRatio.None? && r.encoding.None? && !r.padding
  {
    Defaults().(vocabDir := Some(vocabDir),
                tfrecordDir := Some(PathJoin(newDataDir, DirectoryName(dir.path))),
                minFrequency := minFrequency,
                maxFrequency := maxFrequency,
                maxDocumentLength := Some(maxLength),
                generateBasicVocab := false,
                generateTfRecord := true,
                trainRatio := trainRatio,
                validRatio := validRatio)
  }

  function SecondStep(tk: Toolkit, newDataDir: string, vocabDir: string, maxLength: int,
                      minFrequency: int, maxFrequency: int, trainRatio: real, validRatio: real): Step
  {
    (d: DataDir, f: Files) =>
      Construct(tk, d, SecondPassOptions(newDataDir, vocabDir, d, maxLength, minFrequency, maxFrequency,
                                        trainRatio, validRatio), f)
  }

  /** The second loop of `merge_dict_write_tfrecord`. */
  function SecondPass(tk: Toolkit, dirs: seq<DataDir>, newDataDir: string, vocabDir: string, maxLength: int,
                      minFrequency: int, maxFrequency: int, trainRatio: real, validRatio: real, files: Files)
    : (r: Result<(seq<Built>, Files)>)
    ensures r.Success? ==> |r.value.0| == |dirs|
    ensures r.Success? ==> forall k :: 0 <= k < |dirs| ==>
              r.value.0[k].chosen.Some? && r.value.0[k].loaded.maxDocumentLength == maxLength
  {
    var step := SecondStep(tk, newDataDir, vocabDir, maxLength, minFrequency, maxFrequency, trainRatio, validRatio);
    var r := Passes(step, dirs, files);
    if r.Success? then
      var good := (d: DataDir, b: Built) => b.chosen.Some? && b.loaded.maxDocumentLength == maxLength;
      assert forall d, f | step(d, f).Success? :: good(d, step(d, f).value.0) by {
        forall d, f | step(d, f).Success? ensures good(d, step(d, f).value.0) {
          SecondStepBuilds(tk, d, newDataDir, vocabDir, maxLength, minFrequency, maxFrequency,
                           trainRatio, validRatio, f);
        }
      }
      PassesEach(step, dirs, files, (f: Files) => true, good);
      r
    else
      r
  }

  /** A second-pass constructor call writes records and keeps the shared length. */
  lemma SecondStepBuilds(tk: Toolkit, d: DataDir, newDataDir: string, vocabDir: string, maxLength: int,
                         minFrequency: int, maxFrequency: int, trainRatio: real, validRatio: real, f: Files)
    requires SecondStep(tk, newDataDir, vocabDir, maxLength, minFrequency, maxFrequency, trainRatio, validRatio)(d, f).Success?
    ensures var b := SecondStep(tk, newDataDir, vocabDir, maxLength, minFrequency, maxFrequency,
                                trainRatio, validRatio)(d, f).value.0;
            b.chosen.Some? && b.loaded.maxDocumentLength == maxLength
  {
    var opts := SecondPassOptions(newDataDir, vocabDir, d, maxLength, minFrequency, maxFrequency, trainRatio, validRatio);
    var b := Construct(tk, d, opts, f).value.0;
    assert MaxDocumentLength(opts.maxDocumentLength, b.loaded.prepared.texts) == Success(b.loaded.maxDocumentLength);
  }

  /** What the second pass promises about one dataset built against `table`. */
  predicate UsesTable(tk: Toolkit, dir: DataDir, b: Built, maxLength: int, minFrequency: int, maxFrequency: int,
                      trainRatio: real, validRatio: real, table: FreqTable)
  {
    && b.chosen.Some?
    && b.chosen.value.vocab == tk.fromTable(table, minFrequency, maxFrequency)
    && b.loaded.maxDocumentLength == maxLength
    && Split(tk.permute, dir.table.rows, dir.indexFile, trainRatio, validRatio, RANDOM_SEED, None)
       == Success(b.loaded.split)
  }

  /** Whether `files` holds `table` as the public counts in `vocabDir`. */
  predicate HoldsTable(files: Files, vocabDir: string, table: FreqTable) {
    vocabDir + BASIC_VOCAB_FILE in files && files[vocabDir + BASIC_VOCAB_FILE] == FreqPickle(table)
  }

  /** One constructor call of the second pass uses the public table and
      leaves it in place for the next one. */
  lemma SecondStepFacts(tk: Toolkit, d: DataDir, newDataDir: string, vocabDir: string, maxLength: int,
                        minFrequency: int, maxFrequency: int, trainRatio: real, validRatio: real,
                        f: Files, table: FreqTable)
    requires HoldsTable(f, vocabDir, table)
    requires SecondStep(tk, newDataDir, vocabDir, maxLength, minFrequency, maxFrequency, trainRatio, validRatio)(d, f).Success?
    ensures var step := SecondStep(tk, newDataDir, vocabDir, maxLength, minFrequency, maxFrequency,
                                   trainRatio, validRatio)(d, f).value;
            && UsesTable(tk, d, step.0, maxLength, minFrequency, maxFrequency, trainRatio, validRatio, table)
            && HoldsTable(step.1, vocabDir, table)
  {
    var path := vocabDir + BASIC_VOCAB_FILE;
    var opts := SecondPassOptions(newDataDir, vocabDir, d, maxLength, minFrequency, maxFrequency,
                                  trainRatio, validRatio);
    ConstructUsesPublicVocab(tk, d, opts, f, vocabDir);
    LoadSplit(tk, d, opts);
    EndsWithAppended(vocabDir, BASIC_VOCAB_FILE);
    OutputPathsAvoid(TfRecordDir(d.path, opts.tfrecordDir), path);
    ConstructKeepsOtherFiles(tk, d, opts, f, path);
  }

  /** When the public table is where the second pass reads it, every
      dataset of the second pass uses that table, trimmed to the caller's
      bounds, the shared document length and the caller's ratios; the table
      file survives the pass, since no dataset writes a file of that name. */
  lemma SecondPassUsesTable(tk: Toolkit, dirs: seq<DataDir>, newDataDir: string, vocabDir: string,
                            maxLength: int, minFrequency: int, maxFrequency: int,
                            trainRatio: real, validRatio: real, files: Files, table: FreqTable)
    requires HoldsTable(files, vocabDir, table)
    requires SecondPass(tk, dirs, newDataDir, vocabDir, maxLength, minFrequency, maxFrequency,
                        trainRatio, validRatio, files).Success?
    ensures var r := SecondPass(tk, dirs, newDataDir, vocabDir, maxLength, minFrequency, maxFrequency,
                                trainRatio, validRatio, files).value;
            forall k | 0 <= k < |dirs| ::
              UsesTable(tk, dirs[k], r.0[k], maxLength, minFrequency, maxFrequency, trainRatio, validRatio, table)
  {
    var step := SecondStep(tk, newDataDir, vocabDir, maxLength, minFrequency, maxFrequency, trainRatio, validRatio);
    forall d, f | HoldsTable(f, vocabDir, table) && step(d, f).Success?
      ensures HoldsTable(step(d, f).value.1, vocabDir, table)
      ensures UsesTable(tk, d, step(d, f).value.0, maxLength, minFrequency, maxFrequency, trainRatio, validRatio, table)
    {
      SecondStepFacts(tk, d, newDataDir, vocabDir, maxLength, minFrequency, maxFrequency, trainRatio, validRatio, f, table);
    }
    PassesEach(step, dirs, files, (f: Files) => HoldsTable(f, vocabDir, table),
               (d: DataDir, b: Built) =>
                 UsesTable(tk, d, b, maxLength, minFrequency, maxFrequency, trainRatio, validRatio, table));
  }

  // ---------------------------------------------------------------------
  // The whole pipeline
  // ---------------------------------------------------------------------

  /** What one run produces: the first-pass datasets, the merged table,
      the second-pass datasets and the files at the end. */
  datatype Run = Run(firstPass: seq<Built>, merged: FreqTable, secondPass: seq<Built>, files: Files)

  /** Where the merged table is saved: `os.path.join(new_data_dir, "vocab_freq_dict.pickle")`. */
  function MergedPath(newDataDir: string): string {
    PathJoin(newDataDir, BASIC_VOCAB_FILE)
  }

  /** `max(max_document_lengths)` over the first pass; with no directory
      there is none, and the second loop that would use it does not run. */
  function SharedLength(first: seq<Built>): (r: int)
    ensures forall k :: 0 <= k < |first| ==> first[k].loaded.maxDocumentLength <= r
    ensures |first| > 0 ==> exists k :: 0 <= k < |first| && first[k].loaded.maxDocumentLength == r
  {
    if first == [] then 0
    else
      var lengths := seq(|first|, (k: int) requires 0 <= k < |first| => first[k].loaded.maxDocumentLength);
      assert forall k :: 0 <= k < |first| ==> lengths[k] == first[k].loaded.maxDocumentLength;
      Max(lengths)
  }

  /** The two passes and the merge between them, with the second pass
      reading the public table from `vocabDir`. */
  function Pipeline(tk: Toolkit, dirs: seq<DataDir>, newDataDir: string, vocabDir: string,
                    minFrequency: int, maxFrequency: int, trainRatio: real, validRatio: real, files: Files)
    : (r: Result<Run>)
    ensures r.Success? ==> FirstPass(tk, dirs, files).Success?
    ensures r.Success? ==> |r.value.firstPass| == |r.value.secondPass| == |dirs|
  {
    var first :- FirstPass(tk, dirs, files);
    var afterMerge :- MergeSaveVocabDicts(MergeInputs(dirs), MergedPath(newDataDir), first.1);
    var merged := MergeAll(ReadTables(MergeInputs(dirs), first.1).value);
    var second :- SecondPass(tk, dirs, newDataDir, vocabDir, SharedLength(first.0), minFrequency, maxFrequency,
                             trainRatio, validRatio, afterMerge);
    Success(Run(first.0, merged, second.0, second.1))
  }

  /** `merge_dict_write_tfrecord` as written: the second pass gets
      `vocab_dir=new_data_dir` and so reads `new_data_dir + "vocab_freq_dict.pickle"`.
      Its `max_document_length` argument is never used. */
  function MergeDictWriteTfrecordAsWritten(tk: Toolkit, dirs: seq<DataDir>, newDataDir: string,
                                           maxDocumentLength: Option<int>, minFrequency: int, maxFrequency: int,
                                           trainRatio: real, validRatio: real, files: Files): (r: Result<Run>)
    ensures r.Success? ==> |r.value.secondPass| == |dirs|
  {
    Pipeline(tk, dirs, newDataDir, newDataDir, minFrequency, maxFrequency, trainRatio, validRatio, files)
  }

  /** `merge_dict_write_tfrecord` with the second pass reading the table
      where the merge saved it (`vocab_dir=os.path.join(new_data_dir, "")`).
      Its `max_document_length` argument is never used. */
  function MergeDictWriteTfrecord(tk: Toolkit, dirs: seq<DataDir>, newDataDir: string,
                                  maxDocumentLength: Option<int>, minFrequency: int, maxFrequency: int,
                                  trainRatio: real, validRatio: real, files: Files): (r: Result<Run>)
    ensures r.Success? ==> |r.value.secondPass| == |dirs|
  {
    Pipeline(tk, dirs, newDataDir, PathJoin(newDataDir, ""), minFrequency, maxFrequency, trainRatio, validRatio, files)
  }

  /** With the corrected vocabulary directory the table is read exactly where it was saved. */
  lemma CorrectedReadPath(newDataDir: string)
    ensures PathJoin(newDataDir, "") + BASIC_VOCAB_FILE == MergedPath(newDataDir)
  {
    PathJoinExtend(newDataDir, "", BASIC_VOCAB_FILE);
    assert "" + BASIC_VOCAB_FILE == BASIC_VOCAB_FILE;
  }

  /** As written, the table is read where it was saved exactly when the
      new directory is empty or ends with a slash. */
  lemma AsWrittenReadPath(newDataDir: string)
    ensures newDataDir + BASIC_VOCAB_FILE == MergedPath(newDataDir)
            <==> newDataDir == "" || newDataDir[|newDataDir| - 1] == '/'
  {
    var a := newDataDir + BASIC_VOCAB_FILE;
    if newDataDir != "" && newDataDir[|newDataDir| - 1] != '/' {
      var b := newDataDir + "/" + BASIC_VOCAB_FILE;
      assert b[|newDataDir|] == '/';
      assert a[|newDataDir|] == BASIC_VOCAB_FILE[0] == 'v';
    }
  }

  /** `new_data_dir="out"`: the merged table goes to `out/vocab_freq_dict.pickle`
      but the second pass looks for `outvocab_freq_dict.pickle`; with no
      such file to begin with, the run as written stops at the first
      second-pass dataset while the corrected one goes on. */
  lemma AsWrittenReadPathExample()
    ensures "out" + BASIC_VOCAB_FILE != MergedPath("out")
    ensures PathJoin("out", "") + BASIC_VOCAB_FILE == MergedPath("out")
  {
    AsWrittenReadPath("out");
    CorrectedReadPath("out");
  }

  /** As written, when the first pass leaves no file at the path the second
      pass reads, the run fails with that file missing as soon as there is
      a dataset to build. */
  lemma AsWrittenMissesMergedTable(tk: Toolkit, dirs: seq<DataDir>, newDataDir: string,
                                   maxDocumentLength: Option<int>, minFrequency: int, maxFrequency: int,
                                   trainRatio: real, validRatio: real, files: Files)
    requires |dirs| > 0
    requires newDataDir != "" && newDataDir[|newDataDir| - 1] != '/'
    requires FirstPass(tk, dirs, files).Success?
    requires newDataDir + BASIC_VOCAB_FILE !in FirstPass(tk, dirs, files).value.1
    requires Load(tk, dirs[0], SecondPassOptions(newDataDir, newDataDir, dirs[0],
                  SharedLength(FirstPass(tk, dirs, files).value.0), minFrequency, maxFrequency,
                  trainRatio, validRatio)).Success?
    ensures MergeDictWriteTfrecordAsWritten(tk, dirs, newDataDir, maxDocumentLength, minFrequency, maxFrequency,
                                            trainRatio, validRatio, files)
            == Failure(FileMissing(newDataDir + BASIC_VOCAB_FILE))
  {
    var first := FirstPass(tk, dirs, files).value;
    MergeFindsFirstPassTables(tk, dirs, files);
    var afterMerge := MergeSaveVocabDicts(MergeInputs(dirs), MergedPath(newDataDir), first.1).value;
    AsWrittenReadPath(newDataDir);
    var path := newDataDir + BASIC_VOCAB_FILE;
    assert path !in afterMerge;
    var opts := SecondPassOptions(newDataDir, newDataDir, dirs[0], SharedLength(first.0), minFrequency, maxFrequency,
                                  trainRatio, validRatio);
    ConstructUsesPublicVocab(tk, dirs[0], opts, afterMerge, newDataDir);
  }

  /** A directory given with a trailing slash (or empty) makes the written
      pipeline and the corrected one the same. */
  lemma AsWrittenAgreesWithTrailingSlash(tk: Toolkit, dirs: seq<DataDir>, newDataDir: string,
                                         maxDocumentLength: Option<int>, minFrequency: int, maxFrequency: int,
                                         trainRatio: real, validRatio: real, files: Files)
    requires newDataDir == "" || newDataDir[|newDataDir| - 1] == '/'
    ensures MergeDictWriteTfrecordAsWritten(tk, dirs, newDataDir, maxDocumentLength, minFrequency, maxFrequency,
                                            trainRatio, validRatio, files)
         == MergeDictWriteTfrecord(tk, dirs, newDataDir, maxDocumentLength, minFrequency, maxFrequency,
                                   trainRatio, validRatio, files)
  {
    assert PathJoin(newDataDir, "") == newDataDir;
  }

  /** The first-pass basic counts, one table per dataset. */
  function BasicTables(tk: Toolkit, first: seq<Built>): (r: seq<FreqTable>)
    ensures |r| == |first|
    ensures forall k :: 0 <= k < |first| ==> r[k] == BasicTable(tk, first[k])
  {
    seq(|first|, (k: int) requires 0 <= k < |first| => BasicTable(tk, first[k]))
  }

  /** The corrected pipeline: every second-pass dataset uses the merged
      table trimmed to the caller's bounds, the caller's ratios and the
      shared document length, which is at least every first-pass length.
      When no two directories share a basic path, the merged table counts
      each word as often as all first-pass training splits together. */
  lemma PipelineSharesMergedVocab(tk: Toolkit, dirs: seq<DataDir>, newDataDir: string,
                                  maxDocumentLength: Option<int>, minFrequency: int, maxFrequency: int,
                                  trainRatio: real, validRatio: real, files: Files)
    requires MergeDictWriteTfrecord(tk, dirs, newDataDir, maxDocumentLength, minFrequency, maxFrequency,
                                    trainRatio, validRatio, files).Success?
    ensures var run := MergeDictWriteTfrecord(tk, dirs, newDataDir, maxDocumentLength, minFrequency, maxFrequency,
                                              trainRatio, validRatio, files).value;
            forall k | 0 <= k < |dirs| ::
              && UsesTable(tk, dirs[k], run.secondPass[k], SharedLength(run.firstPass), minFrequency, maxFrequency,
                           trainRatio, validRatio, run.merged)
              && run.firstPass[k].loaded.maxDocumentLength <= run.secondPass[k].loaded.maxDocumentLength
    ensures var run := MergeDictWriteTfrecord(tk, dirs, newDataDir, maxDocumentLength, minFrequency, maxFrequency,
                                              trainRatio, validRatio, files).value;
            DistinctBasicPaths(dirs) ==>
              forall w :: Count(run.merged, w) == TotalCount(BasicTables(tk, run.firstPass), w)
  {
    var vocabDir := PathJoin(newDataDir, "");
    var first := FirstPass(tk, dirs, files).value;
    MergeFindsFirstPassTables(tk, dirs, files);
    var afterMerge := MergeSaveVocabDicts(MergeInputs(dirs), MergedPath(newDataDir), first.1).value;
    var tables := ReadTables(MergeInputs(dirs), first.1).value;
    CorrectedReadPath(newDataDir);
    assert HoldsTable(afterMerge, vocabDir, MergeAll(tables));
    SecondPassUsesTable(tk, dirs, newDataDir, vocabDir, SharedLength(first.0), minFrequency, maxFrequency,
                        trainRatio, validRatio, afterMerge, MergeAll(tables));
    if DistinctBasicPaths(dirs) {
      MergeReadsFirstPassTables(tk, dirs, files);
      assert tables == BasicTables(tk, first.0);
    }
  }

  /** The first pass splits every dataset with the default ratios and
      seed, whatever ratios the caller passes on to the second pass. */
  lemma FirstPassUsesDefaultRatios(tk: Toolkit, dirs: seq<DataDir>, files: Files)
    requires FirstPass(tk, dirs, files).Success?
    ensures var first := FirstPass(tk, dirs, files).value;
            forall k | 0 <= k < |dirs| ::
              Split(tk.permute, dirs[k].table.rows, dirs[k].indexFile, TRAIN_RATIO, VALID_RATIO,
                    RANDOM_SEED, None) == Success(first.0[k].loaded.split)
  {
    FirstPassLoads(tk, dirs, files);
    forall k | 0 <= k < |dirs|
      ensures Split(tk.permute, dirs[k].table.rows, dirs[k].indexFile, TRAIN_RATIO, VALID_RATIO,
                    RANDOM_SEED, None) == Success(FirstPass(tk, dirs, files).value.0[k].loaded.split)
    {
      LoadSplit(tk, dirs[k], FirstPassOptions());
    }
  }

  /** The vocabulary is counted on the first pass's training split, so it
      matches the records' training split only for the default ratios: a
      ten-row table without an index file trains on 8 rows in the first
      pass but on 5 in a second pass asked for a train ratio of 0.5. */
  lemma TrainSplitsDifferExample(permute: Permuter)
    ensures var first := Split(permute, 10, None, TRAIN_RATIO, VALID_RATIO, RANDOM_SEED, None);
            var second := Split(permute, 10, None, 0.5, VALID_RATIO, RANDOM_SEED, None);
            && first.Success? && second.Success?
            && |first.value.train| == 8
            && |second.value.train| == 5
  {
    SplitRandomSucceeds(permute, 10, TRAIN_RATIO, VALID_RATIO, RANDOM_SEED, None);
    SplitRandomSucceeds(permute, 10, 0.5, VALID_RATIO, RANDOM_SEED, None);
    var first := RandomSplitTrainValidTest(permute, 10, TRAIN_RATIO, VALID_RATIO, RANDOM_SEED);
    var second := RandomSplitTrainValidTest(permute, 10, 0.5, VALID_RATIO, RANDOM_SEED);
    assert Split(permute, 10, None, TRAIN_RATIO, VALID_RATIO, RANDOM_SEED, None).value == first;
    assert Split(permute, 10, None, 0.5, VALID_RATIO, RANDOM_SEED, None).value == second;
    ScaledIsProduct(TRAIN_RATIO, 10);
    ScaledIsProduct(0.5, 10);
    assert |first.train| == 8;
    assert |second.train| == 5;
  }
}

=== FILE: py_builtins.dfy ===
/**
 * The pieces of Python and numpy semantics the modelled code leans on:
 * `int()` of a float, slicing with negative bounds, `np.split`, list
 * indexing, `str.split()`, `str.strip()`, `os.path.join` and `str()` of an
 * integer. Floats are modelled as exact reals.
 */
module PyBuiltins {
  import opened Wrappers

  /** `int(x)` for a float `x`: truncation toward zero. */
  function Trunc(x: real): (r: int)
    ensures 0.0 <= x ==> r as real <= x < r as real + 1.0
    ensures x < 0.0 ==> r as real - 1.0 < x <= r as real
  {
    if x >= 0.0 then x.Floor else -((-x).Floor)
  }

  /** A slice bound as Python normalises it for a sequence of length `n`:
      negative bounds count from the end, and both ends are clamped. */
  function SliceBound(i: int, n: nat): (r: nat)
    ensures r <= n
    ensures 0 <= i <= n ==> r == i
    ensures i < 0 && 0 <= n + i ==> r == n + i
  {
    if i < 0 then (if i + n < 0 then 0 else i + n)
    else if i > n then n
    else i
  }

  /** `s[i:j]` */
  function Slice<T>(s: seq<T>, i: int, j: int): (r: seq<T>)
    ensures |r| <= |s|
    ensures multiset(r) <= multiset(s)
  {
    var lo := SliceBound(i, |s|);
    var hi := SliceBound(j, |s|);
    if lo < hi then
      assert s == s[..lo] + s[lo..hi] + s[hi..];
      s[lo..hi]
    else []
  }

  /** `np.split(s, [k])`: the pieces before and after one cut. */
  function SplitAt<T>(s: seq<T>, k: int): (r: (seq<T>, seq<T>))
    ensures r.0 + r.1 == s
    ensures |r.0| == SliceBound(k, |s|)
  {
    (Slice(s, 0, k), Slice(s, k, |s|))
  }

  /** `np.split(s, [k1, k2])`: three consecutive pieces. They add back up to
      `s` only when the normalised cuts are in order. */
  function SplitAt2<T>(s: seq<T>, k1: int, k2: int): (r: (seq<T>, seq<T>, seq<T>))
    ensures SliceBound(k1, |s|) <= SliceBound(k2, |s|) ==>
              && r.0 + r.1 + r.2 == s
              && |r.0| == SliceBound(k1, |s|)
              && |r.0| + |r.1| == SliceBound(k2, |s|)
    ensures multiset(r.0) <= multiset(s) && multiset(r.1) <= multiset(s) && multiset(r.2) <= multiset(s)
  {
    (Slice(s, 0, k1), Slice(s, k1, k2), Slice(s, k2, |s|))
  }

  /** Whether `s[i]` is defined for a Python list, negative `i` counting from the end. */
  predicate InRange<T>(s: seq<T>, i: int) {
    -|s| <= i < |s|
  }

  /** `s[i]` for a Python list; out of range raises IndexError. */
  function Get<T>(s: seq<T>, i: int): (r: Result<T>)
    ensures r.Success? <==> InRange(s, i)
    ensures 0 <= i < |s| ==> r == Success(s[i])
    ensures -|s| <= i < 0 ==> r == Success(s[|s| + i])
  {
    if 0 <= i < |s| then Success(s[i])
    else if -|s| <= i < 0 then Success(s[|s| + i])
    else Failure(IndexOutOfRange(i))
  }

  /** `[s[i] for i in index]`: raises at the first index out of range. */
  function GetAll<T>(s: seq<T>, index: seq<int>): (r: Result<seq<T>>)
    ensures r.Success? <==> forall k :: 0 <= k < |index| ==> InRange(s, index[k])
    ensures r.Success? ==> |r.value| == |index|
    ensures r.Success? ==> forall k :: 0 <= k < |index| ==> Get(s, index[k]) == Success(r.value[k])
  {
    if index == [] then Success([])
    else
      var head :- Get(s, index[0]);
      var tail :- GetAll(s, index[1..]);
      Success([head] + tail)
  }

  /** `list(range(n))` */
  function Range(n: nat): (r: seq<int>)
    ensures |r| == n
    ensures forall i :: 0 <= i < n ==> r[i] == i
  {
    if n == 0 then [] else Range(n - 1) + [n - 1]
  }

  /** `len(s) == len(set(s))`, stated as: every element occurs once. */
  predicate NoDup(s: seq<int>) {
    forall x | x in s :: multiset(s)[x] == 1
  }

  /** `len([i for i in a if i in b]) == 0` */
  predicate Disjoint(a: seq<int>, b: seq<int>) {
    forall x | x in a :: x !in b
  }

  /** A sub-multiset of a duplicate-free sequence is duplicate-free. */
  lemma NoDupSub(a: seq<int>, b: seq<int>)
    requires multiset(a) <= multiset(b)
    requires NoDup(b)
    ensures NoDup(a)
  {
    forall x | x in a
      ensures multiset(a)[x] == 1
    {
      assert x in multiset(a);
      assert x in multiset(b);
    }
  }

  /** Disjointness survives shrinking both sides to sub-multisets. */
  lemma DisjointSub(a: seq<int>, b: seq<int>, a': seq<int>, b': seq<int>)
    requires multiset(a') <= multiset(a) && multiset(b') <= multiset(b)
    requires Disjoint(a, b)
    ensures Disjoint(a', b')
  {
    forall x | x in a'
      ensures x !in b'
    {
      assert x in multiset(a);
      assert x in a;
      assert x !in multiset(b);
    }
  }

  /** A concatenation is duplicate-free exactly when its parts are and they do not overlap. */
  lemma NoDupConcat(a: seq<int>, b: seq<int>)
    ensures NoDup(a + b) <==> NoDup(a) && NoDup(b) && Disjoint(a, b)
  {
    var m := multiset(a + b);
    assert m == multiset(a) + multiset(b);
    if NoDup(a + b) {
      forall x | x in a ensures multiset(a)[x] == 1 && x !in b {
        assert x in a + b;
      }
      forall x | x in b ensures multiset(b)[x] == 1 {
        assert x in a + b;
      }
    }
    if NoDup(a) && NoDup(b) && Disjoint(a, b) {
      forall x | x in a + b ensures m[x] == 1 {
        if x in a {
          assert multiset(b)[x] == 0;
        } else {
          assert x in b;
          assert multiset(a)[x] == 0;
        }
      }
    }
  }

  /** `str.isspace()` for one character (the Unicode whitespace Python recognises). */
  predicate IsSpace(c: char) {
    || c == ' '
    || ('\t' <= c <= '\r')
    || ('\U{1C}' <= c <= '\U{1F}')
    || c == '\U{85}' || c == '\U{A0}' || c == '\U{1680}'
    || ('\U{2000}' <= c <= '\U{200A}')
    || c == '\U{2028}' || c == '\U{2029}' || c == '\U{202F}' || c == '\U{205F}' || c == '\U{3000}'
  }

  /** `s.lstrip()` */
  function DropSpaces(s: string): (r: string)
    ensures |r| <= |s| && r == s[|s| - |r|..]
    ensures |r| > 0 ==> !IsSpace(r[0])
    ensures forall i :: 0 <= i < |s| - |r| ==> IsSpace(s[i])
  {
    if |s| > 0 && IsSpace(s[0]) then DropSpaces(s[1..]) else s
  }

  /** `s.rstrip()` */
  function DropTrailingSpaces(s: string): (r: string)
    ensures |r| <= |s| && r == s[..|r|]
    ensures |r| > 0 ==> !IsSpace(r[|r| - 1])
    ensures forall i :: |r| <= i < |s| ==> IsSpace(s[i])
  {
    if |s| > 0 && IsSpace(s[|s| - 1]) then DropTrailingSpaces(s[..|s| - 1]) else s
  }

  /** `s.strip()` */
  function Strip(s: string): string {
    DropTrailingSpaces(DropSpaces(s))
  }

  /** Length of the run of non-whitespace characters `s` ends with. */
  function TrailingWordLength(s: string): (n: nat)
    ensures n <= |s|
    ensures forall i :: |s| - n <= i < |s| ==> !IsSpace(s[i])
    ensures n < |s| ==> IsSpace(s[|s| - n - 1])
  {
    if |s| > 0 && !IsSpace(s[|s| - 1]) then 1 + TrailingWordLength(s[..|s| - 1]) else 0
  }

  /** A non-empty string without whitespace. */
  predicate IsWord(w: string) {
    |w| > 0 && forall j :: 0 <= j < |w| ==> !IsSpace(w[j])
  }

  /** `s.split()` with no argument: the maximal runs of non-whitespace
      characters, in order (peeled off from the end). */
  function Words(s: string): (r: seq<string>)
    ensures forall i :: 0 <= i < |r| ==> IsWord(r[i])
    decreases |s|
  {
    var t := DropTrailingSpaces(s);
    if |t| == 0 then []
    else
      var k := |t| - TrailingWordLength(t);
      var w := t[k..];
      assert IsWord(w) by {
        forall j | 0 <= j < |w| ensures !IsSpace(w[j]) { assert w[j] == t[k + j]; }
      }
      Words(t[..k]) + [w]
  }

  /** Appending a non-space character lengthens the trailing word by one. */
  lemma TrailingWordAppend(u: string, c: char)
    requires !IsSpace(c)
    ensures TrailingWordLength(u + [c]) == 1 + TrailingWordLength(u)
  {
    assert (u + [c])[..|u|] == u;
  }

  /** A word appended after a space is the whole trailing word. */
  lemma EndMarkerWordLength(s: string)
    ensures TrailingWordLength(s + " EOS") == 3
  {
    var u := s + " ";
    assert !IsSpace('E') && !IsSpace('O') && !IsSpace('S');
    assert TrailingWordLength(u) == 0;
    TrailingWordAppend(u, 'E');
    assert u + ['E'] == s + " E";
    TrailingWordAppend(s + " E", 'O');
    assert s + " E" + ['O'] == s + " EO";
    TrailingWordAppend(s + " EO", 'S');
    assert s + " EO" + ['S'] == s + " EOS";
  }

  /** Appending `" EOS"` appends exactly one word, `"EOS"`. */
  lemma WordsWithEndMarker(s: string)
    ensures Words(s + " EOS") == Words(s) + ["EOS"]
  {
    var t := s + " EOS";
    EndMarkerWordLength(s);
    assert DropTrailingSpaces(t) == t;
    assert t[..|t| - 3] == s + " ";
    assert t[|t| - 3..] == "EOS";
    WordsOfSpaceAppended(s);
  }

  /** A trailing space adds no word. */
  lemma WordsOfSpaceAppended(s: string)
    ensures Words(s + " ") == Words(s)
  {
    var u := s + " ";
    assert u[..|s|] == s;
    assert DropTrailingSpaces(u) == DropTrailingSpaces(s);
  }

  /** `s.endswith(x)` */
  predicate EndsWith(s: string, x: string) {
    |x| <= |s| && s[|s| - |x|..] == x
  }

  lemma EndsWithAppended(s: string, x: string)
    ensures EndsWith(s + x, x)
  {
    assert (s + x)[|s + x| - |x|..] == x;
  }

  /** Appending the same text to a string and to one of its endings keeps it an ending. */
  lemma EndsWithAppendedTo(s: string, x: string, y: string)
    requires EndsWith(s, x)
    ensures EndsWith(s + y, x + y)
  {
    assert (s + y)[|s + y| - |x + y|..] == s[|s| - |x|..] + y;
  }

  /** Two strings whose endings differ at the same distance from the end are different. */
  lemma EndingsDiffer(s: string, t: string, x: string, y: string, k: nat)
    requires EndsWith(s, x) && EndsWith(t, y)
    requires 1 <= k <= |x| && k <= |y| && x[|x| - k] != y[|y| - k]
    ensures s != t
  {
    assert s[|s| - k] == s[|s| - |x|..][|x| - k];
    assert t[|t| - k] == t[|t| - |y|..][|y| - k];
  }

  /** `os.path.join(a, b)` on POSIX for two components. */
  function PathJoin(a: string, b: string): (r: string)
    ensures |b| > 0 && b[0] == '/' ==> r == b
    ensures (|b| == 0 || b[0] != '/') ==> |r| >= |a| + |b|
    ensures (|b| == 0 || b[0] != '/') ==> r[..|a|] == a && r[|r| - |b|..] == b
    ensures (|b| == 0 || b[0] != '/') ==> EndsWith(r, b)
  {
    if |b| > 0 && b[0] == '/' then b
    else if a == [] || a[|a| - 1] == '/' then a + b
    else a + "/" + b
  }

  /** Joining a relative component and then appending text to the result is
      the same as joining the longer component. */
  lemma PathJoinExtend(a: string, b: string, c: string)
    requires |b + c| == 0 || (b + c)[0] != '/'
    ensures PathJoin(a, b) + c == PathJoin(a, b + c)
  {
    if |b| > 0 {
      assert b[0] == (b + c)[0];
    }
  }

  /** Decimal digits of a natural number. */
  function Digits(n: nat): (r: string)
    ensures |r| > 0
    ensures forall i :: 0 <= i < |r| ==> '0' <= r[i] <= '9'
  {
    var d := ['0' + (n % 10) as char];
    if n < 10 then d else Digits(n / 10) + d
  }

  /** `str(n)` for an int. */
  function DecimalString(n: int): string {
    if n < 0 then "-" + Digits(-n) else Digits(n)
  }

  /** `max(xs)` on a non-empty list (the empty list is the caller's error case). */
  function Max(xs: seq<int>): (r: int)
    requires |xs| > 0
    ensures r in xs
    ensures forall i :: 0 <= i < |xs| ==> xs[i] <= r
  {
    if |xs| == 1 then xs[0]
    else
      var m := Max(xs[1..]);
      if xs[0] >= m then xs[0] else m
  }
}

=== FILE: splits.dfy ===
/**
 * Train/valid/test index splitting of `Dataset` (tasks/code/dataset.py):
 * the seeded random splits, carving a validation part out of a given
 * training list, down-scaling, and the consistency checks of `split`.
 */
module Splits {
  import opened Wrappers
  import opened PyBuiltins

  const TRAIN_RATIO: real := 0.8
  const VALID_RATIO: real := 0.1
  const RANDOM_SEED: int := 42

  /** `np.random.seed(seed); np.random.permutation(xs)`: a reordering of
      `xs` that depends only on the seed and `xs`. */
  type Permuter = f: (int, seq<int>) -> seq<int>
    | forall seed, xs :: multiset(f(seed, xs)) == multiset(xs)
    witness (seed: int, xs: seq<int>) => xs

  datatype SplitIndex = SplitIndex(train: seq<int>, valid: seq<int>, test: seq<int>)

  /** What the assertions of `split` check: every list is duplicate-free
      and no index sits in two lists. */
  predicate WellFormed(s: SplitIndex) {
    && NoDup(s.train) && NoDup(s.valid) && NoDup(s.test)
    && Disjoint(s.train, s.valid) && Disjoint(s.train, s.test) && Disjoint(s.valid, s.test)
  }

  /** Ratios for which the two cuts land in order inside the list. */
  predicate OrderedRatios(trainRatio: real, validRatio: real) {
    0.0 <= trainRatio && 0.0 <= validRatio && trainRatio + validRatio <= 1.0
  }

  lemma PermutedLength(permute: Permuter, seed: int, xs: seq<int>)
    ensures |permute(seed, xs)| == |xs|
  {
    assert |multiset(permute(seed, xs))| == |multiset(xs)|;
  }

  /** `ratio * n` for a ratio and a list length, written as `n` additions of
      `ratio`; it equals the product (`ScaledIsProduct`) and keeps the proofs
      about cut points in linear arithmetic. */
  function Scaled(ratio: real, n: nat): real {
    if n == 0 then 0.0 else Scaled(ratio, n - 1) + ratio
  }

  lemma {:induction false} ScaledIsProduct(ratio: real, n: nat)
    ensures Scaled(ratio, n) == ratio * n as real
  {
    if n > 0 {
      ScaledIsProduct(ratio, n - 1);
      assert ratio * (n - 1) as real + ratio == ratio * n as real;
    }
  }

  lemma {:induction false} ScaledMonotone(a: real, b: real, n: nat)
    requires a <= b
    ensures Scaled(a, n) <= Scaled(b, n)
  {
    if n > 0 {
      ScaledMonotone(a, b, n - 1);
    }
  }

  lemma {:induction false} ScaledDifference(a: real, b: real, n: nat)
    ensures Scaled(a - b, n) == Scaled(a, n) - Scaled(b, n)
  {
    if n > 0 {
      ScaledDifference(a, b, n - 1);
    }
  }

  lemma {:induction false} ScaledConstant(c: real, n: nat)
    ensures c == 0.0 ==> Scaled(c, n) == 0.0
    ensures c == 1.0 ==> Scaled(c, n) == n as real
  {
    if n > 0 {
      ScaledConstant(c, n - 1);
    }
  }

  /** Two fractions of the same length keep their order and stay within it. */
  lemma FractionsOrdered(a: real, b: real, n: nat)
    requires 0.0 <= a <= b <= 1.0
    ensures 0.0 <= Scaled(a, n) <= Scaled(b, n) <= n as real
  {
    ScaledConstant(0.0, n);
    ScaledConstant(1.0, n);
    ScaledMonotone(0.0, a, n);
    ScaledMonotone(a, b, n);
    ScaledMonotone(b, 1.0, n);
  }

  /** Truncation keeps the order of non-negative values and their integer bound. */
  lemma TruncMonotone(x: real, y: real, n: nat)
    requires 0.0 <= x <= y <= n as real
    ensures 0 <= Trunc(x) <= Trunc(y) <= n
  {
  }

  /** The two cuts of the random split are ordered and inside the list. */
  lemma RandomCutsOrdered(trainRatio: real, validRatio: real, n: nat)
    requires OrderedRatios(trainRatio, validRatio)
    ensures 0 <= Trunc(Scaled(trainRatio, n)) <= Trunc(Scaled(trainRatio + validRatio, n)) <= n
  {
    FractionsOrdered(trainRatio, trainRatio + validRatio, n);
    TruncMonotone(Scaled(trainRatio, n), Scaled(trainRatio + validRatio, n), n);
  }

  /** `random_split_train_valid_test`: permute `0..length-1` and cut it at
      `int(train_ratio*length)` and `int((train_ratio+valid_ratio)*length)`. */
  function RandomSplitTrainValidTest(permute: Permuter, length: nat, trainRatio: real, validRatio: real, seed: int)
    : (r: SplitIndex)
    ensures OrderedRatios(trainRatio, validRatio) ==>
              && r.train + r.valid + r.test == permute(seed, Range(length))
              && |r.train| == Trunc(Scaled(trainRatio, length))
              && |r.train| + |r.valid| == Trunc(Scaled(trainRatio + validRatio, length))
  {
    var p := permute(seed, Range(length));
    PermutedLength(permute, seed, Range(length));
    var parts := SplitAt2(p, Trunc(Scaled(trainRatio, length)), Trunc(Scaled(trainRatio + validRatio, length)));
    if OrderedRatios(trainRatio, validRatio) then
      RandomCutsOrdered(trainRatio, validRatio, length);
      SplitIndex(parts.0, parts.1, parts.2)
    else
      SplitIndex(parts.0, parts.1, parts.2)
  }

  lemma {:induction false} RangeNoDup(n: nat)
    ensures NoDup(Range(n))
  {
    if n > 0 {
      RangeNoDup(n - 1);
      NoDupConcat(Range(n - 1), [n - 1]);
    }
  }

  /** With ordered ratios the three random lists pass the checks of `split`. */
  lemma RandomSplitWellFormed(permute: Permuter, length: nat, trainRatio: real, validRatio: real, seed: int)
    requires OrderedRatios(trainRatio, validRatio)
    ensures WellFormed(RandomSplitTrainValidTest(permute, length, trainRatio, validRatio, seed))
  {
    var r := RandomSplitTrainValidTest(permute, length, trainRatio, validRatio, seed);
    var p := permute(seed, Range(length));
    RangeNoDup(length);
    NoDupSub(p, Range(length));
    assert p == (r.train + r.valid) + r.test;
    NoDupConcat(r.train + r.valid, r.test);
    NoDupConcat(r.train, r.valid);
    forall x | x in r.train ensures x !in r.test {
      assert x in r.train + r.valid;
    }
    forall x | x in r.valid ensures x !in r.test {
      assert x in r.train + r.valid;
    }
  }

  /** With ordered ratios every index `0..length-1` lands in one of the lists, and nothing else does. */
  lemma RandomSplitCovers(permute: Permuter, length: nat, trainRatio: real, validRatio: real, seed: int)
    requires OrderedRatios(trainRatio, validRatio)
    ensures var r := RandomSplitTrainValidTest(permute, length, trainRatio, validRatio, seed);
            forall i :: 0 <= i < length <==> i in r.train || i in r.valid || i in r.test
  {
    var r := RandomSplitTrainValidTest(permute, length, trainRatio, validRatio, seed);
    var p := permute(seed, Range(length));
    assert p == r.train + r.valid + r.test;
    forall i ensures 0 <= i < length <==> i in r.train || i in r.valid || i in r.test {
      assert i in p <==> i in multiset(Range(length));
      if 0 <= i < length {
        assert Range(length)[i] == i;
      }
    }
  }

  /** The cut `int(1.0 - valid_ratio * n)` of the carving as written. */
  function AsWrittenCarveCut(validRatio: real, n: nat): int {
    Trunc(1.0 - Scaled(validRatio, n))
  }

  /** `random_split_train_valid` exactly as written: the cut is
      `int(1.0 - valid_ratio * len)`, which is a valid-part size only by accident. */
  function CarveValidAsWritten(permute: Permuter, train: seq<int>, validRatio: real, seed: int)
    : (r: (seq<int>, seq<int>))
    ensures r.0 + r.1 == permute(seed, train)
    ensures |r.0| == SliceBound(AsWrittenCarveCut(validRatio, |train|), |train|)
  {
    var p := permute(seed, train);
    PermutedLength(permute, seed, train);
    SplitAt(p, AsWrittenCarveCut(validRatio, |train|))
  }

  /** Where `int(1.0 - v)` lands once Python normalises it as a slice bound
      of a list of length `n`. */
  lemma AsWrittenCut(v: real, n: nat)
    ensures v == 0.0 && n >= 1 ==> SliceBound(Trunc(1.0 - v), n) == 1
    ensures 0.0 < v < 2.0 ==> SliceBound(Trunc(1.0 - v), n) == 0
    ensures 2.0 <= v <= n as real ==> SliceBound(Trunc(1.0 - v), n) == n + 1 - v.Floor
  {
    if 2.0 <= v {
      assert Trunc(1.0 - v) == 1 - v.Floor;
    }
  }

  /** With a zero valid ratio the as-written carve keeps one training item and
      moves all the others to the validation part. */
  lemma CarveValidAsWrittenZeroRatio(permute: Permuter, train: seq<int>, seed: int)
    requires |train| >= 1
    ensures var r := CarveValidAsWritten(permute, train, 0.0, seed);
            |r.0| == 1 && |r.1| == |train| - 1
  {
    var r := CarveValidAsWritten(permute, train, 0.0, seed);
    PermutedLength(permute, seed, train);
    ScaledConstant(0.0, |train|);
    AsWrittenCut(0.0, |train|);
    assert |r.0| + |r.1| == |train|;
  }

  /** When `valid_ratio * len` lies strictly between 0 and 2, the as-written
      carve leaves the training part empty and moves everything to validation. */
  lemma CarveValidAsWrittenSmall(permute: Permuter, train: seq<int>, validRatio: real, seed: int)
    requires 0.0 < Scaled(validRatio, |train|) < 2.0
    ensures var r := CarveValidAsWritten(permute, train, validRatio, seed);
            r.0 == [] && r.1 == permute(seed, train)
  {
    var r := CarveValidAsWritten(permute, train, validRatio, seed);
    AsWrittenCut(Scaled(validRatio, |train|), |train|);
    assert r.0 == [];
    assert r.0 + r.1 == r.1;
  }

  /** When `2 <= valid_ratio * len <= len`, the as-written carve's validation
      part holds one item fewer than `floor(valid_ratio * len)`. */
  lemma CarveValidAsWrittenLarge(permute: Permuter, train: seq<int>, validRatio: real, seed: int)
    requires 2.0 <= Scaled(validRatio, |train|) <= |train| as real
    ensures var r := CarveValidAsWritten(permute, train, validRatio, seed);
            |r.1| == Scaled(validRatio, |train|).Floor - 1
  {
    var r := CarveValidAsWritten(permute, train, validRatio, seed);
    PermutedLength(permute, seed, train);
    AsWrittenCut(Scaled(validRatio, |train|), |train|);
    assert |r.0| + |r.1| == |train|;
  }

  /** The cut `int((1.0 - valid_ratio) * n)` the carving evidently means. */
  function IntendedCarveCut(validRatio: real, n: nat): int {
    Trunc(Scaled(1.0 - validRatio, n))
  }

  /** For `0 <= x <= n`, `int(n - x)` is `n` minus the ceiling of `x`. */
  lemma TruncComplement(x: real, n: nat)
    requires 0.0 <= x <= n as real
    ensures 0 <= Trunc(n as real - x) <= n
    ensures n - Trunc(n as real - x) == -((-x).Floor)
  {
    var k1 := (n as real - x).Floor;
    var k2 := (-x).Floor;
    assert k1 == n + k2;
  }

  /** `n - int((1 - r) * n)` is the ceiling of `r * n`. */
  lemma IntendedCut(validRatio: real, n: nat)
    requires 0.0 <= validRatio <= 1.0
    ensures 0 <= IntendedCarveCut(validRatio, n) <= n
    ensures n - IntendedCarveCut(validRatio, n) == -((-Scaled(validRatio, n)).Floor)
  {
    FractionsOrdered(validRatio, validRatio, n);
    ScaledDifference(1.0, validRatio, n);
    ScaledConstant(1.0, n);
    TruncComplement(Scaled(validRatio, n), n);
  }

  /** `random_split_train_valid` with the cut it evidently means,
      `int((1.0 - valid_ratio) * len)`: the validation part gets the ceiling
      of `valid_ratio * len` items. */
  function CarveValid(permute: Permuter, train: seq<int>, validRatio: real, seed: int)
    : (r: (seq<int>, seq<int>))
    ensures r.0 + r.1 == permute(seed, train)
    ensures 0.0 <= validRatio <= 1.0 ==> |r.1| == -((-Scaled(validRatio, |train|)).Floor)
  {
    var p := permute(seed, train);
    var n := |train|;
    PermutedLength(permute, seed, train);
    var r := SplitAt(p, IntendedCarveCut(validRatio, n));
    if 0.0 <= validRatio <= 1.0 then
      IntendedCut(validRatio, n);
      r
    else
      r
  }

  /** Ten training indices and the default valid ratio 0.1: as written, the
      carve leaves no training data at all; the intended cut keeps nine. */
  lemma CarveValidCounterexample(permute: Permuter, train: seq<int>, seed: int)
    requires |train| == 10
    ensures CarveValidAsWritten(permute, train, VALID_RATIO, seed).0 == []
    ensures |CarveValid(permute, train, VALID_RATIO, seed).0| == 9
    ensures |CarveValid(permute, train, VALID_RATIO, seed).1| == 1
  {
    ScaledIsProduct(VALID_RATIO, 10);
    CarveValidAsWrittenSmall(permute, train, VALID_RATIO, seed);
    PermutedLength(permute, seed, train);
  }

  /** `int(scale_ratio * n)` */
  function ScaledSize(scaleRatio: real, n: nat): int {
    Trunc(Scaled(scaleRatio, n))
  }

  lemma ScaleCut(scaleRatio: real, n: nat)
    requires 0.0 <= scaleRatio <= 1.0
    ensures 0 <= ScaledSize(scaleRatio, n) <= n
  {
    FractionsOrdered(scaleRatio, scaleRatio, n);
  }

  /** `scale`: the first `int(scale_ratio * len)` items of a seeded
      permutation of the list (Python's negative slicing included). */
  function Scale(permute: Permuter, index: seq<int>, seed: int, scaleRatio: real): (r: seq<int>)
    ensures r <= permute(seed, index)
    ensures multiset(r) <= multiset(index)
    ensures 0.0 <= scaleRatio <= 1.0 ==> |r| == ScaledSize(scaleRatio, |index|)
  {
    var p := permute(seed, index);
    PermutedLength(permute, seed, index);
    var parts := SplitAt(p, ScaledSize(scaleRatio, |index|));
    assert p == parts.0 + parts.1;
    assert multiset(p) == multiset(parts.0) + multiset(parts.1);
    if 0.0 <= scaleRatio <= 1.0 then
      ScaleCut(scaleRatio, |index|);
      parts.0
    else
      parts.0
  }

  /** `scale` applied to each of the three lists, with one seed. */
  function ScaleAll(permute: Permuter, s: SplitIndex, seed: int, scaleRatio: real): (r: SplitIndex)
    ensures r.train <= permute(seed, s.train) && r.valid <= permute(seed, s.valid) && r.test <= permute(seed, s.test)
    ensures 0.0 <= scaleRatio <= 1.0 ==>
              && |r.train| == ScaledSize(scaleRatio, |s.train|)
              && |r.valid| == ScaledSize(scaleRatio, |s.valid|)
              && |r.test| == ScaledSize(scaleRatio, |s.test|)
  {
    SplitIndex(Scale(permute, s.train, seed, scaleRatio),
               Scale(permute, s.valid, seed, scaleRatio),
               Scale(permute, s.test, seed, scaleRatio))
  }

  /** Down-scaling keeps every list duplicate-free and the lists disjoint. */
  lemma ScaleKeepsWellFormed(permute: Permuter, s: SplitIndex, seed: int, scaleRatio: real)
    requires WellFormed(s)
    ensures WellFormed(ScaleAll(permute, s, seed, scaleRatio))
  {
    var t := ScaleAll(permute, s, seed, scaleRatio);
    NoDupSub(t.train, s.train);
    NoDupSub(t.valid, s.valid);
    NoDupSub(t.test, s.test);
    DisjointSub(s.train, s.valid, t.train, t.valid);
    DisjointSub(s.train, s.test, t.train, t.test);
    DisjointSub(s.valid, s.test, t.valid, t.test);
  }

  /** The content of `index.json.gz` when the file exists. */
  type IndexFile = map<string, seq<int>>

  /** The lists `split` has before its checks: the random split when no
      index file exists, else the file's lists, carving `valid` out of
      `train` when the file has none. */
  function Unchecked(permute: Permuter, length: nat, indexFile: Option<IndexFile>,
                     trainRatio: real, validRatio: real, seed: int): (r: Result<SplitIndex>)
    ensures indexFile.None? ==> r == Success(RandomSplitTrainValidTest(permute, length, trainRatio, validRatio, seed))
    ensures indexFile.Some? ==> (r.Success? <==> "train" in indexFile.value && "test" in indexFile.value)
    ensures indexFile.Some? && r.Success? ==>
              var index := indexFile.value;
              && r.value.test == index["test"]
              && ("valid" in index ==> r.value.train == index["train"] && r.value.valid == index["valid"])
              && ("valid" !in index ==> r.value.train + r.value.valid == permute(seed, index["train"]))
              && ("valid" !in index && 0.0 <= validRatio <= 1.0 ==>
                    |r.value.valid| == -((-Scaled(validRatio, |index["train"]|)).Floor))
  {
    match indexFile
    case None => Success(RandomSplitTrainValidTest(permute, length, trainRatio, validRatio, seed))
    case Some(index) =>
      if !("train" in index && "test" in index) then
        Failure(AssertionFailed("'train' in index and 'test' in index"))
      else if "valid" in index then
        Success(SplitIndex(index["train"], index["valid"], index["test"]))
      else
        var carved := CarveValid(permute, index["train"], validRatio, seed);
        Success(SplitIndex(carved.0, carved.1, index["test"]))
  }

  /** `split`: pick the lists, assert they are consistent, then down-scale
      them when a scale ratio below 1 is given. */
  function Split(permute: Permuter, length: nat, indexFile: Option<IndexFile>,
                 trainRatio: real, validRatio: real, seed: int, scaleRatio: Option<real>)
    : (r: Result<SplitIndex>)
    ensures r.Success? ==> WellFormed(r.value)
    ensures var u := Unchecked(permute, length, indexFile, trainRatio, validRatio, seed);
            r.Success? <==> u.Success? && WellFormed(u.value)
    ensures indexFile.Some? && !("train" in indexFile.value && "test" in indexFile.value) ==> r.Failure?
    ensures var u := Unchecked(permute, length, indexFile, trainRatio, validRatio, seed);
            (scaleRatio.None? || scaleRatio.value >= 1.0) && r.Success? ==> r.value == u.value
    ensures var u := Unchecked(permute, length, indexFile, trainRatio, validRatio, seed);
            scaleRatio.Some? && scaleRatio.value < 1.0 && r.Success? ==>
              r.value == ScaleAll(permute, u.value, seed, scaleRatio.value)
  {
    var u :- Unchecked(permute, length, indexFile, trainRatio, validRatio, seed);
    if !WellFormed(u) then
      Failure(AssertionFailed("split lists repeat or overlap"))
    else if scaleRatio.Some? && scaleRatio.value < 1.0 then
      ScaleKeepsWellFormed(permute, u, seed, scaleRatio.value);
      Success(ScaleAll(permute, u, seed, scaleRatio.value))
    else
      Success(u)
  }

  /** Without an index file and with ordered ratios, `split` never fails. */
  lemma SplitRandomSucceeds(permute: Permuter, length: nat, trainRatio: real, validRatio: real,
                            seed: int, scaleRatio: Option<real>)
    requires OrderedRatios(trainRatio, validRatio)
    ensures Split(permute, length, None, trainRatio, validRatio, seed, scaleRatio).Success?
  {
    RandomSplitWellFormed(permute, length, trainRatio, validRatio, seed);
  }

  /** Given train and test lists that are consistent, `split` succeeds
      whether or not the file also gives a valid list; a given valid list is
      used as is. */
  lemma SplitGivenSucceeds(permute: Permuter, length: nat, index: IndexFile, trainRatio: real, validRatio: real,
                           seed: int, scaleRatio: Option<real>)
    requires "train" in index && "test" in index
    requires NoDup(index["train"]) && NoDup(index["test"]) && Disjoint(index["train"], index["test"])
    requires "valid" in index ==> WellFormed(SplitIndex(index["train"], index["valid"], index["test"]))
    ensures var r := Split(permute, length, Some(index), trainRatio, validRatio, seed, scaleRatio);
            && r.Success?
            && ("valid" in index && (scaleRatio.None? || scaleRatio.value >= 1.0) ==>
                  r.value == SplitIndex(index["train"], index["valid"], index["test"]))
  {
    if "valid" !in index {
      var carved := CarveValid(permute, index["train"], validRatio, seed);
      var p := permute(seed, index["train"]);
      NoDupSub(p, index["train"]);
      NoDupConcat(carved.0, carved.1);
      assert multiset(p) == multiset(carved.0) + multiset(carved.1);
      DisjointSub(index["train"], index["test"], carved.0, index["test"]);
      DisjointSub(index["train"], index["test"], carved.1, index["test"]);
    }
  }
}

=== FILE: vocab_freq.dfy ===
/**
 * Word-frequency tables (the pickled `vocab_freq_dict`s) and how several of
 * them are merged into one shared table before a common vocabulary is built.
 */
module VocabFreq {

  /** word -> number of occurrences */
  type FreqTable = map<string, int>

  /** `x.get(w, 0)`: a missing word counts as 0. */
  function Count(x: FreqTable, w: string): int {
    if w in x then x[w] else 0
  }

  /** `combine_dicts(x, y)`: every word of either table, with its counts added. */
  function CombineDicts(x: FreqTable, y: FreqTable): (r: FreqTable)
    ensures r.Keys == x.Keys + y.Keys
    ensures forall w :: Count(r, w) == Count(x, w) + Count(y, w)
  {
    map w | w in x.Keys + y.Keys :: Count(x, w) + Count(y, w)
  }

  lemma CombineCommutative(x: FreqTable, y: FreqTable)
    ensures CombineDicts(x, y) == CombineDicts(y, x)
  {
  }

  lemma CombineAssociative(x: FreqTable, y: FreqTable, z: FreqTable)
    ensures CombineDicts(CombineDicts(x, y), z) == CombineDicts(x, CombineDicts(y, z))
  {
  }

  lemma CombineIdentity(x: FreqTable)
    ensures CombineDicts(map[], x) == x
    ensures CombineDicts(x, map[]) == x
  {
  }

  /** {the: 5, cat: 2} merged with {the: 3, dog: 1} is {the: 8, cat: 2, dog: 1}. */
  lemma CombineExample()
    ensures CombineDicts(map["the" := 5, "cat" := 2], map["the" := 3, "dog" := 1])
            == map["the" := 8, "cat" := 2, "dog" := 1]
  {
    var r := CombineDicts(map["the" := 5, "cat" := 2], map["the" := 3, "dog" := 1]);
    assert Count(r, "the") == 8 && Count(r, "cat") == 2 && Count(r, "dog") == 1;
  }

  /** Reference definition: the sum of a word's counts over a list of tables. */
  function TotalCount(tables: seq<FreqTable>, w: string): int {
    if tables == [] then 0 else Count(tables[0], w) + TotalCount(tables[1..], w)
  }

  /** Whether some table of the list has the word. */
  predicate InSome(tables: seq<FreqTable>, w: string) {
    exists i :: 0 <= i < |tables| && w in tables[i]
  }

  lemma {:induction false} TotalCountAppend(a: seq<FreqTable>, b: seq<FreqTable>, w: string)
    ensures TotalCount(a + b, w) == TotalCount(a, w) + TotalCount(b, w)
    decreases |a|
  {
    if a == [] {
      assert a + b == b;
    } else {
      assert (a + b)[1..] == a[1..] + b;
      TotalCountAppend(a[1..], b, w);
    }
  }

  /** The loop of `merge_save_vocab_dicts`: start from `{}` and combine each
      table in turn, so the result holds every word of every table with the
      sum of its counts. */
  function MergeAll(tables: seq<FreqTable>): (r: FreqTable)
    ensures forall w :: w in r <==> InSome(tables, w)
    ensures forall w :: Count(r, w) == TotalCount(tables, w)
    decreases |tables|
  {
    if tables == [] then map[]
    else
      var init := tables[..|tables| - 1];
      var last := tables[|tables| - 1];
      assert tables == init + [last];
      MergeAllStep(init, last);
      CombineDicts(MergeAll(init), last)
  }

  lemma MergeAllStep(init: seq<FreqTable>, last: FreqTable)
    ensures forall w :: TotalCount(init + [last], w) == TotalCount(init, w) + Count(last, w)
    ensures forall w :: InSome(init + [last], w) <==> InSome(init, w) || w in last
  {
    forall w ensures TotalCount(init + [last], w) == TotalCount(init, w) + Count(last, w) {
      TotalCountAppend(init, [last], w);
    }
    var ts := init + [last];
    forall w | InSome(ts, w) ensures InSome(init, w) || w in last {
      var i :| 0 <= i < |ts| && w in ts[i];
      if i < |init| { assert ts[i] == init[i]; }
    }
    forall w | InSome(init, w) ensures InSome(ts, w) {
      var i :| 0 <= i < |init| && w in init[i];
      assert ts[i] == init[i];
    }
    forall w | w in last ensures InSome(ts, w) {
      assert ts[|init|] == last;
    }
  }

  lemma {:induction false} TotalCountPermutation(ts: seq<FreqTable>, us: seq<FreqTable>, w: string)
    requires multiset(ts) == multiset(us)
    ensures TotalCount(ts, w) == TotalCount(us, w)
    decreases |ts|
  {
    if ts != [] {
      var x := ts[0];
      assert x in multiset(us);
      var j :| 0 <= j < |us| && us[j] == x;
      var rest := us[..j] + us[j + 1..];
      assert us == us[..j] + [x] + us[j + 1..];
      assert ts == [x] + ts[1..];
      assert multiset(us) == multiset(us[..j]) + multiset([x]) + multiset(us[j + 1..]);
      assert multiset(ts) == multiset([x]) + multiset(ts[1..]);
      assert multiset(rest) == multiset(us[..j]) + multiset(us[j + 1..]);
      forall y ensures multiset(ts[1..])[y] == multiset(rest)[y] {
        assert multiset(ts)[y] == multiset(us)[y];
      }
      assert multiset(ts[1..]) == multiset(rest);
      TotalCountPermutation(ts[1..], rest, w);
      TotalCountAppend(us[..j], us[j + 1..], w);
      TotalCountAppend(us[..j] + [x], us[j + 1..], w);
      TotalCountAppend(us[..j], [x], w);
    }
  }

  /** Merging is insensitive to the order the tables (the vocabulary paths) come in. */
  lemma MergeAllOrderIndependent(ts: seq<FreqTable>, us: seq<FreqTable>)
    requires multiset(ts) == multiset(us)
    ensures MergeAll(ts) == MergeAll(us)
  {
    var a := MergeAll(ts);
    var b := MergeAll(us);
    forall w ensures w in a <==> w in b {
      if InSome(ts, w) {
        var i :| 0 <= i < |ts| && w in ts[i];
        assert ts[i] in multiset(us);
        var j :| 0 <= j < |us| && us[j] == ts[i];
      }
      if InSome(us, w) {
        var j :| 0 <= j < |us| && w in us[j];
        assert us[j] in multiset(ts);
        var i :| 0 <= i < |ts| && ts[i] == us[j];
      }
    }
    forall w | w in a ensures a[w] == b[w] {
      TotalCountPermutation(ts, us, w);
      assert Count(a, w) == Count(b, w);
    }
  }
}

=== FILE: wrappers.dfy ===
/** Failure-compatible result type and the Python exceptions the modelled code can raise. */
module Wrappers {

  datatype Option<+T> = None | Some(value: T)

  /** The exception a Python statement raises, reduced to its class and a short detail. */
  datatype Error =
    | AssertionFailed(what: string)   // a failing `assert`
    | KeyMissing(key: string)         // KeyError from a dict or DataFrame lookup
    | IndexOutOfRange(index: int)     // IndexError from list indexing
    | ValueError(what: string)        // ValueError, e.g. max() of an empty list
    | TypeError(what: string)         // TypeError, e.g. len() of a number
    | FileMissing(path: string)       // FileNotFoundError from open()
    | NameUnbound(name: string)       // UnboundLocalError: a local never assigned

  datatype Result<+T> = Success(value: T) | Failure(error: Error) {

    predicate IsFailure() {
      Failure?
    }

    function PropagateFailure<U>(): Result<U>
      requires Failure?
    {
      Failure(error)
    }

    function Extract(): T
      requires Success?
    {
      value
    }
  }

  /** `Need(c, e)` passes when `c` holds and raises `e` otherwise. */
  datatype Outcome = Pass | Fail(error: Error) {

    predicate IsFailure() {
      Fail?
    }

    function PropagateFailure<U>(): Result<U>
      requires Fail?
    {
      Failure(error)
    }
  }

  function Need(condition: bool, error: Error): Outcome
  {
    if condition then Pass else Fail(error)
  }
}
